=== FILE: README.md ===
# A Dafny model of the synthetic-data core

This project models the pure, sequential logic of a text-to-SQL and
synthetic-data tool that reads a SQL schema, asks a language model to fill
its tables, and answers questions with guarded SELECT queries. The five
pieces modelled are:

- **The DDL parser** (`DdlParser`, `ddl_parser.dfy`). It splits a
  `CREATE TABLE` body on top-level commas and tells constraints from columns.
  It reads a column's name, type, `NOT NULL`/`PRIMARY KEY`/`UNIQUE` flags and
  `DEFAULT`, and reads `PRIMARY KEY (...)` and
  `FOREIGN KEY (...) REFERENCES t(...)`. It then links primary-key names back
  to their columns.
- **The generation order** (`DdlOrder`, `ddl_order.dfy`). This is the
  depth-first post-order over foreign-key edges that `get_generation_order`
  computes. It is proved to list every table once and, on an acyclic schema,
  to put every referenced table before the tables that reference it.
- **The data generator** (`DataGenerator`, `data_generator.dfy`). It covers
  the batch plan (at most 20 rows per call) and primary-key renumbering. It
  covers the SQL-type-to-JSON-type map, the JSON schema and its `required`
  list, the constraint tags and foreign-key samples placed in the prompt,
  and the three response envelopes. It also covers `regenerate_table`,
  `generate_all_tables` and `get_data`. The language model is a function
  parameter (`Backend`) that receives the request and the index of the call.
- **The SQL guardrails** (`SqlGuardrails`, `sql_guardrails.dfy`). These are
  the fixed-order checks of `validate_query` (empty, SELECT prefix, whole-word
  dangerous keywords, injection patterns, table whitelist) and the rewriting
  done by `add_limit_clause`.
- **The MySQL-to-PostgreSQL converter** (`DdlConverter`, `ddl_converter.dfy`).
  It covers the ordered regular-expression rewrites, backtick removal and the
  whitespace normalisation, plus `detect_mysql_syntax`.
- **The chart decision** (`Visualizer`, `visualizer.dfy`). It covers the
  decision table shared by `get_chart_recommendation` and `create_chart`,
  over a frame abstracted to its row count and the classified kinds of its
  columns.

`Results` (`results.dfy`) holds `Option` and `Result`. `Text` (`text.dfy`)
holds the Python string operations and regular-expression building blocks the
source relies on: `str.strip`, `str.split`, `str.upper`, `\s`, `\w`, `\b`,
case-insensitive literals, `str(n)`/`int(s)` and leftmost search.

Each regular expression the source uses is a hand-written matcher
`(text, position) -> Option<end>`. `Text.FirstMatch` is `re.search`, and
`DdlConverter.Sub` and `SqlGuardrails.ReplaceLimits` are `re.sub`. A pandas
frame is a list of column names and a sequence of rows, each a map from
column name to a JSON value.

## Model

| member | source | states |
|---|---|---|
| Text.SplitWs | src/tools/ddl_parser.py:203 | `str.split()`: the pieces are non-empty and contain no whitespace |
| Text.SplitWsConcat | src/tools/ddl_parser.py:203 | run together, the pieces of `str.split()` are the text with its whitespace removed |
| Text.DropSpaceOfRun | src/tools/ddl_parser.py:203 | removing the whitespace from leading whitespace, a word and a rest leaves the word followed by the rest without whitespace |
| Text.SplitWsHead | src/tools/ddl_parser.py:203 | a word followed by nothing or by whitespace is the first piece of the split, and the rest splits on its own |
| Text.SplitWsSkipsSpace | src/tools/ddl_parser.py:203 | leading whitespace does not change the split |
| Text.SplitWsJoin | src/tools/ddl_parser.py:203 | splitting non-empty, whitespace-free words joined by single spaces gives the words back |
| Text.SplitOn | src/tools/ddl_parser.py:261 | `str.split(",")`: at least one piece, no piece holds the separator, and joining the pieces with the separator gives back the input |
| Text.DigitsValueOfNatToString | src/tools/sql_guardrails.py:224-230 | `int(str(n)) == n`, so a cap written as `LIMIT n` reads back as `n` |
| Text.FirstMatch | src/tools/ddl_parser.py:219 | `re.search`: the match found is the leftmost one at or after the start, and when none is found no position matches |
| Text.StripSlice | src/tools/sql_guardrails.py:105 | `str.strip()` returns a slice of its input that is followed by nothing or by whitespace |
| DdlParser.Insert | src/tools/ddl_parser.py:115 | assigning into the ordered table dictionary: a known name keeps its position, a new name goes last, and the names stay distinct and match the keys |
| DdlParser.CleanIdentifier | src/tools/ddl_parser.py:291-300 | the cleaned identifier is no longer than the input and neither starts nor ends with a backtick |
| DdlParser.CleanIdentifierKeepsCleanNames | src/tools/ddl_parser.py:291-300 | an identifier with no surrounding quote or whitespace is returned unchanged |
| DdlParser.CleanIdentifierUnquotes | src/tools/ddl_parser.py:291-300 | a clean name wrapped in double quotes, single quotes or backticks comes back without them |
| DdlParser.TrimBoth | src/tools/ddl_parser.py:300 | one `strip` of a quote character removes exactly the quote on each side of a name that does not start or end with it |
| DdlParser.SplitPiecesJoin | src/tools/ddl_parser.py:151-171 | joining the pieces of the depth-tracking scan with "," gives back the scanned text |
| DdlParser.SplitPiecesShape | src/tools/ddl_parser.py:156-166 | no piece contains a comma at parenthesis depth zero, and every piece but the last closes all its parentheses, so `DECIMAL(10,2)` is never split |
| DdlParser.SplitByComma | src/tools/ddl_parser.py:142-171 | the definitions are the depth-zero pieces with a trailing empty piece dropped; joining them with "," gives the body back, or the body minus its final comma |
| DdlParser.DefaultAt | src/tools/ddl_parser.py:219-221 | a `DEFAULT` match yields a non-empty token with no whitespace and no comma |
| DdlParser.DefaultValue | src/tools/ddl_parser.py:217-221 | a default is found exactly when `DEFAULT\s+[^\s,]+` matches somewhere in the definition |
| DdlParser.ParseColumn | src/tools/ddl_parser.py:194-230 | no column iff the definition has fewer than two whitespace tokens; otherwise the name is the cleaned first token, the type the upper-cased second, and each flag is true exactly when its phrase occurs in the upper-cased text |
| DdlParser.ParseColumnOfWords | src/tools/ddl_parser.py:194-209 | a definition made of a name, one space, a type and then nothing or whitespace (such as `id INTEGER PRIMARY KEY`) is a column named by the cleaned name, of the upper-cased type |
| DdlParser.SplitOfWords | src/tools/ddl_parser.py:203 | the first two tokens of such a stripped definition are its name and its type |
| DdlParser.StripOfWords | src/tools/ddl_parser.py:203 | stripping such a definition keeps the name, the space and the type, followed by nothing or by whitespace |
| DdlParser.SplitWords | src/tools/ddl_parser.py:203 | a name, a space, a type and a rest that is empty or starts with whitespace split into the name, the type and the rest's own pieces |
| DdlParser.PrimaryKeyAt | src/tools/ddl_parser.py:257 | a `PRIMARY\s+KEY\s*\(([^)]+)\)` match captures a non-empty name list with no `)` |
| DdlParser.ReferencesAt | src/tools/ddl_parser.py:274 | the `REFERENCES\s+(\w+)\s*\(([^)]+)\)` tail captures a non-empty word-character table name and a non-empty column with no `)` |
| DdlParser.ForeignKeyAt | src/tools/ddl_parser.py:273-277 | a foreign-key match captures a non-empty column, a word-character table name and a referenced column, none containing `)` |
| DdlParser.ParsePrimaryKeyConstraint | src/tools/ddl_parser.py:249-263 | without a match nothing changes; with one, exactly the cleaned, stripped names of the captured list are appended in order, and columns and foreign keys are untouched |
| DdlParser.ParseForeignKeyConstraint | src/tools/ddl_parser.py:265-289 | without a match nothing changes; with one, exactly one foreign key with the three cleaned captures is appended |
| DdlParser.ParseConstraint | src/tools/ddl_parser.py:232-247 | a constraint mentioning PRIMARY KEY never adds a foreign key, even if it also says FOREIGN KEY; one mentioning neither (UNIQUE, CHECK) changes nothing; keys are only ever appended |
| DdlParser.IsConstraintDefinition | src/tools/ddl_parser.py:173-192 | a definition is a constraint iff its stripped text begins, ignoring case, with PRIMARY KEY, FOREIGN KEY, UNIQUE, CHECK or CONSTRAINT: a prefix test on characters, not on a whole word |
| DdlParser.KeywordNamedColumnDropped | src/tools/ddl_parser.py:133-140 | a column whose name begins with a constraint keyword (`unique_code INTEGER`, `check_in DATE`, `constraint_id INT`) parses as a column but is classified as a constraint, so the definition adds no column |
| DdlParser.ApplyDefinition | src/tools/ddl_parser.py:127-140 | one definition adds at most one column and at most one foreign key, and only appends |
| DdlParser.ApplyDefinitionCases | src/tools/ddl_parser.py:127-140 | a blank definition is skipped; a constraint adds no column; a column definition adds exactly the parsed column, if any, and no key |
| DdlParser.ParseColumnDefinitions | src/tools/ddl_parser.py:117-140 | the table only grows by appending: earlier columns and keys are kept as a prefix, with at most one column and one foreign key per definition |
| DdlParser.ParseColumnDefinitionsSnoc | src/tools/ddl_parser.py:127-140 | the loop applies definitions one at a time, in order: one more definition is one more step on the table built so far |
| DdlParser.ApplyColumnDefinition | src/tools/ddl_parser.py:128-140 | a non-blank, non-constraint definition whose column parses appends exactly that column and touches no key |
| DdlParser.ParsedColumns | src/tools/ddl_parser.py:137-140 | the columns parsed from a list of definitions, in order, at most one per definition |
| DdlParser.ColumnDefinitionStep | src/tools/ddl_parser.py:127-140 | the first of a list of column definitions appends its parsed column and the loop continues on the rest |
| DdlParser.ColumnDefinitionsAppendColumns | src/tools/ddl_parser.py:117-140 | a list of column definitions appends exactly their parsed columns, in order, and leaves the primary and foreign keys unchanged |
| DdlParser.FirstColumnNamed | src/tools/ddl_parser.py:81-84 | the index found is the first column whose name equals the key case-insensitively, and none is found iff no column matches |
| DdlParser.MarkFirst | src/tools/ddl_parser.py:80-84 | only that first matching column gains the primary-key flag; all other columns are unchanged |
| DdlParser.MarkAll | src/tools/ddl_parser.py:79-84 | after all keys, a column is flagged iff it was flagged already or it is the first case-insensitive match of some key |
| DdlParser.LinkPrimaryKeys | src/tools/ddl_parser.py:78-84 | the column count, key list and foreign keys are unchanged; every key with a matching column flags its first match and no other column gains the flag |
| DdlParser.TableOf | src/tools/ddl_parser.py:88-115 | a statement yields a table iff its cleaned name is non-empty, and that table carries the cleaned name; without a body the table has no columns or keys |
| DdlParser.DeclaresByTable | src/tools/ddl_parser.py:95-105 | a statement declares a name exactly when the table it yields carries that name |
| DdlParser.AddTable | src/tools/ddl_parser.py:104-115 | the new table is stored under its name, overwriting an earlier one, and every other table is kept |
| DdlParser.Collect | src/tools/ddl_parser.py:74-76 | the collected tables form a valid ordered dictionary in which each table is stored under its own name |
| DdlParser.CollectKey | src/tools/ddl_parser.py:74-115 | a name is a key of the result iff some statement declares it |
| DdlParser.CollectSnoc | src/tools/ddl_parser.py:104-115 | a later statement with a known name overwrites in place; one with a new name is appended to the order; one without a name changes nothing |
| DdlParser.Parse | src/tools/ddl_parser.py:54-86 | `parse` is the collected dictionary, in the same order, with primary keys linked in every table |
| DdlOrder.KnownTargets | src/tools/ddl_parser.py:316-318 | a table's dependencies are exactly the referenced tables that were parsed |
| DdlOrder.Dependencies | src/tools/ddl_parser.py:313-318 | the graph has one entry per table, its edges go only to parsed tables, and there is an edge t to d iff a foreign key of t references d |
| DdlOrder.Visit | src/tools/ddl_parser.py:324-332 | a visit marks its table, only grows the visited set, and appends each newly visited table exactly once |
| DdlOrder.VisitAll | src/tools/ddl_parser.py:329-335 | visiting a list visits every entry, and the output lists exactly the newly visited tables, without repeats |
| DdlOrder.GenerationOrder | src/tools/ddl_parser.py:302-337 | the order holds every parsed table exactly once and nothing else, so its length is the table count |
| DdlOrder.VisitDepsFirst | src/tools/ddl_parser.py:324-332 | under a ranking, a visit keeps the output dependencies-first and places its table |
| DdlOrder.VisitAllDepsFirst | src/tools/ddl_parser.py:329-335 | the same for a list of tables: dependencies first, and every listed table placed |
| DdlOrder.RankedDependencies | src/tools/ddl_parser.py:313-318 | a schema ranking in which a referenced table ranks below its referrer ranks every graph edge |
| DdlOrder.GenerationOrderDepsFirst | src/tools/ddl_parser.py:302-337 | on an acyclic schema (one that has such a ranking), every dependency of a table comes before it in the order |
| DdlOrder.GenerationOrderTopological | src/tools/ddl_parser.py:302-337 | on an acyclic schema, every parsed table referenced by a foreign key of a table comes before that table |
| DataGenerator.ColumnNames | src/tools/data_generator.py:469 | the schema column names, one per column, in order |
| DataGenerator.Chunks | src/tools/data_generator.py:180-192 | the `min(remaining, 20)` loop: ceil(rows/20) batches that sum to the rows, each between 1 and 20, all but the last exactly 20 |
| DataGenerator.BatchPlan | src/tools/data_generator.py:170-192 | up to 20 rows is one batch of that size; above it the sizes sum to the rows, there are ceil(rows/20) of them, and all but the last are 20 |
| DataGenerator.BatchPlanOf45 | src/tools/data_generator.py:170-192 | 45 rows are requested as 20, 20 and 5 |
| DataGenerator.Concat | src/tools/data_generator.py:195 | concatenation keeps the columns, adds up the row counts, and keeps every row's keys equal to the columns |
| DataGenerator.ConcatAppend | src/tools/data_generator.py:195 | concatenating two lists of frames gives the rows of the first followed by the rows of the second |
| DataGenerator.ConcatSingle | src/tools/data_generator.py:195 | concatenating one frame gives back its rows |
| DataGenerator.ConcatRowAt | src/tools/data_generator.py:195 | with `ignore_index`, row i of frame k sits at position (rows of frames before k) + i of the result, and is that very row |
| DataGenerator.Renumber | src/tools/data_generator.py:197-200 | every primary-key column present holds 1..N in row order; every other cell, the columns and the row count are unchanged |
| DataGenerator.RenumberedKeysDistinct | src/tools/data_generator.py:197-200 | after renumbering, two different rows never share a key value |
| DataGenerator.SqlTypeToSchemaType | src/tools/data_generator.py:280-310 | the first-match ladder: INTEGER iff an integer word occurs case-insensitively; NUMBER iff none does and a number word does; BOOLEAN iff neither does and BOOL does; STRING otherwise |
| DataGenerator.IntegerIffIntOrSerial | src/tools/data_generator.py:291-296 | a type maps to INTEGER iff it contains INT or SERIAL; BIGINT, SMALLINT and TINYINT add nothing |
| DataGenerator.IntervalIsInteger | src/tools/data_generator.py:291-296 | substring matching maps `interval` and `Point` to INTEGER |
| DataGenerator.AddProperty | src/tools/data_generator.py:265 | assigning a property overwrites an existing name in place and appends a new one |
| DataGenerator.LastNamed | src/tools/data_generator.py:262-265 | a name's property comes from its last column of that name |
| DataGenerator.PropertiesOfSnoc | src/tools/data_generator.py:262-265 | adding one column's property keeps the properties equal to the columns' names, each typed by its last column |
| DataGenerator.BuildProperties | src/tools/data_generator.py:259-265 | one property per column name, without repeats, typed by the type map of the last column with that name |
| DataGenerator.PropertiesInColumnOrder | src/tools/data_generator.py:259-265 | with distinct column names, the properties are exactly the column names, in column order |
| DataGenerator.RequiredNames | src/tools/data_generator.py:267-269 | a name is required iff some column with that name is NOT NULL or a primary key |
| DataGenerator.RequiredNamesAppend | src/tools/data_generator.py:262-269 | the required list is built column by column, so it follows column order |
| DataGenerator.BuildJsonSchema | src/tools/data_generator.py:237-278 | the properties are the column names, the required names are the NOT NULL or primary-key columns, and every required name is a property |
| DataGenerator.ConstraintTags | src/tools/data_generator.py:335-343 | a tag is present iff its flag is set; DEFAULT appears iff the default is non-empty, carrying its value |
| DataGenerator.ConstraintTagsOrdered | src/tools/data_generator.py:335-343 | tags come in the order PRIMARY KEY, NOT NULL, UNIQUE, DEFAULT |
| DataGenerator.ColumnSpecBracket | src/tools/data_generator.py:330-348 | a column line starts with `- name (type)` and carries a bracketed tag list exactly when there is at least one tag |
| DataGenerator.ColumnSpecs | src/tools/data_generator.py:330-348 | one column line per column, in column order |
| DataGenerator.Unique | src/tools/data_generator.py:359 | `unique()`: no repeats, and the same values as the column |
| DataGenerator.UniquePrefix | src/tools/data_generator.py:359 | the distinct values are in first-occurrence order: deduplicating a prefix gives a prefix of the result |
| DataGenerator.ColumnValues | src/tools/data_generator.py:359 | one value per row |
| DataGenerator.FkSpecFor | src/tools/data_generator.py:352-374 | an ungenerated referenced table gives only the "must reference" line; otherwise the values are the first min(50, distinct) distinct values, marked "(and more...)" iff there were more than 50; a missing referenced column is an error |
| DataGenerator.FkSpecs | src/tools/data_generator.py:350-374 | one specification per foreign key in order, failing iff some foreign key fails |
| DataGenerator.Unwrap | src/tools/data_generator.py:438-451 | a list is used as is; a dict is unwrapped by the table name before "data"; any other shape, or a non-list value, is an error with the source's message |
| DataGenerator.TableKeyBeforeData | src/tools/data_generator.py:441-444 | with both keys present, the table-name key wins over "data" |
| DataGenerator.Project | src/tools/data_generator.py:453-469 | a row has exactly the schema columns, each the record's field or null |
| DataGenerator.ParseGenerationResponse | src/tools/data_generator.py:423-471 | parsing fails exactly when unwrapping fails, with its message; otherwise the frame has the schema columns and row i is record i projected onto them |
| DataGenerator.ParseEncodeRoundTrip | src/tools/data_generator.py:438-471 | a frame with the schema columns, sent back as a list or wrapped under the table name, parses back to itself |
| DataGenerator.GenerateBatch | src/tools/data_generator.py:205-235 | a batch fails if a foreign-key specification fails; a successful batch is the parsed backend response to the request built for it |
| DataGenerator.RunBatches | src/tools/data_generator.py:183-192 | the batch loop over a plan: one frame per remaining batch |
| DataGenerator.RunBatchesInOrder | src/tools/data_generator.py:183-192 | the loop succeeds iff every batch call does, and the k-th frame is the k-th call's frame |
| DataGenerator.RunBatchesFirstFailure | src/tools/data_generator.py:183-192 | a failing loop reports the error of the first failing batch, every earlier one having succeeded |
| DataGenerator.RunBatchesRows | src/tools/data_generator.py:183-192 | when each batch returns as many rows as asked, the frames hold the sum of the sizes |
| DataGenerator.RunBatchesFrames | src/tools/data_generator.py:183-192 | when each batch has the schema columns, so does every frame |
| DataGenerator.BatchCallRows | src/tools/data_generator.py:187-189 | with a backend that returns as many records as asked, each `_generate_batch` call of a non-negative size gives that many rows |
| DataGenerator.BatchCallFrames | src/tools/data_generator.py:187-189 | every successful `_generate_batch` call gives a frame with the schema columns |
| DataGenerator.GenerateBatches | src/tools/data_generator.py:183-192 | one frame per planned batch, each with the schema columns |
| DataGenerator.GenerateBatchesInOrder | src/tools/data_generator.py:183-192 | the batches succeed iff every planned call does; frame k is the k-th call's frame for the k-th size; a failure is the first failing call's error |
| DataGenerator.CombineBatches | src/tools/data_generator.py:194-200 | the combined frame has the schema columns, the summed row count, primary keys 1..N, and every other cell as in the concatenated batches |
| DataGenerator.GenerateTableData | src/tools/data_generator.py:147-203 | up to 20 rows is exactly one batch with no renumbering; above that it fails iff the planned batches fail, with their error, and otherwise has their total row count, primary keys 1..N and every other cell as in the concatenated batches |
| DataGenerator.BatchRowCount | src/tools/data_generator.py:224-233 | a backend that returns as many records as asked gives a batch of exactly that many rows |
| DataGenerator.BatchesRowCount | src/tools/data_generator.py:183-195 | with such a backend the batches hold the sum of their sizes |
| DataGenerator.ExactRowCount | src/tools/data_generator.py:170-203 | with such a backend a table gets exactly the requested number of rows |
| DataGenerator.GenerateFirst | src/tools/data_generator.py:68-73 | after the first k tables of the order, the generated tables are those k, or fewer when a call fails, and every stored frame has its table's columns |
| DataGenerator.GenerateFirstStep | src/tools/data_generator.py:68-73 | one step of the loop: after an error nothing changes; otherwise the k-th table is stored under its name, or the loop stops with its error and the data unchanged |
| DataGenerator.GenerateAllTables | src/tools/data_generator.py:56-75 | starting empty, every table is generated when no call fails, nothing outside the schema ever is, and every stored frame has its table's columns |
| DataGenerator.OrderCoversTables | src/tools/data_generator.py:57-59 | the generation order names exactly the tables of the schema |
| DataGenerator.ParentsGeneratedFirst | src/tools/data_generator.py:56-73 | on an acyclic schema, when a table's turn comes, every parsed table it references has already been generated, so its foreign-key samples are available |
| DataGenerator.RegenerateTable | src/tools/data_generator.py:109-145 | an unknown name is an error with the source's message and leaves the data unchanged; a failure also leaves it unchanged; success replaces only that table's entry |
| DataGenerator.GetData | src/tools/data_generator.py:473-482 | the stored frame for a generated table, and nothing otherwise |
| DataGenerator.GetDataAfterRegenerate | src/tools/data_generator.py:138-145 | after regeneration `get_data` returns the new frame for that table and the old answer for every other |
| SqlGuardrails.Normalize | src/tools/sql_guardrails.py:105 | `strip().upper()`: empty iff the query is blank, and as long as the stripped query |
| SqlGuardrails.NormalizeShape | src/tools/sql_guardrails.py:105 | a normalised query has no whitespace at either end and no lower-case ASCII letter |
| SqlGuardrails.NormalizeIdempotent | src/tools/sql_guardrails.py:105 | normalising a normalised query changes nothing |
| SqlGuardrails.FirstKeyword | src/tools/sql_guardrails.py:118-131 | the reported keyword is the first in list order that occurs as a whole word, and none is reported iff none occurs |
| SqlGuardrails.CreatedAtIsNotCreate | src/tools/sql_guardrails.py:29-42 | `created_at` contains no whole-word CREATE |
| SqlGuardrails.FirstInjection | src/tools/sql_guardrails.py:134-146 | the reported pattern is the first in list order found in the query, and none is reported iff none is found |
| SqlGuardrails.UnionSelectIsFound | src/tools/sql_guardrails.py:50 | `... UNION SELECT ...` is caught as an injection |
| SqlGuardrails.UnionThenSelect | src/tools/sql_guardrails.py:50 | the word UNION followed later by the word SELECT is found, whatever separates them |
| SqlGuardrails.NameAfter | src/tools/sql_guardrails.py:152 | a `FROM\s+(\w+)` capture is a non-empty run of word characters after the keyword |
| SqlGuardrails.TableRefAt | src/tools/sql_guardrails.py:152-153 | a FROM or JOIN match captures a non-empty name and advances |
| SqlGuardrails.NameAfterIff | src/tools/sql_guardrails.py:152 | `KEYWORD\s+(\w+)` captures s[a..b] exactly when the keyword is followed by spaces up to a and a maximal run of word characters from a to b |
| SqlGuardrails.TableRefAtReads | src/tools/sql_guardrails.py:152 | a FROM (after a word boundary) or JOIN reference at i is matched there and captures its name |
| SqlGuardrails.TableRefAtMatches | src/tools/sql_guardrails.py:152 | a match at i is such a reference, and the captured name is the text just before the new position |
| SqlGuardrails.FindTables | src/tools/sql_guardrails.py:152-160 | every table name found is non-empty |
| SqlGuardrails.FindTablesAt | src/tools/sql_guardrails.py:152-153 | `findall` scans leftmost first: with no reference between the start and i, a reference at i is the first name found and the scan resumes after it |
| SqlGuardrails.MatchedLater | src/tools/sql_guardrails.py:152-153 | a reference after a later start is also after an earlier one |
| SqlGuardrails.FindTablesMatched | src/tools/sql_guardrails.py:152-160 | every name found is the capture of a FROM or JOIN reference followed by whitespace in the scanned text |
| SqlGuardrails.FirstDisallowed | src/tools/sql_guardrails.py:163-177 | a table is reported iff some found name is not in the lower-cased whitelist, and the one reported is the first such name in the order found |
| SqlGuardrails.LowerAll | src/tools/sql_guardrails.py:163 | the whitelist lower-cased, entry by entry |
| SqlGuardrails.Check | src/tools/sql_guardrails.py:90-177 | each reason is given exactly when its check is the first to fail, in the order empty, SELECT prefix, dangerous keyword, injection, whitelist; the keyword and pattern reported are the first in list order that occur, and the table the first disallowed one found |
| SqlGuardrails.ListRepr | src/tools/sql_guardrails.py:166 | the whitelist in the message is bracketed, and is `[]` exactly for an empty whitelist |
| SqlGuardrails.ListReprCons | src/tools/sql_guardrails.py:166 | each name is in single quotes, separated from the next by a comma and a space |
| SqlGuardrails.ReasonText | src/tools/sql_guardrails.py:92-166 | each message tells which check failed: the empty and SELECT messages are those exact texts, the keyword, injection and table messages start with their own prefix, and the keyword follows its prefix unchanged |
| SqlGuardrails.ValidateQuery | src/tools/sql_guardrails.py:90-185 | `(True, "")` iff no check fails; otherwise `False` with the message of the reason `Check` gives, whose meaning `Check`'s contract states |
| SqlGuardrails.ValidateSafeIff | src/tools/sql_guardrails.py:90-185 | a query is accepted iff it is non-blank, starts with SELECT once trimmed and upper-cased, has no dangerous whole word, matches no injection pattern, and, with a whitelist, every FROM/JOIN name is in it case-insensitively |
| SqlGuardrails.CheckNoneIff | src/tools/sql_guardrails.py:107-185 | no reason is produced iff every check in the pipeline passes |
| SqlGuardrails.LimitAt | src/tools/sql_guardrails.py:222 | a `LIMIT\s+(\d+)` match starts with LIMIT and ends after at least one space and digit |
| SqlGuardrails.ReplaceLimits | src/tools/sql_guardrails.py:228-233 | `re.sub` over every LIMIT clause; with no clause the text is unchanged |
| SqlGuardrails.AddLimitClause | src/tools/sql_guardrails.py:214-240 | a blank query is returned as is; with no `LIMIT <digits>` the trailing semicolons are dropped and ` LIMIT n` appended; a first clause at most n keeps the query; a larger one replaces every clause |
| SqlGuardrails.LimitAtReadsBack | src/tools/sql_guardrails.py:222-230 | `LIMIT n` written out and followed by a non-digit reads back as n |
| SqlGuardrails.ReplacedLimitReadsBack | src/tools/sql_guardrails.py:226-233 | after replacement, the clause where the first match was reads back as the cap |
| SqlGuardrails.AppendedLimitReadsBack | src/tools/sql_guardrails.py:238-240 | an appended clause reads back as the cap and ends the query |
| SqlGuardrails.NormalizedLimitInQuery | src/tools/sql_guardrails.py:217-233 | a clause found in the trimmed, upper-cased query is also a clause of the original query, with the same number |
| SqlGuardrails.AddLimitClauseAppends | src/tools/sql_guardrails.py:238-240 | with no clause, the result ends with a clause that reads back as the cap |
| SqlGuardrails.AddLimitClauseReplaces | src/tools/sql_guardrails.py:226-233 | with a clause above the cap, the original query has a clause too, and at its position the result reads back as the cap |
| SqlGuardrails.AddLimitClauseCaps | src/tools/sql_guardrails.py:214-240 | every non-blank query comes back with a LIMIT clause whose number is at most the cap |
| DdlConverter.IntegerTypeEnd | src/utils/ddl_converter.py:51 | the integer type chosen among INT, INTEGER, BIGINT and SMALLINT is the one followed by whitespace, as the rest of the pattern needs |
| DdlConverter.SpacesThen | src/utils/ddl_converter.py:51 | `\s+W` ends after at least one whitespace character and the word |
| DdlConverter.LineCommentAt | src/utils/ddl_converter.py:46 | `--[^\n]*` |
| DdlConverter.SerialPrimaryKeyAt | src/utils/ddl_converter.py:50-55 | integer type, PRIMARY KEY, AUTO_INCREMENT, as whole words |
| DdlConverter.SerialColumnAt | src/utils/ddl_converter.py:58-63 | integer type, AUTO_INCREMENT, as whole words |
| DdlConverter.AutoIncrementAt | src/utils/ddl_converter.py:66 | an optional comma, whitespace, then the word AUTO_INCREMENT |
| DdlConverter.TinyintOneAt | src/utils/ddl_converter.py:69 | `TINYINT(1)` with optional inner whitespace |
| DdlConverter.TinyintAt | src/utils/ddl_converter.py:72 | the word TINYINT |
| DdlConverter.DatetimeAt | src/utils/ddl_converter.py:75 | the word DATETIME |
| DdlConverter.EnumAt | src/utils/ddl_converter.py:80-85 | ENUM, then a parenthesised list running to the first `)` |
| DdlConverter.UnsignedAt | src/utils/ddl_converter.py:88 | whitespace, then the word UNSIGNED |
| DdlConverter.EngineOptionsAt | src/utils/ddl_converter.py:92-97 | `)` ENGINE `=` a word, then everything up to and including the next `;` |
| DdlConverter.CharsetAt | src/utils/ddl_converter.py:100-105 | whitespace, CHARACTER SET or CHARSET, an optional `=`, a word |
| DdlConverter.CollateAt | src/utils/ddl_converter.py:108-113 | whitespace, COLLATE, whitespace, a word |
| DdlConverter.CommentAt | src/utils/ddl_converter.py:116-121 | whitespace, COMMENT, whitespace, a quoted text closed by its opening quote |
| DdlConverter.WhitespaceAt | src/utils/ddl_converter.py:127 | `\s+` matches exactly at whitespace and takes the whole run |
| DdlConverter.SpaceBeforeCommaAt | src/utils/ddl_converter.py:130 | `\s+,` matches exactly at a whitespace run followed by a comma, and takes the comma |
| DdlConverter.Matcher | src/utils/ddl_converter.py:46-121 | every rewrite pattern consumes at least one character, as `re.sub` needs here to move on |
| DdlConverter.Sub | src/utils/ddl_converter.py:46-130 | `re.sub`: the output holds only characters of the input or of the replacement |
| DdlConverter.SubStep | src/utils/ddl_converter.py:46-130 | the leftmost match splits the substitution into the text before it, the replacement, and the substitution of the rest |
| DdlConverter.Replace | src/utils/ddl_converter.py:46-121 | one rewrite introduces no character beyond the input and its replacement |
| DdlConverter.RemoveBackticks | src/utils/ddl_converter.py:124 | the output holds exactly the input's characters other than the backtick |
| DdlConverter.RewriteOrder | src/utils/ddl_converter.py:46-85 | comments are removed first and only then; both SERIAL rewrites come before leftover AUTO_INCREMENT is deleted; TINYINT(1) is rewritten before other TINYINT |
| DdlConverter.SubAtLeftmost | src/utils/ddl_converter.py:46-130 | with a match at `i` and none before it, `re.sub` keeps the text before `i`, puts the replacement in place of the match, and resumes the scan after the match |
| DdlConverter.ReplaceAtLeftmost | src/utils/ddl_converter.py:46-121 | the same for one of the converter's rewrites |
| DdlConverter.IntegerTypeFound | src/utils/ddl_converter.py:51 | an integer type written at a position and followed by whitespace is the alternative the pattern settles on; INT at the start of INTEGER is passed over |
| DdlConverter.SerialPrimaryKeyMatch | src/utils/ddl_converter.py:48-55 | any of INT, INTEGER, BIGINT, SMALLINT followed by PRIMARY KEY AUTO_INCREMENT, as whole words, is a match that ends right after AUTO_INCREMENT |
| DdlConverter.TinyintOneMatch | src/utils/ddl_converter.py:68-69 | `TINYINT(1)` at the start of a word is a match of exactly those ten characters |
| DdlConverter.EnumMatch | src/utils/ddl_converter.py:77-85 | `ENUM(` at the start of a word is a match that runs to the first `)` after it |
| DdlConverter.SerialPrimaryKeyRewrite | src/utils/ddl_converter.py:48-55 | the first integer column declared PRIMARY KEY AUTO_INCREMENT becomes `SERIAL PRIMARY KEY`, the text before it unchanged |
| DdlConverter.TinyintOneRewrite | src/utils/ddl_converter.py:68-69 | the first `TINYINT(1)` becomes `BOOLEAN`, the text before it unchanged |
| DdlConverter.EnumRewrite | src/utils/ddl_converter.py:77-85 | the first `ENUM(...)` becomes `VARCHAR(100)` and its value list is dropped, the text before it unchanged |
| DdlConverter.CommentPassRemovesComments | src/utils/ddl_converter.py:46 | after the comment pass no `--` is left |
| DdlConverter.NormalizeSpacing | src/utils/ddl_converter.py:126-130 | the output is single-spaced (only plain spaces, never two in a row, so no newline or tab) with no space before a comma |
| DdlConverter.CollapseFixesSingleSpaced | src/utils/ddl_converter.py:127 | collapsing an already single-spaced text changes nothing |
| DdlConverter.CommaPassFixesClean | src/utils/ddl_converter.py:130 | the comma pass on a text with no space before a comma changes nothing |
| DdlConverter.NormalizeSpacingIdempotent | src/utils/ddl_converter.py:126-130 | normalising twice is normalising once |
| DdlConverter.MysqlToPostgres | src/utils/ddl_converter.py:9-132 | the converted DDL has no backtick, is single-spaced, and has no space before a comma |
| DdlConverter.IndicatedMeaning | src/utils/ddl_converter.py:144-150 | what each of the five indicator patterns finds |
| DdlConverter.AnyIndicator | src/utils/ddl_converter.py:152-156 | the loop returns true iff some indicator in the list is found |
| DdlConverter.DetectMysqlSyntax | src/utils/ddl_converter.py:135-156 | true iff the text has the word AUTO_INCREMENT, `ENGINE\s*=`, `CHARSET\s*=`, a backtick, or `TINYINT(1)`, case-insensitively |
| Visualizer.ColumnsOfKind | src/tools/visualizer.py:320-322 | `select_dtypes(...).columns.tolist()`: the names of exactly the columns of that kind |
| Visualizer.FirstOfKind | src/tools/visualizer.py:320-322 | the first name listed is that of the first column of that kind |
| Visualizer.ConvertDecimals | src/tools/visualizer.py:313-317 | `Decimal` columns become numeric, and every other column is unchanged |
| Visualizer.Classify | src/tools/visualizer.py:313-322 | after the `Decimal` cast, a name is listed as numeric iff some column of that name is numeric or `Decimal`, and as datetime or categorical iff some column of that name has that kind |
| Visualizer.Decide | src/tools/visualizer.py:325-368 | none iff there is no numeric column; line iff datetime and numeric; bar iff no datetime but categorical and numeric; scatter or histogram only without datetime and categorical columns, scatter iff two or more numeric |
| Visualizer.GetChartRecommendation | src/tools/visualizer.py:304-368 | an empty frame gives "none" with no axes; otherwise line, bar, scatter, histogram in that precedence, with axes taken from the datetime, categorical and numeric lists of that chart, and a y axis only for line, bar and scatter |
| Visualizer.FirstOfKindSplit | src/tools/visualizer.py:320-322 | a kind's list is the first column of that kind followed by the list of the columns after it |
| Visualizer.SecondOfKind | src/tools/visualizer.py:320-322 | the second name of a kind's list is that of the second column of that kind, at a later position than the first |
| Visualizer.RecommendedAxes | src/tools/visualizer.py:325-357 | line: the first datetime column against the first numeric one; bar: the first categorical column against the first numeric one; scatter: the first numeric column against the second, at distinct positions; histogram: the first numeric column |
| Visualizer.FirstOfKindWitness | src/tools/visualizer.py:320-322 | the first name of a non-empty kind's list names the first column of that kind |
| Visualizer.CreateChart | src/tools/visualizer.py:61-119 | an empty frame gives no figure and "none"; a figure is drawn iff the type is not "none" |
| Visualizer.CreateChartFollowsRecommendation | src/tools/visualizer.py:96-119 | on every frame `create_chart` draws the recommended type on the recommended axes |
| Visualizer.DecisionByColumns | src/tools/visualizer.py:320-368 | in terms of the frame's columns: a line chart iff there are datetime and numeric columns, a bar chart iff there is no datetime but a categorical and a numeric column, no chart iff there is no numeric column |
| Visualizer.PresenceOfKind | src/tools/visualizer.py:313-322 | after the `Decimal` cast a kind's list is non-empty iff the frame has a column of that kind, a `Decimal` column counting as numeric |

## Left out

- The sqlparse front end of `parse` (src/tools/ddl_parser.py:72-75, 95-113).
  The input is a sequence of `CREATE` statements, each with an optional raw
  name and an optional body text. A missing or blank name gives no table, a
  missing body gives a table without columns, and a repeated name overwrites.
- `\w`, `\b`, `str.upper()`, `str.lower()` and `re.IGNORECASE` are modelled
  on ASCII letters, digits and the underscore. Non-ASCII letters are neither
  word characters nor case-folded. `\d` and `int()` are modelled on the ASCII
  digits 0-9 only. In Python they also accept other Unicode decimal digits,
  so the source's `LIMIT\s+(\d+)` would match a clause, and read back a cap,
  that the model does not. `\s` and `str.strip()` use the full set of
  Unicode whitespace.
- The language model client (src/utils/gemini_client.py) is the `Backend`
  parameter. The prompt prose, the JSON example line and the temperature are
  not modelled. Only the structural parts of the prompt are: the column
  lines with their tags, the foreign-key samples, the request's row count
  and the JSON schema.
- The streaming variant of `generate_all_tables`
  (src/tools/data_generator.py:77-107) is not modelled, because it yields
  progress messages around the same loop.
- An exception from the backend ends `generate_all_tables` in the source. The
  model records the first failure and returns the tables generated so far.
  This "partial result" is an observation of the model, not a value the
  source returns.
- pandas: dtype inference, NaN against None, and a frame's index are not
  modelled. `pd.DataFrame(records)` is modelled by the projection onto the
  schema columns that the source performs right after it. The record's
  extra fields are dropped and missing ones become null.
- `_build_json_schema` returns a property map. Its iteration order is the
  order in which column names were first inserted, which the model keeps as
  `Properties.names`.
- The visualizer takes its frame already classified. A column's kind
  (numeric, datetime, categorical, `Decimal`, other) is an input. The
  matplotlib drawing, the `title` argument, the float `confidence` figures
  and the `"error"` fallback of `create_chart`
  (src/tools/visualizer.py:135-143) are left out.
- Visualizer.ConvertDecimals: both entry points cast `Decimal` columns in
  place (src/tools/visualizer.py:80-85 and 313-317), so the caller's
  DataFrame holds float columns afterwards. The model returns the converted
  classification and does not model that side effect on the caller's frame.
- The `"Validation error"` fallback of `validate_query`
  (src/tools/sql_guardrails.py:187-195) only runs when an exception is raised
  inside the checks, and the modelled checks cannot raise.
- `validate_query` reports the first disallowed table in the order the names
  are found. The source iterates a Python `set`, whose order depends on
  string hashing, so when several tables are disallowed the source may name
  a different one. Which queries are accepted is the same.
- Logging, Langfuse tracing, `print` and CSV export are left out.
- The DDL converter's individual matchers (`DdlConverter.LineCommentAt`
  through `DdlConverter.SpaceBeforeCommaAt`) mean what their bodies say. Each
  body is a transcription of one regular expression. Their contracts only
  bound the match, which is what `Sub` needs. The lines below record this
  for each matcher.
- DdlConverter.LineCommentAt: the contract only bounds the end of the match; its body is the pattern.
- DdlConverter.SerialPrimaryKeyAt: the contract only bounds the end of the match; `DdlConverter.SerialPrimaryKeyMatch` states what it accepts.
- DdlConverter.SerialColumnAt: the contract only bounds the end of the match; its body is the pattern.
- DdlConverter.AutoIncrementAt: the contract only bounds the end of the match; its body is the pattern.
- DdlConverter.TinyintOneAt: the contract only bounds the end of the match; `DdlConverter.TinyintOneMatch` states what it accepts.
- DdlConverter.TinyintAt: the contract only bounds the end of the match; its body is the pattern.
- DdlConverter.DatetimeAt: the contract only bounds the end of the match; its body is the pattern.
- DdlConverter.EnumAt: the contract only bounds the end of the match; `DdlConverter.EnumMatch` states what it accepts.
- DdlConverter.UnsignedAt: the contract only bounds the end of the match; its body is the pattern.
- DdlConverter.EngineOptionsAt: the contract only bounds the end of the match; its body is the pattern.
- DdlConverter.CharsetAt: the contract only bounds the end of the match; its body is the pattern.
- DdlConverter.CollateAt: the contract only bounds the end of the match; its body is the pattern.
- DdlConverter.CommentAt: the contract only bounds the end of the match; its body is the pattern.
- DdlConverter.SerialPrimaryKeyMatch: stated for upper-case keywords with one space before each; the pattern also takes lower case and longer whitespace runs.
- DdlConverter.SerialPrimaryKeyRewrite: stated for the same single-spaced, upper-case form.
- DdlConverter.TinyintOneMatch: stated for `TINYINT(1)` written without inner whitespace and in upper case.
- DdlConverter.TinyintOneRewrite: stated for the same form.
- DdlConverter.EnumMatch: stated for `ENUM(` written in upper case with no space before the parenthesis.
- DdlConverter.EnumRewrite: stated for the same form.
- DdlConverter.Sub: its contract only says which characters can appear; the substitution itself is stated by `DdlConverter.SubStep`.
- DdlConverter.Replace: as for `Sub`, the contract only limits the characters of the output.
- SqlGuardrails.ReplaceLimits: beyond the no-match case, the contract does not say that every clause of the result carries the cap. `SqlGuardrails.ReplacedLimitReadsBack` proves it for the first clause only.
- SqlGuardrails.AddLimitClauseCaps: proved for caps of zero or more. A negative `max_rows` is accepted by the source, but then `str(n)` has a minus sign, which is not modelled as read-back.
- SqlGuardrails.FindTables: its own contract states only that the names are non-empty. `SqlGuardrails.FindTablesAt` states that the leftmost reference is found first, and `SqlGuardrails.FindTablesMatched` that every name found is such a reference.
- DdlConverter.MysqlToPostgres: the whole pipeline is stated only through its output invariants. Of the individual rewrites, only the SERIAL PRIMARY KEY, BOOLEAN and VARCHAR(100) rewrites have lemmas of their own (`SerialPrimaryKeyRewrite`, `TinyintOneRewrite`, `EnumRewrite`). The others are the ordered list `Rewrites` applied with `Sub`, plus `RewriteOrder`. The comment at src/utils/ddl_converter.py:45 about preserving line structure has no effect on the output, because the final whitespace pass joins the lines anyway.
- Text.SplitWs: its own contract states only the shape of the pieces. `Text.SplitWsConcat` states their content, and `Text.SplitWsJoin` the round trip through joining with single spaces.
- Integer widths: row counts, caps and limits are unbounded integers, as Python's are.
- SqlGuardrails.ListRepr: always quotes with `'` and escapes nothing. Python's `repr` switches to double quotes for a name that contains `'`, and it escapes backslashes and control characters.
- DataGenerator.Project: a record that is not an object becomes a row of nulls. pandas builds frames from lists that mix objects with other values in ways of its own, and those are not modelled. The response schema asks for a list of objects.
- DdlOrder.Visit: the depth-first visit is unbounded. Python's recursion limit, which stops the source with a `RecursionError` on a foreign-key chain about 1000 tables deep, is not modelled.
- SqlGuardrails.LimitAt: the contract only bounds the match. `SqlGuardrails.LimitAtReadsBack` states what it accepts, for `LIMIT` followed by exactly one space and the digits of a number.

=== FILE: data_generator.dfy ===
/** The data generator around the language-model call: how a row count is
    split into batches, how the structured-output schema and the prompt's
    column and foreign-key facts are built, how a response is reconciled
    with the table's columns, and how `generated_data` evolves. The model
    call itself is the `Backend` parameter. */
module DataGenerator {

  import opened Results
  import opened Text
  import opened DdlParser
  import opened DdlOrder

  // ---------------------------------------------------------------------
  // Values and frames

  /** A JSON value as the model returns it. */
  datatype Json =
    | JNull
    | JBool(b: bool)
    | JInt(i: int)
    | JReal(x: real)
    | JString(s: string)
    | JArray(items: seq<Json>)
    | JObject(fields: map<string, Json>)

  /** A data frame: column labels and one map per row. */
  datatype Frame = Frame(columns: seq<string>, rows: seq<map<string, Json>>)

  /** Every row has exactly the frame's columns. */
  ghost predicate WellFormed(f: Frame) {
    forall i, c :: 0 <= i < |f.rows| ==> (c in f.rows[i] <==> c in f.columns)
  }

  function ColumnNames(cols: seq<Column>): (r: seq<string>)
    ensures |r| == |cols| && forall k :: 0 <= k < |cols| ==> r[k] == cols[k].name
  {
    seq(|cols|, k requires 0 <= k < |cols| => cols[k].name)
  }

  // ---------------------------------------------------------------------
  // Batch plan

  const BatchSize := 20

  function Sum(xs: seq<int>): int {
    if xs == [] then 0 else xs[0] + Sum(xs[1..])
  }

  /** The `while remaining > 0` loop: chunks of `min(remaining, 20)`. */
  function Chunks(remaining: int): (r: seq<int>)
    ensures remaining <= 0 ==> r == []
    ensures remaining > 0 ==> |r| == (remaining + BatchSize - 1) / BatchSize
    ensures Sum(r) == if remaining <= 0 then 0 else remaining
    ensures forall k :: 0 <= k < |r| ==> 0 < r[k] <= BatchSize
    ensures forall k :: 0 <= k < |r| - 1 ==> r[k] == BatchSize
    decreases remaining
  {
    if remaining <= 0 then []
    else
      var size := if remaining < BatchSize then remaining else BatchSize;
      [size] + Chunks(remaining - size)
  }

  /** The batch sizes `_generate_table_data` requests for `rows` rows: one
      batch of `rows` when `rows <= 20`, otherwise full batches of 20 and a
      last batch with the remainder. */
  function BatchPlan(rows: int): (r: seq<int>)
    ensures rows <= BatchSize ==> r == [rows]
    ensures Sum(r) == rows
    ensures rows > BatchSize ==> |r| == (rows + BatchSize - 1) / BatchSize
    ensures rows > BatchSize ==> forall k :: 0 <= k < |r| ==> 0 < r[k] <= BatchSize
    ensures rows > BatchSize ==> forall k :: 0 <= k < |r| - 1 ==> r[k] == BatchSize
  {
    if rows <= BatchSize then [rows] else Chunks(rows)
  }

  /** 45 rows are requested as 20, 20 and 5. */
  lemma BatchPlanOf45()
    ensures BatchPlan(45) == [20, 20, 5]
  {
    assert Chunks(5) == [5] + Chunks(0);
    assert Chunks(25) == [20] + Chunks(5);
    assert Chunks(45) == [20] + Chunks(25);
  }

  // ---------------------------------------------------------------------
  // Combining batches

  /** `pd.concat(batches, ignore_index=True)` of frames that share the
      table's columns. */
  function Concat(columns: seq<string>, frames: seq<Frame>): (r: Frame)
    ensures r.columns == columns
    ensures |r.rows| == TotalRows(frames)
    ensures (forall k :: 0 <= k < |frames| ==> frames[k].columns == columns && WellFormed(frames[k])) ==> WellFormed(r)
  {
    if frames == [] then Frame(columns, [])
    else
      var rest := Concat(columns, frames[1..]);
      var r := Frame(columns, frames[0].rows + rest.rows);
      assert forall k :: 0 <= k < |frames| - 1 ==> frames[1..][k] == frames[k + 1];
      r
  }

  function TotalRows(frames: seq<Frame>): nat {
    if frames == [] then 0 else |frames[0].rows| + TotalRows(frames[1..])
  }

  /** Concatenation keeps every row and the order of the batches: the rows
      of `a + b` are those of `a` followed by those of `b`. */
  lemma {:induction false} ConcatAppend(columns: seq<string>, a: seq<Frame>, b: seq<Frame>)
    ensures Concat(columns, a + b).rows == Concat(columns, a).rows + Concat(columns, b).rows
    decreases |a|
  {
    if a == [] {
      assert a + b == b;
    } else {
      assert (a + b)[0] == a[0];
      assert (a + b)[1..] == a[1..] + b;
      ConcatAppend(columns, a[1..], b);
      AppendAssoc(a[0].rows, Concat(columns, a[1..]).rows, Concat(columns, b).rows);
    }
  }

  /** A single batch is concatenated unchanged. */
  lemma ConcatSingle(columns: seq<string>, f: Frame)
    ensures Concat(columns, [f]).rows == f.rows
  {
    assert [f][1..] == [];
  }

  /** Row `i` of batch `k` is row `TotalRows(frames[..k]) + i` of the
      concatenation. */
  lemma ConcatRowAt(columns: seq<string>, frames: seq<Frame>, k: nat, i: nat)
    requires k < |frames| && i < |frames[k].rows|
    ensures TotalRows(frames[..k]) + i < TotalRows(frames)
    ensures Concat(columns, frames).rows[TotalRows(frames[..k]) + i] == frames[k].rows[i]
  {
    var before, after := frames[..k], frames[k + 1..];
    assert frames == before + ([frames[k]] + after);
    ConcatAppend(columns, before, [frames[k]] + after);
    ConcatAppend(columns, [frames[k]], after);
    ConcatSingle(columns, frames[k]);
  }

  /** Some primary-key column of the table is named `c`. */
  predicate IsKeyColumn(cols: seq<Column>, c: string) {
    exists k | 0 <= k < |cols| :: cols[k].primaryKey && cols[k].name == c
  }

  /** The renumbering loop: every primary-key column present in the frame is
      overwritten with 1, 2, ..., len(frame); all other cells, the column
      list and the row order stay as they were. */
  function Renumber(f: Frame, cols: seq<Column>): (r: Frame)
    ensures r.columns == f.columns && |r.rows| == |f.rows|
    ensures forall i, c :: 0 <= i < |f.rows| && c in f.columns && IsKeyColumn(cols, c) ==>
              c in r.rows[i] && r.rows[i][c] == JInt(i + 1)
    ensures forall i, c :: 0 <= i < |f.rows| && !(c in f.columns && IsKeyColumn(cols, c)) ==>
              (c in r.rows[i] <==> c in f.rows[i]) && (c in f.rows[i] ==> r.rows[i][c] == f.rows[i][c])
    ensures WellFormed(f) ==> WellFormed(r)
  {
    var keys := set c | c in f.columns && IsKeyColumn(cols, c);
    Frame(f.columns, seq(|f.rows|, i requires 0 <= i < |f.rows| =>
      map c | c in f.rows[i].Keys + keys :: if c in keys then JInt(i + 1) else f.rows[i][c]))
  }

  /** After renumbering, a primary-key column holds pairwise distinct values. */
  lemma RenumberedKeysDistinct(f: Frame, cols: seq<Column>, c: string, i: nat, j: nat)
    requires c in f.columns && IsKeyColumn(cols, c)
    requires i < j < |f.rows|
    ensures Renumber(f, cols).rows[i][c] != Renumber(f, cols).rows[j][c]
  {
  }

  // ---------------------------------------------------------------------
  // Structured-output schema

  /** The structured-output types. */
  datatype SchemaType = IntegerType | NumberType | BooleanType | StringType

  const IntegerWords: seq<string> := ["INT", "SERIAL", "BIGINT", "SMALLINT", "TINYINT"]
  const NumberWords: seq<string> := ["DECIMAL", "NUMERIC", "FLOAT", "DOUBLE", "REAL", "MONEY"]

  predicate ContainsAny(s: string, words: seq<string>) {
    exists k | 0 <= k < |words| :: Contains(s, words[k])
  }

  /** `_sql_type_to_schema_type`: case-insensitive substring tests, integer
      words first, then numeric words, then BOOL; anything else is a string. */
  function SqlTypeToSchemaType(sqlType: string): (r: SchemaType)
    ensures r == IntegerType <==> ContainsAny(Upper(sqlType), IntegerWords)
    ensures r == NumberType <==> !ContainsAny(Upper(sqlType), IntegerWords) && ContainsAny(Upper(sqlType), NumberWords)
    ensures r == BooleanType <==> (!ContainsAny(Upper(sqlType), IntegerWords) && !ContainsAny(Upper(sqlType), NumberWords)
                                   && Contains(Upper(sqlType), "BOOL"))
  {
    var u := Upper(sqlType);
    if ContainsAny(u, IntegerWords) then IntegerType
    else if ContainsAny(u, NumberWords) then NumberType
    else if Contains(u, "BOOL") then BooleanType
    else StringType
  }

  lemma ContainsWithin(s: string, outer: string, inner: string, at: nat)
    requires Contains(s, outer) && at + |inner| <= |outer| && outer[at..at + |inner|] == inner
    ensures Contains(s, inner)
  {
    var i :| 0 <= i <= |s| && OccursAt(s, outer, i);
    assert s[i..i + |outer|] == outer;
    assert forall m :: 0 <= m < |inner| ==> s[i + at + m] == s[i..i + |outer|][at + m] == inner[m];
    assert s[i + at..i + at + |inner|] == inner;
    assert OccursAt(s, inner, i + at);
  }

  /** BIGINT, SMALLINT and TINYINT all end in INT. */
  lemma LongIntegerWord(s: string, k: nat)
    requires 2 <= k < |IntegerWords| && Contains(s, IntegerWords[k])
    ensures Contains(s, "INT")
  {
    var w := IntegerWords[k];
    assert w[|w| - 3..|w|] == "INT";
    ContainsWithin(s, w, "INT", |w| - 3);
  }

  /** A type is mapped to INTEGER exactly when its upper-cased text contains
      INT or SERIAL: the longer integer words in the list add nothing. */
  lemma IntegerIffIntOrSerial(sqlType: string)
    ensures SqlTypeToSchemaType(sqlType) == IntegerType
            <==> Contains(Upper(sqlType), "INT") || Contains(Upper(sqlType), "SERIAL")
  {
    var u := Upper(sqlType);
    if ContainsAny(u, IntegerWords) {
      var k :| 0 <= k < |IntegerWords| && Contains(u, IntegerWords[k]);
      if k >= 2 { LongIntegerWord(u, k); }
    }
    if Contains(u, "INT") {
      assert Contains(u, IntegerWords[0]);
    }
    if Contains(u, "SERIAL") {
      assert Contains(u, IntegerWords[1]);
    }
  }

  /** Substring matching sends `interval` and `point` to INTEGER. */
  lemma IntervalIsInteger()
    ensures SqlTypeToSchemaType("interval") == IntegerType
    ensures SqlTypeToSchemaType("Point") == IntegerType
  {
    assert Upper("interval") == "INTERVAL";
    assert OccursAt("INTERVAL", "INT", 0);
    assert Upper("Point") == "POINT";
    assert OccursAt("POINT", "INT", 2);
    IntegerIffIntOrSerial("interval");
    IntegerIffIntOrSerial("Point");
  }

  /** The properties dictionary: names in first-insertion order, each with
      the type of the last column of that name. */
  datatype Properties = Properties(names: seq<string>, types: map<string, SchemaType>)

  /** `{"type": "ARRAY", "items": {"type": "OBJECT", "properties": ...,
      "required": ...}}`, keeping only the two parts that vary. */
  datatype JsonSchema = JsonSchema(properties: Properties, required: seq<string>)

  function AddProperty(p: Properties, name: string, t: SchemaType): (r: Properties)
    ensures r.types == p.types[name := t]
    ensures name in p.types ==> r.names == p.names
    ensures name !in p.types ==> r.names == p.names + [name]
  {
    if name in p.types then Properties(p.names, p.types[name := t])
    else Properties(p.names + [name], p.types[name := t])
  }

  /** The most recent column of `cols` named `n`, if any. */
  function LastNamed(cols: seq<Column>, n: string): (r: Option<Column>)
    ensures r.Some? <==> n in ColumnNames(cols)
    ensures r.Some? ==> r.value in cols && r.value.name == n
  {
    if cols == [] then None
    else if cols[|cols| - 1].name == n then Some(cols[|cols| - 1])
    else
      var r := LastNamed(cols[..|cols| - 1], n);
      assert ColumnNames(cols) == ColumnNames(cols[..|cols| - 1]) + [cols[|cols| - 1].name];
      r
  }

  /** `p` is the `properties` object for `cols`: one entry per distinct
      column name, in first-appearance order, typed after the last column
      of that name (a later key overwrites an earlier one). */
  ghost predicate PropertiesOf(p: Properties, cols: seq<Column>) {
    && DistinctNames(p.names)
    && (forall n :: n in p.names <==> n in p.types)
    && (forall n :: n in p.types <==> n in ColumnNames(cols))
    && (forall n :: n in p.types ==> p.types[n] == SqlTypeToSchemaType(LastNamed(cols, n).value.dataType))
  }

  lemma PropertiesOfSnoc(p: Properties, cols: seq<Column>)
    requires cols != [] && PropertiesOf(p, cols[..|cols| - 1])
    ensures var c := cols[|cols| - 1];
            PropertiesOf(AddProperty(p, c.name, SqlTypeToSchemaType(c.dataType)), cols)
  {
    var prefix := cols[..|cols| - 1];
    var c := cols[|cols| - 1];
    var q := AddProperty(p, c.name, SqlTypeToSchemaType(c.dataType));
    assert ColumnNames(cols) == ColumnNames(prefix) + [c.name];
    assert DistinctNames(q.names) by {
      if c.name !in p.types {
        assert c.name !in p.names;
      }
    }
    assert LastNamed(cols, c.name) == Some(c);
    forall n | n in q.types
      ensures q.types[n] == SqlTypeToSchemaType(LastNamed(cols, n).value.dataType)
    {
      if n != c.name {
        assert LastNamed(cols, n) == LastNamed(prefix, n);
      }
    }
  }

  function BuildProperties(cols: seq<Column>): (p: Properties)
    ensures PropertiesOf(p, cols)
  {
    if cols == [] then Properties([], map[])
    else
      var c := cols[|cols| - 1];
      var p := BuildProperties(cols[..|cols| - 1]);
      PropertiesOfSnoc(p, cols);
      AddProperty(p, c.name, SqlTypeToSchemaType(c.dataType))
  }

  /** With distinct column names, the properties are listed in column
      order, one per column. */
  lemma {:induction false} PropertiesInColumnOrder(cols: seq<Column>)
    requires DistinctNames(ColumnNames(cols))
    ensures BuildProperties(cols).names == ColumnNames(cols)
  {
    if cols != [] {
      var init := cols[..|cols| - 1];
      var c := cols[|cols| - 1];
      assert ColumnNames(cols) == ColumnNames(init) + [c.name];
      PropertiesInColumnOrder(init);
      assert c.name !in ColumnNames(init);
    }
  }

  predicate IsRequired(c: Column) {
    c.notNull || c.primaryKey
  }

  /** The `required` list: the names of the NOT NULL or primary-key columns,
      in column order. */
  function RequiredNames(cols: seq<Column>): (r: seq<string>)
    ensures forall n :: n in r <==> exists k | 0 <= k < |cols| :: cols[k].name == n && IsRequired(cols[k])
    ensures |r| <= |cols|
  {
    if cols == [] then []
    else
      var rest := RequiredNames(cols[1..]);
      assert forall k :: 0 <= k < |cols| - 1 ==> cols[1..][k] == cols[k + 1];
      if IsRequired(cols[0]) then [cols[0].name] + rest else rest
  }

  /** The list is built column by column, so it respects column order. */
  lemma {:induction false} RequiredNamesAppend(a: seq<Column>, b: seq<Column>)
    ensures RequiredNames(a + b) == RequiredNames(a) + RequiredNames(b)
  {
    if a != [] {
      assert (a + b)[1..] == a[1..] + b;
      RequiredNamesAppend(a[1..], b);
    } else {
      assert a + b == b;
    }
  }

  /** `_build_json_schema`. */
  function BuildJsonSchema(t: Table): (r: JsonSchema)
    ensures forall n :: n in r.properties.types <==> n in ColumnNames(t.columns)
    ensures forall n :: n in r.required <==> exists k | 0 <= k < |t.columns| :: t.columns[k].name == n && IsRequired(t.columns[k])
    ensures forall n :: n in r.required ==> n in r.properties.types
  {
    JsonSchema(BuildProperties(t.columns), RequiredNames(t.columns))
  }

  // ---------------------------------------------------------------------
  // Prompt facts

  /** The constraint tags of a column line. */
  datatype Tag = PrimaryKeyTag | NotNullTag | UniqueTag | DefaultTag(value: string)

  function TagText(tag: Tag): string {
    match tag
    case PrimaryKeyTag => "PRIMARY KEY"
    case NotNullTag => "NOT NULL"
    case UniqueTag => "UNIQUE"
    case DefaultTag(v) => "DEFAULT " + v
  }

  /** The fixed order in which tags appear. */
  function TagRank(tag: Tag): nat {
    match tag
    case PrimaryKeyTag => 0
    case NotNullTag => 1
    case UniqueTag => 2
    case DefaultTag(_) => 3
  }

  /** A default that Python treats as true: present and not empty. */
  predicate HasDefault(c: Column) {
    c.defaultValue.Some? && c.defaultValue.value != []
  }

  /** The tags in the order the source appends them. */
  predicate TagsAscending(r: seq<Tag>) {
    forall i, j :: 0 <= i < j < |r| ==> TagRank(r[i]) < TagRank(r[j])
  }

  /** Tags of lower rank followed by at most one tag of rank `hi`. */
  lemma AppendAscending(a: seq<Tag>, b: seq<Tag>, hi: nat)
    requires TagsAscending(a) && forall k :: 0 <= k < |a| ==> TagRank(a[k]) < hi
    requires |b| <= 1 && forall k :: 0 <= k < |b| ==> TagRank(b[k]) == hi
    ensures TagsAscending(a + b) && forall k :: 0 <= k < |a + b| ==> TagRank((a + b)[k]) <= hi
  {
  }

  /** The `constraints` list of one column line. */
  function ConstraintTags(c: Column): (r: seq<Tag>)
    ensures PrimaryKeyTag in r <==> c.primaryKey
    ensures NotNullTag in r <==> c.notNull
    ensures UniqueTag in r <==> c.unique
    ensures forall v :: DefaultTag(v) in r <==> HasDefault(c) && v == c.defaultValue.value
  {
    (if c.primaryKey then [PrimaryKeyTag] else [])
    + (if c.notNull then [NotNullTag] else [])
    + (if c.unique then [UniqueTag] else [])
    + (if HasDefault(c) then [DefaultTag(c.defaultValue.value)] else [])
  }

  /** Primary key, then NOT NULL, then UNIQUE, then the default. */
  lemma ConstraintTagsOrdered(c: Column)
    ensures TagsAscending(ConstraintTags(c))
  {
    RanksAscending(if c.primaryKey then [PrimaryKeyTag] else [],
                   if c.notNull then [NotNullTag] else [],
                   if c.unique then [UniqueTag] else [],
                   if HasDefault(c) then [DefaultTag(c.defaultValue.value)] else []);
  }

  /** Four optional tags of ranks 0 to 3, in that order, are ascending. */
  lemma RanksAscending(p: seq<Tag>, n: seq<Tag>, u: seq<Tag>, d: seq<Tag>)
    requires |p| <= 1 && forall k :: 0 <= k < |p| ==> TagRank(p[k]) == 0
    requires |n| <= 1 && forall k :: 0 <= k < |n| ==> TagRank(n[k]) == 1
    requires |u| <= 1 && forall k :: 0 <= k < |u| ==> TagRank(u[k]) == 2
    requires |d| <= 1 && forall k :: 0 <= k < |d| ==> TagRank(d[k]) == 3
    ensures TagsAscending(p + n + u + d)
  {
    AppendAscending([], p, 0);
    assert [] + p == p;
    AppendAscending(p, n, 1);
    AppendAscending(p + n, u, 2);
    AppendAscending(p + n + u, d, 3);
  }

  function TagTexts(tags: seq<Tag>): (r: seq<string>)
    ensures |r| == |tags| && forall k :: 0 <= k < |tags| ==> r[k] == TagText(tags[k])
  {
    seq(|tags|, k requires 0 <= k < |tags| => TagText(tags[k]))
  }

  /** A column line of the prompt: `- name (TYPE)`, then the tags joined by
      ", " in brackets when there is at least one. */
  function ColumnSpec(c: Column): string {
    var head := "- " + c.name + " (" + c.dataType + ")";
    var tags := ConstraintTags(c);
    if tags == [] then head else head + " [" + Join(TagTexts(tags), ", ") + "]"
  }

  /** The bracket appears exactly when the column has a tag. */
  lemma ColumnSpecBracket(c: Column)
    ensures var head := "- " + c.name + " (" + c.dataType + ")";
            && StartsWith(ColumnSpec(c), head)
            && (ConstraintTags(c) == [] <==> |ColumnSpec(c)| == |head|)
            && (ConstraintTags(c) != [] ==> EndsWith(ColumnSpec(c), "]"))
  {
    var head := "- " + c.name + " (" + c.dataType + ")";
    var r := ColumnSpec(c);
    assert r[..|head|] == head;
  }

  const MaxFkValues := 50

  /** A foreign-key line of the prompt: just the reference when the target
      table has no data yet, otherwise also the sample of target values and
      whether it was cut short. */
  datatype FkSpec =
    | MustReference(fk: ForeignKey)
    | WithValues(fk: ForeignKey, values: seq<Json>, truncated: bool)

  predicate DistinctValues(xs: seq<Json>) {
    forall i, j :: 0 <= i < j < |xs| ==> xs[i] != xs[j]
  }

  /** `unique().tolist()`: the values in order of first occurrence. */
  function Unique(xs: seq<Json>): (r: seq<Json>)
    ensures DistinctValues(r)
    ensures forall x :: x in r <==> x in xs
    ensures |r| <= |xs|
  {
    if xs == [] then []
    else
      var u := Unique(xs[..|xs| - 1]);
      var last := xs[|xs| - 1];
      assert forall x :: x in xs <==> x in xs[..|xs| - 1] || x == last;
      if last in u then u else u + [last]
  }

  /** Deduplicating a longer prefix only adds values at the end, so the
      first values kept are the first distinct values of the column. */
  lemma {:induction false} UniquePrefix(xs: seq<Json>, k: nat)
    requires k <= |xs|
    ensures |Unique(xs[..k])| <= |Unique(xs)|
    ensures Unique(xs[..k]) == Unique(xs)[..|Unique(xs[..k])|]
    decreases |xs| - k
  {
    if k < |xs| {
      UniquePrefix(xs, k + 1);
      assert xs[..k + 1][..k] == xs[..k];
    } else {
      assert xs[..k] == xs;
    }
  }

  /** The values of column `c`, one per row. */
  function ColumnValues(f: Frame, c: string): (r: seq<Json>)
    ensures |r| == |f.rows|
  {
    seq(|f.rows|, i requires 0 <= i < |f.rows| => if c in f.rows[i] then f.rows[i][c] else JNull)
  }

  /** One foreign key's prompt line. A target table already generated but
      lacking the referenced column is the `KeyError` pandas raises. */
  function FkSpecFor(fk: ForeignKey, data: map<string, Frame>): (r: Result<FkSpec, string>)
    ensures fk.referencedTable !in data ==> r == Success(MustReference(fk))
    ensures r.Failure? <==> fk.referencedTable in data && fk.referencedColumn !in data[fk.referencedTable].columns
    ensures r.Success? && r.value.WithValues? ==>
              var all := Unique(ColumnValues(data[fk.referencedTable], fk.referencedColumn));
              && r.value.fk == fk
              && |r.value.values| == (if |all| > MaxFkValues then MaxFkValues else |all|)
              && r.value.values == all[..|r.value.values|]
              && (r.value.truncated <==> |all| > MaxFkValues)
  {
    if fk.referencedTable !in data then Success(MustReference(fk))
    else
      var f := data[fk.referencedTable];
      if fk.referencedColumn !in f.columns then Failure("KeyError: '" + fk.referencedColumn + "'")
      else
        var all := Unique(ColumnValues(f, fk.referencedColumn));
        if |all| > MaxFkValues then Success(WithValues(fk, all[..MaxFkValues], true))
        else Success(WithValues(fk, all, false))
  }

  /** The `fk_specs` loop; the first failure ends it. */
  function FkSpecs(fks: seq<ForeignKey>, data: map<string, Frame>): (r: Result<seq<FkSpec>, string>)
    ensures r.Success? <==> forall k :: 0 <= k < |fks| ==> FkSpecFor(fks[k], data).Success?
    ensures r.Success? ==> |r.value| == |fks| && forall k :: 0 <= k < |fks| ==> r.value[k] == FkSpecFor(fks[k], data).value
  {
    if fks == [] then Success([])
    else
      var head := FkSpecFor(fks[0], data);
      var rest := FkSpecs(fks[1..], data);
      assert forall k :: 0 <= k < |fks| - 1 ==> fks[1..][k] == fks[k + 1];
      if head.Failure? then Failure(head.error)
      else if rest.Failure? then Failure(rest.error)
      else Success([head.value] + rest.value)
  }

  // ---------------------------------------------------------------------
  // Response reconciliation

  function TypeName(j: Json): string {
    match j
    case JNull => "<class 'NoneType'>"
    case JBool(_) => "<class 'bool'>"
    case JInt(_) => "<class 'int'>"
    case JReal(_) => "<class 'float'>"
    case JString(_) => "<class 'str'>"
    case JArray(_) => "<class 'list'>"
    case JObject(_) => "<class 'dict'>"
  }

  /** The accepted envelopes: a bare list; an object holding the table's
      name (tried first); an object holding "data". */
  function Unwrap(response: Json, tableName: string): (r: Result<seq<Json>, string>)
    ensures response.JArray? ==> r == Success(response.items)
    ensures response.JObject? && tableName in response.fields ==>
              r == (if response.fields[tableName].JArray? then Success(response.fields[tableName].items)
                    else Failure("Expected list of rows, got " + TypeName(response.fields[tableName])))
    ensures response.JObject? && tableName !in response.fields && "data" in response.fields ==>
              r == (if response.fields["data"].JArray? then Success(response.fields["data"].items)
                    else Failure("Expected list of rows, got " + TypeName(response.fields["data"])))
    ensures !response.JArray? && !(response.JObject? && (tableName in response.fields || "data" in response.fields)) ==>
              r == Failure("Unexpected response format. Expected list or dict with '" + tableName + "' key.")
  {
    var data :- if response.JArray? then Success(response)
                else if response.JObject? && tableName in response.fields then Success(response.fields[tableName])
                else if response.JObject? && "data" in response.fields then Success(response.fields["data"])
                else Failure("Unexpected response format. Expected list or dict with '" + tableName + "' key.");
    if data.JArray? then Success(data.items) else Failure("Expected list of rows, got " + TypeName(data))
  }

  /** One record reduced to the schema's columns: a missing field (or a
      record that is not an object) gives null, extra fields are dropped. */
  function Project(record: Json, columns: seq<string>): (row: map<string, Json>)
    ensures forall c :: c in row <==> c in columns
    ensures forall c :: c in columns ==> row[c] == if record.JObject? && c in record.fields then record.fields[c] else JNull
  {
    map c | c in columns :: if record.JObject? && c in record.fields then record.fields[c] else JNull
  }

  /** `_parse_generation_response`. */
  function ParseGenerationResponse(response: Json, t: Table): (r: Result<Frame, string>)
    ensures r.Success? <==> Unwrap(response, t.name).Success?
    ensures r.Failure? ==> r.error == Unwrap(response, t.name).error
    ensures r.Success? ==> r.value.columns == ColumnNames(t.columns) && WellFormed(r.value)
    ensures r.Success? ==> |r.value.rows| == |Unwrap(response, t.name).value|
    ensures r.Success? ==> forall i :: 0 <= i < |r.value.rows| ==>
              r.value.rows[i] == Project(Unwrap(response, t.name).value[i], ColumnNames(t.columns))
  {
    match Unwrap(response, t.name)
    case Failure(e) => Failure(e)
    case Success(records) =>
      var columns := ColumnNames(t.columns);
      Success(Frame(columns, seq(|records|, i requires 0 <= i < |records| => Project(records[i], columns))))
  }

  /** A frame written out as a list of row objects. */
  function Encode(f: Frame): Json {
    JArray(seq(|f.rows|, i requires 0 <= i < |f.rows| => JObject(f.rows[i])))
  }

  /** Reading back a well-formed frame of the table's columns gives the same
      frame, whether it comes as a bare list or under the table's name. */
  lemma ParseEncodeRoundTrip(f: Frame, t: Table)
    requires f.columns == ColumnNames(t.columns) && WellFormed(f)
    ensures ParseGenerationResponse(Encode(f), t) == Success(f)
    ensures ParseGenerationResponse(JObject(map[t.name := Encode(f)]), t) == Success(f)
  {
    assert Unwrap(JObject(map[t.name := Encode(f)]), t.name) == Unwrap(Encode(f), t.name);
    assert ParseGenerationResponse(JObject(map[t.name := Encode(f)]), t) == ParseGenerationResponse(Encode(f), t);
    var r := ParseGenerationResponse(Encode(f), t).value;
    assert |r.rows| == |f.rows|;
    forall i | 0 <= i < |f.rows|
      ensures r.rows[i] == f.rows[i]
    {
      assert Encode(f).items[i] == JObject(f.rows[i]);
      assert forall c :: c in r.rows[i] <==> c in f.rows[i];
      assert forall c :: c in r.rows[i] ==> r.rows[i][c] == f.rows[i][c];
    }
    assert r.rows == f.rows;
  }

  /** An object holding both the table's name and "data" is read through
      the table's name. */
  lemma TableKeyBeforeData(rows: seq<Json>, other: Json, t: Table)
    requires t.name != "data"
    ensures Unwrap(JObject(map[t.name := JArray(rows), "data" := other]), t.name) == Success(rows)
  {
  }

  // ---------------------------------------------------------------------
  // Generation

  /** What one model call is given: the table, the batch size, the column
      lines, the foreign-key lines, the output schema and the instructions. */
  datatype Request = Request(
    table: string,
    rows: int,
    columnSpecs: seq<string>,
    foreignKeys: seq<FkSpec>,
    schema: JsonSchema,
    instructions: string)

  /** The model: a request and the position of the call in the session. An
      exception from the client is a `Failure`. */
  type Backend = (Request, nat) -> Result<Json, string>

  function ColumnSpecs(cols: seq<Column>): (r: seq<string>)
    ensures |r| == |cols| && forall k :: 0 <= k < |cols| ==> r[k] == ColumnSpec(cols[k])
  {
    seq(|cols|, k requires 0 <= k < |cols| => ColumnSpec(cols[k]))
  }

  function BuildRequest(t: Table, rows: int, instructions: string, fks: seq<FkSpec>): Request {
    Request(t.name, rows, ColumnSpecs(t.columns), fks, BuildJsonSchema(t), instructions)
  }

  /** `_generate_batch`: prompt facts, schema, one model call, reconcile. */
  function GenerateBatch(t: Table, rows: int, instructions: string, data: map<string, Frame>,
                         backend: Backend, call: nat): (r: Result<Frame, string>)
    ensures FkSpecs(t.foreignKeys, data).Failure? ==> r.Failure?
    ensures r.Success? ==> r.value.columns == ColumnNames(t.columns) && WellFormed(r.value)
    ensures r.Success? ==>
              var response := backend(BuildRequest(t, rows, instructions, FkSpecs(t.foreignKeys, data).value), call);
              response.Success? && r == ParseGenerationResponse(response.value, t)
  {
    var fks :- FkSpecs(t.foreignKeys, data);
    var response :- backend(BuildRequest(t, rows, instructions, fks), call);
    ParseGenerationResponse(response, t)
  }

  /** A well-formed frame with the table's columns. */
  ghost predicate FrameOf(f: Frame, t: Table) {
    f.columns == ColumnNames(t.columns) && WellFormed(f)
  }

  ghost predicate FramesOf(fs: seq<Frame>, t: Table) {
    forall k :: 0 <= k < |fs| ==> FrameOf(fs[k], t)
  }

  lemma FramesOfCons(f: Frame, fs: seq<Frame>, t: Table)
    requires FrameOf(f, t) && FramesOf(fs, t)
    ensures FramesOf([f] + fs, t)
  {
    assert forall k :: 1 <= k < |fs| + 1 ==> ([f] + fs)[k] == fs[k - 1];
  }

  /** The `while remaining > 0` loop from batch `j` on: batch `k` asks
      `batch` for `sizes[k]` rows as the `k`-th call; the first failure ends
      the loop. */
  function RunBatches(sizes: seq<int>, j: nat, batch: (int, nat) -> Result<Frame, string>): (r: Result<seq<Frame>, string>)
    requires j <= |sizes|
    ensures r.Success? ==> |r.value| == |sizes| - j
    decreases |sizes| - j
  {
    if j == |sizes| then Success([])
    else
      match batch(sizes[j], j)
      case Failure(e) => Failure(e)
      case Success(f) =>
        match RunBatches(sizes, j + 1, batch)
        case Failure(e) => Failure(e)
        case Success(rest) => Success([f] + rest)
  }

  /** The loop succeeds exactly when every batch from `j` on does, and then
      its frames are those batches in order. */
  lemma {:induction false} RunBatchesInOrder(sizes: seq<int>, j: nat, batch: (int, nat) -> Result<Frame, string>)
    requires j <= |sizes|
    ensures var r := RunBatches(sizes, j, batch);
            && (r.Success? <==> forall k :: j <= k < |sizes| ==> batch(sizes[k], k).Success?)
            && (r.Success? ==> forall k :: j <= k < |sizes| ==> r.value[k - j] == batch(sizes[k], k).value)
    decreases |sizes| - j
  {
    if j < |sizes| {
      RunBatchesInOrder(sizes, j + 1, batch);
      var r := RunBatches(sizes, j, batch);
      var rest := RunBatches(sizes, j + 1, batch);
      if r.Success? {
        assert r.value == [batch(sizes[j], j).value] + rest.value;
        assert forall k :: j < k < |sizes| ==> r.value[k - j] == batch(sizes[k], k).value;
      }
    }
  }

  /** Batch `j` is the first to fail, with error `e`. */
  predicate FailsFirstAt(sizes: seq<int>, batch: (int, nat) -> Result<Frame, string>, j: nat, e: string) {
    && j < |sizes|
    && batch(sizes[j], j) == Failure(e)
    && forall k :: 0 <= k < j ==> batch(sizes[k], k).Success?
  }

  predicate FailsFirst(sizes: seq<int>, batch: (int, nat) -> Result<Frame, string>, e: string) {
    exists j | 0 <= j < |sizes| :: FailsFirstAt(sizes, batch, j, e)
  }

  /** A failed loop reports the error of the first failing batch. */
  lemma {:induction false} RunBatchesFirstFailure(sizes: seq<int>, j: nat, batch: (int, nat) -> Result<Frame, string>)
    requires j <= |sizes|
    requires forall k :: 0 <= k < j ==> batch(sizes[k], k).Success?
    ensures var r := RunBatches(sizes, j, batch);
            r.Failure? ==> FailsFirst(sizes, batch, r.error)
    decreases |sizes| - j
  {
    if j < |sizes| {
      if batch(sizes[j], j).Failure? {
        assert FailsFirstAt(sizes, batch, j, batch(sizes[j], j).error);
      } else {
        RunBatchesFirstFailure(sizes, j + 1, batch);
      }
    }
  }

  /** Batches that return exactly what they are asked for give the total of
      the sizes. */
  lemma {:induction false} RunBatchesRows(sizes: seq<int>, j: nat, batch: (int, nat) -> Result<Frame, string>)
    requires j <= |sizes|
    requires forall k :: j <= k < |sizes| ==> sizes[k] >= 0
    requires forall size, k :: size >= 0 && batch(size, k).Success? ==> |batch(size, k).value.rows| == size
    ensures var r := RunBatches(sizes, j, batch);
            r.Success? ==> TotalRows(r.value) == Sum(sizes[j..])
    decreases |sizes| - j
  {
    var r := RunBatches(sizes, j, batch);
    if j < |sizes| && r.Success? {
      var rest := RunBatches(sizes, j + 1, batch);
      RunBatchesRows(sizes, j + 1, batch);
      assert r.value == [batch(sizes[j], j).value] + rest.value;
      assert r.value[1..] == rest.value;
      assert sizes[j..][1..] == sizes[j + 1..];
    }
  }

  /** Every batch of the loop produces a frame of the table. */
  lemma {:induction false} RunBatchesFrames(sizes: seq<int>, j: nat, batch: (int, nat) -> Result<Frame, string>, t: Table)
    requires j <= |sizes|
    requires forall size, k :: batch(size, k).Success? ==> FrameOf(batch(size, k).value, t)
    ensures var r := RunBatches(sizes, j, batch);
            r.Success? ==> FramesOf(r.value, t)
    decreases |sizes| - j
  {
    var r := RunBatches(sizes, j, batch);
    if j < |sizes| && r.Success? {
      var rest := RunBatches(sizes, j + 1, batch);
      RunBatchesFrames(sizes, j + 1, batch, t);
      FramesOfCons(batch(sizes[j], j).value, rest.value, t);
    }
  }

  /** `_generate_batch` as the `k`-th call of the loop: model call
      `call + k`. */
  function BatchCall(t: Table, instructions: string, data: map<string, Frame>, backend: Backend, call: nat)
    : (int, nat) -> Result<Frame, string>
  {
    (size: int, k: nat) => GenerateBatch(t, size, instructions, data, backend, call + k)
  }

  /** With a faithful backend each batch has the size it asks for. */
  lemma BatchCallRows(t: Table, instructions: string, data: map<string, Frame>, backend: Backend, call: nat)
    requires Faithful(backend)
    ensures var batch := BatchCall(t, instructions, data, backend, call);
            forall size, k :: size >= 0 && batch(size, k).Success? ==> |batch(size, k).value.rows| == size
  {
  }

  /** Each batch is a frame of the table. */
  lemma BatchCallFrames(t: Table, instructions: string, data: map<string, Frame>, backend: Backend, call: nat)
    ensures var batch := BatchCall(t, instructions, data, backend, call);
            forall size, k :: batch(size, k).Success? ==> FrameOf(batch(size, k).value, t)
  {
  }

  /** The batches of the multi-batch path, in order, calls numbered from
      `call`. */
  function GenerateBatches(t: Table, sizes: seq<int>, instructions: string, data: map<string, Frame>,
                           backend: Backend, call: nat): (r: Result<seq<Frame>, string>)
    ensures r.Success? ==> |r.value| == |sizes|
    ensures r.Success? ==> FramesOf(r.value, t)
  {
    var batch := BatchCall(t, instructions, data, backend, call);
    BatchCallFrames(t, instructions, data, backend, call);
    RunBatchesFrames(sizes, 0, batch, t);
    RunBatches(sizes, 0, batch)
  }

  /** Batch `k` is model call `call + k` for `sizes[k]` rows: the loop
      succeeds exactly when every batch does, its frames are the batches in
      order, and a failure carries the error of the first failing batch. */
  lemma GenerateBatchesInOrder(t: Table, sizes: seq<int>, instructions: string,
                               data: map<string, Frame>, backend: Backend, call: nat)
    ensures var r := GenerateBatches(t, sizes, instructions, data, backend, call);
            var batch := BatchCall(t, instructions, data, backend, call);
            && (r.Success? <==> forall k :: 0 <= k < |sizes| ==> batch(sizes[k], k).Success?)
            && (r.Success? ==> forall k :: 0 <= k < |sizes| ==> r.value[k] == batch(sizes[k], k).value)
            && (r.Failure? ==> FailsFirst(sizes, batch, r.error))
  {
    var batch := BatchCall(t, instructions, data, backend, call);
    RunBatchesInOrder(sizes, 0, batch);
    RunBatchesFirstFailure(sizes, 0, batch);
  }

  lemma KeyColumnsAreColumns(cols: seq<Column>)
    ensures forall c :: IsKeyColumn(cols, c) ==> c in ColumnNames(cols)
  {
    forall c | IsKeyColumn(cols, c)
      ensures c in ColumnNames(cols)
    {
      var k :| 0 <= k < |cols| && cols[k].primaryKey && cols[k].name == c;
      assert ColumnNames(cols)[k] == c;
    }
  }

  /** The multi-batch tail of `_generate_table_data`: concatenate the
      batches, then renumber the primary-key columns. */
  function CombineBatches(t: Table, frames: seq<Frame>): (r: Frame)
    requires FramesOf(frames, t)
    ensures FrameOf(r, t)
    ensures |r.rows| == TotalRows(frames)
    ensures forall i, c :: 0 <= i < |r.rows| && IsKeyColumn(t.columns, c) ==>
              c in r.rows[i] && r.rows[i][c] == JInt(i + 1)
    ensures var all := Concat(ColumnNames(t.columns), frames);
            forall i, c :: 0 <= i < |r.rows| && !IsKeyColumn(t.columns, c) ==>
              (c in r.rows[i] <==> c in all.rows[i]) && (c in all.rows[i] ==> r.rows[i][c] == all.rows[i][c])
  {
    var columns := ColumnNames(t.columns);
    forall k | 0 <= k < |frames|
      ensures frames[k].columns == columns && WellFormed(frames[k])
    {
      assert FrameOf(frames[k], t);
    }
    var all := Concat(columns, frames);
    assert WellFormed(all);
    KeyColumnsAreColumns(t.columns);
    Renumber(all, t.columns)
  }

  /** `_generate_table_data`: one batch for at most 20 rows; otherwise the
      batch plan, concatenation and primary-key renumbering. */
  function GenerateTableData(t: Table, rows: int, instructions: string, data: map<string, Frame>,
                             backend: Backend, call: nat): (r: Result<Frame, string>)
    ensures r.Success? ==> FrameOf(r.value, t)
    ensures rows <= BatchSize ==> r == GenerateBatch(t, rows, instructions, data, backend, call)
    ensures var batches := GenerateBatches(t, BatchPlan(rows), instructions, data, backend, call);
            rows > BatchSize ==>
              && (r.Success? <==> batches.Success?)
              && (r.Failure? ==> r.error == batches.error)
              && (r.Success? ==> |r.value.rows| == TotalRows(batches.value))
    ensures rows > BatchSize && r.Success? ==>
              forall i, c :: 0 <= i < |r.value.rows| && IsKeyColumn(t.columns, c) ==>
                c in r.value.rows[i] && r.value.rows[i][c] == JInt(i + 1)
    ensures rows > BatchSize && r.Success? ==>
              var all := Concat(ColumnNames(t.columns), GenerateBatches(t, BatchPlan(rows), instructions, data, backend, call).value);
              forall i, c :: 0 <= i < |r.value.rows| && !IsKeyColumn(t.columns, c) ==>
                (c in r.value.rows[i] <==> c in all.rows[i]) && (c in all.rows[i] ==> r.value.rows[i][c] == all.rows[i][c])
  {
    if rows <= BatchSize then GenerateBatch(t, rows, instructions, data, backend, call)
    else
      match GenerateBatches(t, BatchPlan(rows), instructions, data, backend, call)
      case Failure(e) => Failure(e)
      case Success(frames) => Success(CombineBatches(t, frames))
  }

  /** How many model calls `GenerateTableData` makes when they all succeed. */
  function CallCount(rows: int): nat {
    |BatchPlan(rows)|
  }

  /** A backend that always returns a bare list of exactly the requested
      number of rows (none for a negative count). */
  ghost predicate Faithful(backend: Backend) {
    forall req: Request, k: nat :: backend(req, k).Success? && backend(req, k).value.JArray?
      && |backend(req, k).value.items| == (if req.rows < 0 then 0 else req.rows)
  }

  /** A faithful backend's batch has the requested size. */
  lemma BatchRowCount(t: Table, size: int, instructions: string, data: map<string, Frame>,
                      backend: Backend, call: nat)
    requires Faithful(backend) && size >= 0
    ensures var r := GenerateBatch(t, size, instructions, data, backend, call);
            r.Success? ==> |r.value.rows| == size
  {
  }

  lemma BatchesRowCount(t: Table, sizes: seq<int>, instructions: string, data: map<string, Frame>,
                        backend: Backend, call: nat)
    requires Faithful(backend)
    requires forall k :: 0 <= k < |sizes| ==> sizes[k] >= 0
    ensures var r := GenerateBatches(t, sizes, instructions, data, backend, call);
            r.Success? ==> TotalRows(r.value) == Sum(sizes)
  {
    var batch := BatchCall(t, instructions, data, backend, call);
    BatchCallRows(t, instructions, data, backend, call);
    RunBatchesRows(sizes, 0, batch);
    assert sizes[0..] == sizes;
  }

  /** With a backend that returns what it is asked for, the batch plan
      delivers exactly the requested number of rows. */
  lemma ExactRowCount(t: Table, rows: nat, instructions: string, data: map<string, Frame>,
                      backend: Backend, call: nat)
    requires Faithful(backend)
    ensures var r := GenerateTableData(t, rows, instructions, data, backend, call);
            r.Success? ==> |r.value.rows| == rows
  {
    if rows > BatchSize {
      BatchesRowCount(t, BatchPlan(rows), instructions, data, backend, call);
    }
  }

  // ---------------------------------------------------------------------
  // The generator's state

  /** `generated_data` together with an error that ended a run early. */
  datatype Outcome = Outcome(data: map<string, Frame>, error: Option<string>, calls: nat)

  /** The names among the first `k` entries of `order`. */
  function FirstNames(order: seq<string>, k: nat): (r: set<string>)
    requires k <= |order|
    ensures forall x :: x in r <==> x in order[..k]
  {
    set x | x in order[..k]
  }

  lemma FirstNamesSnoc(order: seq<string>, k: nat)
    requires 0 < k <= |order|
    ensures FirstNames(order, k) == FirstNames(order, k - 1) + {order[k - 1]}
  {
    assert order[..k] == order[..k - 1] + [order[k - 1]];
  }

  /** `generate_all_tables` after the first `k` tables of `order`: the
      state starts empty and each table is stored as soon as it is made;
      after a failure nothing more is generated. */
  function GenerateFirst(s: Schema, order: seq<string>, k: nat, rows: int, instructions: string,
                         backend: Backend, call: nat): (o: Outcome)
    requires k <= |order| && forall i :: 0 <= i < |order| ==> order[i] in s.tables
    ensures o.error.None? ==> o.data.Keys == FirstNames(order, k)
    ensures o.data.Keys <= FirstNames(order, k)
    ensures forall n :: n in o.data ==> n in s.tables && FrameOf(o.data[n], s.tables[n])
  {
    if k == 0 then Outcome(map[], None, call)
    else
      var prev := GenerateFirst(s, order, k - 1, rows, instructions, backend, call);
      FirstNamesSnoc(order, k);
      if prev.error.Some? then prev
      else
        var name := order[k - 1];
        match GenerateTableData(s.tables[name], rows, instructions, prev.data, backend, prev.calls)
        case Failure(e) => Outcome(prev.data, Some(e), prev.calls)
        case Success(f) => Outcome(prev.data[name := f], None, prev.calls + CallCount(rows))
  }

  /** One turn of the generation loop: after an error nothing changes;
      otherwise the next table is generated from the frames stored so far
      and, on success, stored under its name with every other entry kept. */
  lemma GenerateFirstStep(s: Schema, order: seq<string>, k: nat, rows: int, instructions: string,
                          backend: Backend, call: nat)
    requires 0 < k <= |order| && forall i :: 0 <= i < |order| ==> order[i] in s.tables
    ensures var prev := GenerateFirst(s, order, k - 1, rows, instructions, backend, call);
            var o := GenerateFirst(s, order, k, rows, instructions, backend, call);
            var name := order[k - 1];
            var made := GenerateTableData(s.tables[name], rows, instructions, prev.data, backend, prev.calls);
            && (prev.error.Some? ==> o == prev)
            && (prev.error.None? && made.Success? ==>
                  o.data == prev.data[name := made.value] && o.error.None?)
            && (prev.error.None? && made.Failure? ==>
                  o.data == prev.data && o.error == Some(made.error))
  {
  }

  /** `generate_all_tables` (non-streaming): the state is reset and filled in
      generation order. */
  function GenerateAllTables(s: Schema, rows: int, instructions: string, backend: Backend, call: nat): (o: Outcome)
    requires ValidSchema(s)
    ensures o.error.None? ==> o.data.Keys == s.tables.Keys
    ensures o.data.Keys <= s.tables.Keys
    ensures forall n :: n in o.data ==> FrameOf(o.data[n], s.tables[n])
  {
    var order := GenerationOrder(s);
    OrderCoversTables(s);
    GenerateFirst(s, order, |order|, rows, instructions, backend, call)
  }

  /** The generation order lists exactly the schema's tables. */
  lemma OrderCoversTables(s: Schema)
    requires ValidSchema(s)
    ensures var order := GenerationOrder(s);
            (forall i :: 0 <= i < |order| ==> order[i] in s.tables)
            && FirstNames(order, |order|) == s.tables.Keys
  {
    var order := GenerationOrder(s);
    assert order[..|order|] == order;
    forall i | 0 <= i < |order|
      ensures order[i] in s.tables
    {
      assert order[i] in order;
    }
    forall x
      ensures x in FirstNames(order, |order|) <==> x in s.tables
    {
    }
  }

  /** In an acyclic schema, when a table's turn comes every parsed table it
      references is already in `generated_data`, so its foreign-key lines
      carry sample values. */
  lemma ParentsGeneratedFirst(s: Schema, rank: string -> nat, i: nat, rows: int, instructions: string,
                              backend: Backend, call: nat)
    requires ValidSchema(s) && SchemaRanked(s, rank)
    requires i < |GenerationOrder(s)|
    ensures var order := GenerationOrder(s);
            var before := GenerateFirst(s, order, i, rows, instructions, backend, call);
            var t := s.tables[order[i]];
            before.error.None? ==>
              forall k :: 0 <= k < |t.foreignKeys| && t.foreignKeys[k].referencedTable in s.tables ==>
                t.foreignKeys[k].referencedTable in before.data
  {
    var order := GenerationOrder(s);
    GenerationOrderTopological(s, rank);
    var t := s.tables[order[i]];
    forall k | 0 <= k < |t.foreignKeys| && t.foreignKeys[k].referencedTable in s.tables
      ensures t.foreignKeys[k].referencedTable in order[..i]
    {
    }
  }

  /** `regenerate_table`: an unknown name is a `ValueError` and the state is
      untouched; otherwise only that table's entry changes. */
  function RegenerateTable(data: map<string, Frame>, name: string, tables: map<string, Table>, rows: int,
                           instructions: string, backend: Backend, call: nat): (r: (map<string, Frame>, Result<Frame, string>))
    ensures name !in tables ==> r == (data, Failure("Table '" + name + "' not found in schema"))
    ensures r.1.Failure? ==> r.0 == data
    ensures r.1.Success? ==> name in tables && r.0 == data[name := r.1.value]
    ensures r.1.Success? ==> r.1.value.columns == ColumnNames(tables[name].columns)
  {
    if name !in tables then (data, Failure("Table '" + name + "' not found in schema"))
    else
      match GenerateTableData(tables[name], rows, instructions, data, backend, call)
      case Failure(e) => (data, Failure(e))
      case Success(f) => (data[name := f], Success(f))
  }

  /** `get_data`: the stored frame, or `None`. */
  function GetData(data: map<string, Frame>, name: string): (r: Option<Frame>)
    ensures r.Some? <==> name in data
    ensures r.Some? ==> r.value == data[name]
  {
    if name in data then Some(data[name]) else None
  }

  /** After a successful regeneration, `get_data` returns the new frame for
      that table and the old frame for every other one. */
  lemma GetDataAfterRegenerate(data: map<string, Frame>, name: string, tables: map<string, Table>, rows: int,
                               instructions: string, backend: Backend, call: nat, other: string)
    requires other != name
    ensures var r := RegenerateTable(data, name, tables, rows, instructions, backend, call);
            && (r.1.Success? ==> GetData(r.0, name) == Some(r.1.value))
            && GetData(r.0, other) == GetData(data, other)
  {
  }
}

=== FILE: ddl_converter.dfy ===
/** The MySQL-to-PostgreSQL DDL rewriter: an ordered list of regular
    expression substitutions, backtick removal, and a whitespace
    normalisation whose output is single-spaced with no space before a
    comma; plus the detector that says whether a text looks like MySQL. */
module DdlConverter {

  import opened Results
  import opened Text

  // ---------------------------------------------------------------------
  // The patterns, each as a matcher giving the end of the match at `i`

  datatype Pattern =
    | LineComment       // --[^\n]*
    | SerialPrimaryKey  // \b(INT|INTEGER|BIGINT|SMALLINT)\s+PRIMARY\s+KEY\s+AUTO_INCREMENT\b
    | SerialColumn      // \b(INT|INTEGER|BIGINT|SMALLINT)\s+AUTO_INCREMENT\b
    | AutoIncrement     // ,?\s*\bAUTO_INCREMENT\b
    | TinyintOne        // \bTINYINT\s*\(\s*1\s*\)
    | Tinyint           // \bTINYINT\b
    | Datetime          // \bDATETIME\b
    | Enum              // \bENUM\s*\([^)]*\)
    | Unsigned          // \s+UNSIGNED\b
    | EngineOptions     // \)\s*ENGINE\s*=\s*\w+[^;]*;
    | Charset           // \s+(CHARACTER\s+SET|CHARSET)\s*=?\s*\w+
    | Collate           // \s+COLLATE\s+\w+
    | Comment           // \s+COMMENT\s+(["'])[^"']*\1

  const IntegerTypes: seq<string> := ["INT", "INTEGER", "BIGINT", "SMALLINT"]

  /** The end of the first integer type name at `i` that is followed by
      whitespace. Since every pattern using the alternation needs
      whitespace right after it, INT and INTEGER never both qualify, so
      taking the first that does is what backtracking would find. */
  function IntegerTypeEnd(s: string, i: nat, types: seq<string>): (r: Option<nat>)
    ensures r.Some? ==> i < r.value < |s| && IsSpace(s[r.value])
  {
    if types == [] then None
    else if TypeFits(s, i, types[0]) then Some(i + |types[0]|)
    else IntegerTypeEnd(s, i, types[1..])
  }

  /** The type name `w` is written at `i` and followed by whitespace. */
  predicate TypeFits(s: string, i: nat, w: string) {
    LiteralAt(s, i, w) && i + |w| < |s| && IsSpace(s[i + |w|]) && w != []
  }

  /** `\s+W` at `a`: at least one whitespace character, then the word. */
  function SpacesThen(s: string, a: nat, w: string): (r: Option<nat>)
    requires a <= |s|
    ensures r.Some? ==> a + |w| < r.value <= |s|
  {
    var b := Span(s, a, IsSpace);
    if b > a && LiteralAt(s, b, w) then Some(b + |w|) else None
  }

  predicate IsQuote(c: char) {
    c == '"' || c == '\''
  }

  /** The matchers below give the end of a match starting at `i`; every
      pattern matches at least one character. */
  ghost predicate Advances(m: (string, nat) -> Option<nat>) {
    forall s: string, i: nat :: m(s, i).Some? ==> i < m(s, i).value <= |s|
  }

  function LineCommentAt(s: string, i: nat): (r: Option<nat>)
    ensures r.Some? ==> i < r.value <= |s|
  {
    if OccursAt(s, "--", i) then Some(Span(s, i + 2, c => c != '\n')) else None
  }

  function SerialPrimaryKeyAt(s: string, i: nat): (r: Option<nat>)
    ensures r.Some? ==> i < r.value <= |s|
  {
    if i > |s| || !BoundaryBefore(s, i) then None
    else
      var t := IntegerTypeEnd(s, i, IntegerTypes);
      if t.None? then None
      else
        var pk := SpacesThen(s, t.value, "PRIMARY");
        if pk.None? then None
        else
          var k := SpacesThen(s, pk.value, "KEY");
          if k.None? then None
          else
            var e := SpacesThen(s, k.value, "AUTO_INCREMENT");
            if e.Some? && BoundaryAfter(s, e.value) then e else None
  }

  function SerialColumnAt(s: string, i: nat): (r: Option<nat>)
    ensures r.Some? ==> i < r.value <= |s|
  {
    if i > |s| || !BoundaryBefore(s, i) then None
    else
      var t := IntegerTypeEnd(s, i, IntegerTypes);
      if t.None? then None
      else
        var e := SpacesThen(s, t.value, "AUTO_INCREMENT");
        if e.Some? && BoundaryAfter(s, e.value) then e else None
  }

  /** `,?\s*\bAUTO_INCREMENT\b`: the comma, when present, is taken, since
      without it the rest cannot match at a comma. */
  function AutoIncrementAt(s: string, i: nat): (r: Option<nat>)
    ensures r.Some? ==> i < r.value <= |s|
  {
    if i > |s| then None
    else
      var j := if i < |s| && s[i] == ',' then i + 1 else i;
      var k := Span(s, j, IsSpace);
      if BoundaryBefore(s, k) && LiteralAt(s, k, "AUTO_INCREMENT") && BoundaryAfter(s, k + 14) then Some(k + 14)
      else None
  }

  function TinyintOneAt(s: string, i: nat): (r: Option<nat>)
    ensures r.Some? ==> i < r.value <= |s|
  {
    if !(i <= |s| && BoundaryBefore(s, i) && LiteralAt(s, i, "TINYINT")) then None
    else
      var a := Span(s, i + 7, IsSpace);
      if !(a < |s| && s[a] == '(') then None
      else
        var b := Span(s, a + 1, IsSpace);
        if !(b < |s| && s[b] == '1') then None
        else
          var c := Span(s, b + 1, IsSpace);
          if c < |s| && s[c] == ')' then Some(c + 1) else None
  }

  function TinyintAt(s: string, i: nat): (r: Option<nat>)
    ensures r.Some? ==> i < r.value <= |s|
  {
    if i <= |s| && WordAt(s, i, "TINYINT") then Some(i + 7) else None
  }

  function DatetimeAt(s: string, i: nat): (r: Option<nat>)
    ensures r.Some? ==> i < r.value <= |s|
  {
    if i <= |s| && WordAt(s, i, "DATETIME") then Some(i + 8) else None
  }

  /** `\bENUM\s*\([^)]*\)`: the value list runs to the first `)`. */
  function EnumAt(s: string, i: nat): (r: Option<nat>)
    ensures r.Some? ==> i < r.value <= |s|
  {
    if !(i <= |s| && BoundaryBefore(s, i) && LiteralAt(s, i, "ENUM")) then None
    else
      var a := Span(s, i + 4, IsSpace);
      if !(a < |s| && s[a] == '(') then None
      else
        var b := Span(s, a + 1, c => c != ')');
        if b < |s| then Some(b + 1) else None
  }

  function UnsignedAt(s: string, i: nat): (r: Option<nat>)
    ensures r.Some? ==> i < r.value <= |s|
  {
    if i > |s| then None
    else
      var e := SpacesThen(s, i, "UNSIGNED");
      if e.Some? && BoundaryAfter(s, e.value) then e else None
  }

  /** `\)\s*ENGINE\s*=\s*\w+[^;]*;`: the table options up to the first `;`. */
  function EngineOptionsAt(s: string, i: nat): (r: Option<nat>)
    ensures r.Some? ==> i < r.value <= |s|
  {
    if !(i < |s| && s[i] == ')') then None
    else
      var a := Span(s, i + 1, IsSpace);
      if !LiteralAt(s, a, "ENGINE") then None
      else
        var b := Span(s, a + 6, IsSpace);
        if !(b < |s| && s[b] == '=') then None
        else
          var c := Span(s, b + 1, IsSpace);
          var d := Span(s, c, IsWordChar);
          if d == c then None
          else
            var e := Span(s, d, ch => ch != ';');
            if e < |s| then Some(e + 1) else None
  }

  /** `\s+(CHARACTER\s+SET|CHARSET)\s*=?\s*\w+`. The two alternatives
      differ in their fifth letter, so at most one can start a match. */
  function CharsetAt(s: string, i: nat): (r: Option<nat>)
    ensures r.Some? ==> i < r.value <= |s|
  {
    if i > |s| then None
    else
      var a := Span(s, i, IsSpace);
      var name :=
        if a == i then None
        else if LiteralAt(s, a, "CHARACTER") then SpacesThen(s, a + 9, "SET")
        else if LiteralAt(s, a, "CHARSET") then Some(a + 7)
        else None;
      if name.None? then None
      else
        var c := Span(s, name.value, IsSpace);
        var d := if c < |s| && s[c] == '=' then Span(s, c + 1, IsSpace) else c;
        var e := Span(s, d, IsWordChar);
        if e > d then Some(e) else None
  }

  function CollateAt(s: string, i: nat): (r: Option<nat>)
    ensures r.Some? ==> i < r.value <= |s|
  {
    if i > |s| then None
    else
      var b := SpacesThen(s, i, "COLLATE");
      if b.None? then None
      else
        var c := Span(s, b.value, IsSpace);
        var d := Span(s, c, IsWordChar);
        if c > b.value && d > c then Some(d) else None
  }

  /** `\s+COMMENT\s+(["'])[^"']*\1`: the text closes with the quote it
      opened with, and contains no quote of either kind. */
  function CommentAt(s: string, i: nat): (r: Option<nat>)
    ensures r.Some? ==> i < r.value <= |s|
  {
    if i > |s| then None
    else
      var b := SpacesThen(s, i, "COMMENT");
      if b.None? then None
      else
        var c := Span(s, b.value, IsSpace);
        if !(c > b.value && c < |s| && IsQuote(s[c])) then None
        else
          var d := Span(s, c + 1, ch => !IsQuote(ch));
          if d < |s| && s[d] == s[c] then Some(d + 1) else None
  }

  /** `\s+`. */
  function WhitespaceAt(s: string, i: nat): (r: Option<nat>)
    ensures r.Some? <==> i < |s| && IsSpace(s[i])
    ensures r.Some? ==> r.value == Span(s, i, IsSpace) && i < r.value
  {
    if i < |s| && IsSpace(s[i]) then Some(Span(s, i, IsSpace)) else None
  }

  /** `\s+,`. */
  function SpaceBeforeCommaAt(s: string, i: nat): (r: Option<nat>)
    ensures r.Some? <==> i < |s| && IsSpace(s[i]) && Span(s, i, IsSpace) < |s| && s[Span(s, i, IsSpace)] == ','
    ensures r.Some? ==> r.value == Span(s, i, IsSpace) + 1
  {
    if !(i < |s| && IsSpace(s[i])) then None
    else
      var a := Span(s, i, IsSpace);
      if a < |s| && s[a] == ',' then Some(a + 1) else None
  }

  function Matcher(p: Pattern): (m: (string, nat) -> Option<nat>)
    ensures Advances(m)
  {
    match p
    case LineComment => LineCommentAt
    case SerialPrimaryKey => SerialPrimaryKeyAt
    case SerialColumn => SerialColumnAt
    case AutoIncrement => AutoIncrementAt
    case TinyintOne => TinyintOneAt
    case Tinyint => TinyintAt
    case Datetime => DatetimeAt
    case Enum => EnumAt
    case Unsigned => UnsignedAt
    case EngineOptions => EngineOptionsAt
    case Charset => CharsetAt
    case Collate => CollateAt
    case Comment => CommentAt
  }

  /** `re.sub(pattern, repl, s[from..])`: every non-overlapping leftmost
      match, scanning left to right, is replaced by `repl`. */
  function Sub(s: string, from: nat, m: (string, nat) -> Option<nat>, repl: string): (r: string)
    requires from <= |s| && Advances(m)
    ensures forall c :: c in r ==> c in s[from..] || c in repl
    decreases |s| - from
  {
    match FirstMatch(s, from, m)
    case None => s[from..]
    case Some((i, e)) =>
      var rest := Sub(s, e, m, repl);
      assert forall c :: c in s[from..i] ==> c in s[from..];
      assert forall c :: c in rest ==> c in s[from..] || c in repl;
      s[from..i] + repl + rest
  }

  /** The first match splits the substitution: the text before it, the
      replacement, and the substitution of what follows the match. */
  lemma SubStep(s: string, from: nat, m: (string, nat) -> Option<nat>, repl: string) returns (i: nat, e: nat)
    requires from <= |s| && Advances(m) && FirstMatch(s, from, m).Some?
    ensures FirstMatch(s, from, m) == Some((i, e)) && from <= i < e <= |s|
    ensures forall k :: from <= k < i ==> m(s, k).None?
    ensures Sub(s, from, m, repl) == s[from..i] + repl + Sub(s, e, m, repl)
  {
    i, e := FirstMatch(s, from, m).value.0, FirstMatch(s, from, m).value.1;
  }

  /** `SubStep` for an empty replacement: the match is simply cut out. */
  lemma SubStepDeleting(s: string, from: nat, m: (string, nat) -> Option<nat>) returns (i: nat, e: nat)
    requires from <= |s| && Advances(m) && FirstMatch(s, from, m).Some?
    ensures FirstMatch(s, from, m) == Some((i, e)) && from <= i < e <= |s|
    ensures forall k :: from <= k < i ==> m(s, k).None?
    ensures Sub(s, from, m, "") == s[from..i] + Sub(s, e, m, "")
  {
    i, e := SubStep(s, from, m, "");
    assert s[from..i] + "" == s[from..i];
  }

  function Replace(s: string, p: Pattern, repl: string): (r: string)
    ensures forall c :: c in r ==> c in s || c in repl
  {
    Sub(s, 0, Matcher(p), repl)
  }

  /** `s.replace('`', '')`. */
  function RemoveBackticks(s: string): (r: string)
    ensures forall c :: c in r <==> c in s && c != '`'
  {
    if s == [] then []
    else
      var rest := RemoveBackticks(s[1..]);
      assert forall c :: c in s <==> c == s[0] || c in s[1..];
      if s[0] == '`' then rest else [s[0]] + rest
  }

  // ---------------------------------------------------------------------
  // The pipeline

  /** The substitutions before backtick removal, in the order applied. */
  const Rewrites: seq<(Pattern, string)> := [
    (LineComment, ""),
    (SerialPrimaryKey, "SERIAL PRIMARY KEY"),
    (SerialColumn, "SERIAL"),
    (AutoIncrement, ""),
    (TinyintOne, "BOOLEAN"),
    (Tinyint, "SMALLINT"),
    (Datetime, "TIMESTAMP"),
    (Enum, "VARCHAR(100)"),
    (Unsigned, ""),
    (EngineOptions, ");"),
    (Charset, ""),
    (Collate, ""),
    (Comment, "")
  ]

  /** Apply `rules` in order. */
  function ApplyAll(s: string, rules: seq<(Pattern, string)>): string
    decreases |rules|
  {
    if rules == [] then s
    else ApplyAll(Replace(s, rules[0].0, rules[0].1), rules[1..])
  }

  /** The final passes: every whitespace run becomes one space, then
      whitespace before a comma is dropped. */
  function NormalizeSpacing(s: string): (r: string)
    ensures SingleSpaced(r) && NoSpaceBeforeComma(r)
    ensures forall c :: c in r ==> c in s || c == ' ' || c == ','
  {
    CollapseSingleSpaced(s, 0);
    var t := Sub(s, 0, WhitespaceAt, " ");
    CommaPassClean(t, 0);
    Sub(t, 0, SpaceBeforeCommaAt, ",")
  }

  /** `mysql_to_postgres`. */
  function MysqlToPostgres(ddl: string): (r: string)
    ensures '`' !in r
    ensures SingleSpaced(r) && NoSpaceBeforeComma(r)
  {
    NormalizeSpacing(RemoveBackticks(ApplyAll(ddl, Rewrites)))
  }

  /** Comments go first, the two SERIAL forms come before leftover
      AUTO_INCREMENT is deleted, and TINYINT(1) becomes BOOLEAN before
      any other TINYINT becomes SMALLINT. */
  lemma RewriteOrder()
    ensures Rewrites[0].0 == LineComment
    ensures Rewrites[1].0 == SerialPrimaryKey && Rewrites[2].0 == SerialColumn && Rewrites[3].0 == AutoIncrement
    ensures Rewrites[4].0 == TinyintOne && Rewrites[5].0 == Tinyint
    ensures forall k :: 1 <= k < |Rewrites| ==> Rewrites[k].0 != LineComment
  {
  }

  /** No match of `m` starts before `i`. */
  predicate NoMatchBefore(s: string, m: (string, nat) -> Option<nat>, i: nat) {
    forall j :: 0 <= j < i ==> m(s, j).None?
  }

  /** A substitution whose leftmost match is at `i`: the text before it is
      kept, the match becomes `repl`, and the scan resumes after it. */
  lemma SubAtLeftmost(s: string, m: (string, nat) -> Option<nat>, repl: string, i: nat, e: nat)
    requires Advances(m) && i <= |s| && m(s, i) == Some(e) && NoMatchBefore(s, m, i)
    ensures i < e <= |s|
    ensures Sub(s, 0, m, repl) == s[..i] + repl + Sub(s, e, m, repl)
  {
    assert FirstMatch(s, 0, m) == Some((i, e));
    assert s[0..i] == s[..i];
  }

  /** `SubAtLeftmost` for one of the converter's patterns. */
  lemma ReplaceAtLeftmost(s: string, p: Pattern, repl: string, i: nat, e: nat)
    requires i <= |s| && Matcher(p)(s, i) == Some(e) && NoMatchBefore(s, Matcher(p), i)
    ensures i < e <= |s|
    ensures Replace(s, p, repl) == s[..i] + repl + Sub(s, e, Matcher(p), repl)
  {
    SubAtLeftmost(s, Matcher(p), repl, i, e);
  }

  /** `\s+W` where the text has exactly one space and then `w`, ending at `e`. */
  lemma OneSpaceThen(s: string, x: nat, w: string, e: nat)
    requires e == x + 1 + |w| && e <= |s| && s[x] == ' ' && s[x + 1..e] == w
    requires w != [] && forall k :: 0 <= k < |w| ==> 'A' <= w[k] <= 'Z' || w[k] == '_'
    ensures SpacesThen(s, x, w) == Some(e)
  {
    assert s[x + 1] == w[0];
    SpanStops(s, x, x + 1, IsSpace);
    UpperKeepsUpper(w);
  }

  /** The text holds, from `i`, the `k`-th integer type as a whole word,
      then `PRIMARY KEY AUTO_INCREMENT` with one space before each keyword
      and a word boundary after the last. */
  predicate SerialKeyText(s: string, i: nat, k: nat) {
    k < |IntegerTypes| && i + |IntegerTypes[k]| + 27 <= |s|
    && var q := i + |IntegerTypes[k]|;
    s[i..q] == IntegerTypes[k] && s[q] == ' ' && s[q + 1..q + 8] == "PRIMARY"
    && s[q + 8] == ' ' && s[q + 9..q + 12] == "KEY"
    && s[q + 12] == ' ' && s[q + 13..q + 27] == "AUTO_INCREMENT"
    && BoundaryBefore(s, i) && BoundaryAfter(s, q + 27)
  }

  /** An integer column declared `PRIMARY KEY AUTO_INCREMENT` with single
      spaces, standing as a word, is one match of the first rewrite,
      whichever of the four integer types it has. */
  lemma SerialPrimaryKeyMatch(s: string, i: nat, k: nat)
    requires SerialKeyText(s, i, k)
    ensures SerialPrimaryKeyAt(s, i) == Some(i + |IntegerTypes[k]| + 27)
  {
    var q := i + |IntegerTypes[k]|;
    assert s[i..q] == IntegerTypes[k] && IsSpace(s[q]);
    IntegerTypeFound(s, i, k);
    assert s[q] == ' ' && s[q + 1..q + 8] == "PRIMARY" && s[q + 8] == ' ' && s[q + 9..q + 12] == "KEY"
           && s[q + 12] == ' ' && s[q + 13..q + 27] == "AUTO_INCREMENT";
    SerialKeywords(s, q);
    SerialPrimaryKeySteps(s, i, q);
  }

  /** The matcher succeeds once each of its steps does. */
  lemma SerialPrimaryKeySteps(s: string, i: nat, q: nat)
    requires i <= q && q + 27 <= |s| && BoundaryBefore(s, i) && IntegerTypeEnd(s, i, IntegerTypes) == Some(q)
    requires SpacesThen(s, q, "PRIMARY") == Some(q + 8) && SpacesThen(s, q + 8, "KEY") == Some(q + 12)
    requires SpacesThen(s, q + 12, "AUTO_INCREMENT") == Some(q + 27) && BoundaryAfter(s, q + 27)
    ensures SerialPrimaryKeyAt(s, i) == Some(q + 27)
  {
  }

  /** ` PRIMARY KEY AUTO_INCREMENT` at `q` is matched keyword by keyword. */
  lemma SerialKeywords(s: string, q: nat)
    requires q + 27 <= |s|
    requires s[q] == ' ' && s[q + 1..q + 8] == "PRIMARY"
             && s[q + 8] == ' ' && s[q + 9..q + 12] == "KEY"
             && s[q + 12] == ' ' && s[q + 13..q + 27] == "AUTO_INCREMENT"
    ensures SpacesThen(s, q, "PRIMARY") == Some(q + 8)
    ensures SpacesThen(s, q + 8, "KEY") == Some(q + 12)
    ensures SpacesThen(s, q + 12, "AUTO_INCREMENT") == Some(q + 27)
  {
    OneSpaceThen(s, q, "PRIMARY", q + 8);
    OneSpaceThen(s, q + 8, "KEY", q + 12);
    OneSpaceThen(s, q + 12, "AUTO_INCREMENT", q + 27);
  }

  /** The lookup takes the first type name that fits. */
  lemma {:induction false} FirstFittingType(s: string, i: nat, types: seq<string>, k: nat)
    requires k < |types| && TypeFits(s, i, types[k])
    requires forall m :: 0 <= m < k ==> !TypeFits(s, i, types[m])
    ensures IntegerTypeEnd(s, i, types) == Some(i + |types[k]|)
    decreases k
  {
    if k > 0 {
      assert forall m :: 0 <= m < k - 1 ==> types[1..][m] == types[m + 1];
      FirstFittingType(s, i, types[1..], k - 1);
    }
  }

  /** A name whose first letter differs from the text's does not fit. */
  lemma FirstLetterDiffers(s: string, i: nat, w: string)
    requires i < |s| && w != [] && UpperChar(s[i]) != w[0]
    ensures !LiteralAt(s, i, w)
  {
  }

  /** The integer type written at `i` and followed by whitespace is the
      one recognised: no name before it in the list fits, INT before
      INTEGER included. */
  lemma IntegerTypeFound(s: string, i: nat, k: nat)
    requires k < |IntegerTypes| && i + |IntegerTypes[k]| < |s|
    requires s[i..i + |IntegerTypes[k]|] == IntegerTypes[k] && IsSpace(s[i + |IntegerTypes[k]|])
    ensures IntegerTypeEnd(s, i, IntegerTypes) == Some(i + |IntegerTypes[k]|)
  {
    var t := IntegerTypes[k];
    TypeNameFits(s, i, k);
    if k == 1 {
      assert s[i + 3] == s[i..i + 7][3] == 'E';
    }
    if k >= 2 {
      assert s[i] == s[i..i + |t|][0];
      FirstLetterDiffers(s, i, "INT");
      FirstLetterDiffers(s, i, "INTEGER");
    }
    if k == 3 {
      FirstLetterDiffers(s, i, "BIGINT");
    }
    FirstFittingType(s, i, IntegerTypes, k);
  }

  lemma TypeNameFits(s: string, i: nat, k: nat)
    requires k < |IntegerTypes| && i + |IntegerTypes[k]| < |s|
    requires s[i..i + |IntegerTypes[k]|] == IntegerTypes[k] && IsSpace(s[i + |IntegerTypes[k]|])
    ensures TypeFits(s, i, IntegerTypes[k])
  {
    var t := IntegerTypes[k];
    assert t == "INT" || t == "INTEGER" || t == "BIGINT" || t == "SMALLINT";
    UpperKeepsUpper(t);
  }

  /** `TINYINT(1)` starting a word is one match of the BOOLEAN rewrite. */
  lemma TinyintOneMatch(s: string, i: nat)
    requires i + 10 <= |s| && BoundaryBefore(s, i)
    requires s[i..i + 7] == "TINYINT" && s[i + 7] == '(' && s[i + 8] == '1' && s[i + 9] == ')'
    ensures TinyintOneAt(s, i) == Some(i + 10)
  {
    UpperKeepsUpper("TINYINT");
    SpanStops(s, i + 7, i + 7, IsSpace);
    SpanStops(s, i + 8, i + 8, IsSpace);
    SpanStops(s, i + 9, i + 9, IsSpace);
  }

  /** `ENUM(values)` starting a word is one match of the VARCHAR(100)
      rewrite, running to the first `)` after the opening one. */
  lemma EnumMatch(s: string, i: nat, c: nat)
    requires i + 5 <= c < |s| && BoundaryBefore(s, i)
    requires s[i..i + 4] == "ENUM" && s[i + 4] == '(' && ')' !in s[i + 5..c] && s[c] == ')'
    ensures EnumAt(s, i) == Some(c + 1)
  {
    UpperKeepsUpper("ENUM");
    SpanStops(s, i + 4, i + 4, IsSpace);
    assert forall j :: i + 5 <= j < c ==> s[j] == s[i + 5..c][j - i - 5];
    SpanStops(s, i + 5, c, ch => ch != ')');
  }

  lemma RewriteMatchers()
    ensures Matcher(SerialPrimaryKey) == SerialPrimaryKeyAt
    ensures Matcher(TinyintOne) == TinyintOneAt && Matcher(Enum) == EnumAt
  {
  }

  /** The first integer primary key declared AUTO_INCREMENT becomes
      `SERIAL PRIMARY KEY`: the text before it is kept, the type and its
      three keywords are replaced, and the scan resumes after them. */
  lemma SerialPrimaryKeyRewrite(s: string, i: nat, k: nat)
    requires SerialKeyText(s, i, k)
    requires NoMatchBefore(s, Matcher(SerialPrimaryKey), i)
    ensures var e := i + |IntegerTypes[k]| + 27;
            Replace(s, SerialPrimaryKey, "SERIAL PRIMARY KEY")
            == s[..i] + "SERIAL PRIMARY KEY" + Sub(s, e, Matcher(SerialPrimaryKey), "SERIAL PRIMARY KEY")
  {
    var e := i + |IntegerTypes[k]| + 27;
    SerialPrimaryKeyMatch(s, i, k);
    RewriteMatchers();
    ReplaceAtLeftmost(s, SerialPrimaryKey, "SERIAL PRIMARY KEY", i, e);
  }

  /** The first `TINYINT(1)` becomes `BOOLEAN`. */
  lemma TinyintOneRewrite(s: string, i: nat)
    requires i + 10 <= |s| && BoundaryBefore(s, i)
    requires s[i..i + 7] == "TINYINT" && s[i + 7] == '(' && s[i + 8] == '1' && s[i + 9] == ')'
    requires NoMatchBefore(s, Matcher(TinyintOne), i)
    ensures Replace(s, TinyintOne, "BOOLEAN") == s[..i] + "BOOLEAN" + Sub(s, i + 10, Matcher(TinyintOne), "BOOLEAN")
  {
    TinyintOneMatch(s, i);
    RewriteMatchers();
    ReplaceAtLeftmost(s, TinyintOne, "BOOLEAN", i, i + 10);
  }

  /** The first `ENUM(...)` becomes `VARCHAR(100)`, its values dropped. */
  lemma EnumRewrite(s: string, i: nat, c: nat)
    requires i + 5 <= c < |s| && BoundaryBefore(s, i)
    requires s[i..i + 4] == "ENUM" && s[i + 4] == '(' && ')' !in s[i + 5..c] && s[c] == ')'
    requires NoMatchBefore(s, Matcher(Enum), i)
    ensures Replace(s, Enum, "VARCHAR(100)") == s[..i] + "VARCHAR(100)" + Sub(s, c + 1, Matcher(Enum), "VARCHAR(100)")
  {
    EnumMatch(s, i, c);
    RewriteMatchers();
    ReplaceAtLeftmost(s, Enum, "VARCHAR(100)", i, c + 1);
  }

  // ---------------------------------------------------------------------
  // Output invariants of the final passes

  /** Every whitespace character is a plain space, and no two are adjacent. */
  predicate SingleSpaced(s: string) {
    forall k :: 0 <= k < |s| && IsSpace(s[k]) ==> s[k] == ' ' && (k + 1 < |s| ==> !IsSpace(s[k + 1]))
  }

  predicate NoSpaceBeforeComma(s: string) {
    forall k :: 0 <= k < |s| - 1 && IsSpace(s[k]) ==> s[k + 1] != ','
  }

  lemma SingleSpacedConcat(a: string, b: string)
    requires SingleSpaced(a) && SingleSpaced(b)
    requires a != [] && b != [] && IsSpace(a[|a| - 1]) ==> !IsSpace(b[0])
    ensures SingleSpaced(a + b)
  {
    var s := a + b;
    forall k | 0 <= k < |s| && IsSpace(s[k])
      ensures s[k] == ' ' && (k + 1 < |s| ==> !IsSpace(s[k + 1]))
    {
      if k < |a| {
        assert s[k] == a[k];
        if k + 1 < |a| { assert s[k + 1] == a[k + 1]; }
        else if k + 1 < |s| { assert s[k + 1] == b[0]; }
      } else {
        assert s[k] == b[k - |a|];
        if k + 1 < |s| { assert s[k + 1] == b[k + 1 - |a|]; }
      }
    }
  }

  lemma NoSpaceBeforeCommaConcat(a: string, b: string)
    requires NoSpaceBeforeComma(a) && NoSpaceBeforeComma(b)
    requires a != [] && b != [] && IsSpace(a[|a| - 1]) ==> b[0] != ','
    ensures NoSpaceBeforeComma(a + b)
  {
    var s := a + b;
    forall k | 0 <= k < |s| - 1 && IsSpace(s[k])
      ensures s[k + 1] != ','
    {
      if k + 1 < |a| {
        assert s[k] == a[k] && s[k + 1] == a[k + 1];
      } else if k + 1 == |a| {
        assert s[k] == a[k] && s[k + 1] == b[0];
      } else {
        assert s[k] == b[k - |a|] && s[k + 1] == b[k + 1 - |a|];
      }
    }
  }

  /** A run that starts with whitespace ends where the run after its first
      character ends. */
  lemma SpanSkipsOne(s: string, k: nat)
    requires k < |s| && IsSpace(s[k])
    ensures Span(s, k, IsSpace) == Span(s, k + 1, IsSpace)
  {
  }

  /** Collapsing whitespace leaves a single-spaced text; when the text
      starts with a non-space character, so does the result. */
  lemma {:induction false} CollapseSingleSpaced(s: string, from: nat)
    requires from <= |s|
    ensures SingleSpaced(Sub(s, from, WhitespaceAt, " "))
    ensures from == |s| ==> Sub(s, from, WhitespaceAt, " ") == []
    ensures from < |s| && !IsSpace(s[from]) ==>
              Sub(s, from, WhitespaceAt, " ") != [] && Sub(s, from, WhitespaceAt, " ")[0] == s[from]
    decreases |s| - from
  {
    var r := Sub(s, from, WhitespaceAt, " ");
    match FirstMatch(s, from, WhitespaceAt)
    case None =>
      assert r == s[from..];
      forall k | 0 <= k < |r|
        ensures !IsSpace(r[k])
      {
        assert r[k] == s[from + k];
        assert WhitespaceAt(s, from + k).None?;
      }
    case Some((i, e)) =>
      assert forall k :: from <= k < i ==> WhitespaceAt(s, k).None?;
      var seg := s[from..i];
      assert forall k :: 0 <= k < |seg| ==> !IsSpace(seg[k]) by {
        forall k | 0 <= k < |seg| ensures !IsSpace(seg[k]) {
          assert seg[k] == s[from + k];
          assert WhitespaceAt(s, from + k).None?;
        }
      }
      assert WhitespaceAt(s, i) == Some(e);
      assert e == Span(s, i, IsSpace);
      CollapseSingleSpaced(s, e);
      var rest := Sub(s, e, WhitespaceAt, " ");
      SingleSpacedConcat(seg, " ");
      SingleSpacedConcat(seg + " ", rest);
      assert r == seg + " " + rest;
  }

  /** The comma pass leaves no whitespace before a comma and keeps a
      single-spaced text single-spaced. */
  lemma {:induction false} CommaPassClean(s: string, from: nat)
    requires from <= |s|
    ensures NoSpaceBeforeComma(Sub(s, from, SpaceBeforeCommaAt, ","))
    ensures SingleSpaced(s) ==> SingleSpaced(Sub(s, from, SpaceBeforeCommaAt, ","))
    decreases |s| - from
  {
    if FirstMatch(s, from, SpaceBeforeCommaAt).None? {
      assert Sub(s, from, SpaceBeforeCommaAt, ",") == s[from..|s|];
      NoCommaMatchMeansClean(s, from, |s|);
    } else {
      var i, e := SubStep(s, from, SpaceBeforeCommaAt, ",");
      var seg := s[from..i];
      NoCommaMatchMeansClean(s, from, i);
      if from < i && IsSpace(s[i - 1]) {
        MatchExtendsLeft(s, i);
        assert false;
      }
      CommaPassClean(s, e);
      CommaJoin(seg, Sub(s, e, SpaceBeforeCommaAt, ","));
    }
  }

  /** A piece that does not end in whitespace, a comma, and a clean rest
      make a clean whole. */
  lemma CommaJoin(seg: string, rest: string)
    requires NoSpaceBeforeComma(seg) && NoSpaceBeforeComma(rest)
    requires seg != [] ==> !IsSpace(seg[|seg| - 1])
    ensures NoSpaceBeforeComma(seg + "," + rest)
    ensures SingleSpaced(seg) && SingleSpaced(rest) ==> SingleSpaced(seg + "," + rest)
  {
    NoSpaceBeforeCommaConcat(seg, ",");
    NoSpaceBeforeCommaConcat(seg + ",", rest);
    if SingleSpaced(seg) && SingleSpaced(rest) {
      SingleSpacedConcat(seg, ",");
      SingleSpacedConcat(seg + ",", rest);
    }
  }


  /** A stretch with no match of `\s+,` starting in it has no whitespace
      directly before a comma, and inherits single spacing. */
  lemma NoCommaMatchMeansClean(s: string, from: nat, to: nat)
    requires from <= to <= |s|
    requires forall k :: from <= k < to ==> SpaceBeforeCommaAt(s, k).None?
    ensures NoSpaceBeforeComma(s[from..to])
    ensures SingleSpaced(s) ==> SingleSpaced(s[from..to])
  {
    var seg := s[from..to];
    forall k | 0 <= k < |seg| - 1 && IsSpace(seg[k])
      ensures seg[k + 1] != ','
    {
      assert seg[k] == s[from + k] && seg[k + 1] == s[from + k + 1];
      assert SpaceBeforeCommaAt(s, from + k).None?;
    }
    if SingleSpaced(s) {
      forall k | 0 <= k < |seg| && IsSpace(seg[k])
        ensures seg[k] == ' ' && (k + 1 < |seg| ==> !IsSpace(seg[k + 1]))
      {
        assert seg[k] == s[from + k];
        if k + 1 < |seg| { assert seg[k + 1] == s[from + k + 1]; }
      }
    }
  }

  /** A match of `\s+,` also starts one character earlier when that
      character is whitespace too. */
  lemma MatchExtendsLeft(s: string, i: nat)
    requires 0 < i < |s| && IsSpace(s[i - 1]) && SpaceBeforeCommaAt(s, i).Some?
    ensures SpaceBeforeCommaAt(s, i - 1).Some?
  {
    SpanSkipsOne(s, i - 1);
  }

  /** Every match of `\s+,` ends in whitespace directly before a comma. */
  lemma MatchHasSpaceBeforeComma(s: string, i: nat)
    requires SpaceBeforeCommaAt(s, i).Some?
    ensures var a := Span(s, i, IsSpace);
            0 < a < |s| && IsSpace(s[a - 1]) && s[a] == ','
  {
  }

  /** On a single-spaced text the whitespace pass changes nothing. */
  lemma {:induction false} CollapseFixesSingleSpaced(s: string, from: nat)
    requires from <= |s| && SingleSpaced(s)
    ensures Sub(s, from, WhitespaceAt, " ") == s[from..]
    decreases |s| - from
  {
    match FirstMatch(s, from, WhitespaceAt)
    case None =>
    case Some((i, e)) =>
      assert WhitespaceAt(s, i) == Some(e);
      SpanStops(s, i, i + 1, IsSpace);
      assert e == i + 1;
      CollapseFixesSingleSpaced(s, e);
      assert s[from..] == s[from..i] + [s[i]] + s[i + 1..];
  }

  /** Without whitespace before a comma the comma pass changes nothing. */
  lemma CommaPassFixesClean(s: string, from: nat)
    requires from <= |s| && NoSpaceBeforeComma(s)
    ensures Sub(s, from, SpaceBeforeCommaAt, ",") == s[from..]
  {
    match FirstMatch(s, from, SpaceBeforeCommaAt)
    case None =>
    case Some((i, e)) =>
      MatchHasSpaceBeforeComma(s, i);
      assert false;
  }

  /** The final normalisation is idempotent. */
  lemma NormalizeSpacingIdempotent(s: string)
    ensures NormalizeSpacing(NormalizeSpacing(s)) == NormalizeSpacing(s)
  {
    var n := NormalizeSpacing(s);
    CollapseFixesSingleSpaced(n, 0);
    var t := Sub(n, 0, WhitespaceAt, " ");
    assert t == n;
    CommaPassFixesClean(n, 0);
  }

  // ---------------------------------------------------------------------
  // The comment pass

  predicate NoDoubleDash(s: string) {
    forall k :: 0 <= k < |s| - 1 ==> !(s[k] == '-' && s[k + 1] == '-')
  }

  /** Once `--[^\n]*` has been replaced by nothing, no `--` is left: a
      dash left just before a removed comment would have started an
      earlier match. */
  lemma {:induction false} CommentPassRemovesComments(s: string, from: nat)
    requires from <= |s|
    ensures NoDoubleDash(Sub(s, from, LineCommentAt, ""))
    decreases |s| - from
  {
    if FirstMatch(s, from, LineCommentAt).None? {
      NoCommentLeft(s, from);
    } else {
      var i, e := CommentStep(s, from);
      CommentPassRemovesComments(s, e);
      NoDoubleDashConcat(s[from..i], Sub(s, e, LineCommentAt, ""));
    }
  }

  lemma NoCommentLeft(s: string, from: nat)
    requires from <= |s| && FirstMatch(s, from, LineCommentAt).None?
    ensures NoDoubleDash(Sub(s, from, LineCommentAt, ""))
  {
    assert Sub(s, from, LineCommentAt, "") == s[from..|s|];
    NoCommentMatchMeansNoDoubleDash(s, from, |s|);
  }

  /** The text before the leftmost comment has no `--` and does not end in
      a dash; the rest of the pass starts after the comment. */
  lemma CommentStep(s: string, from: nat) returns (i: nat, e: nat)
    requires from <= |s| && FirstMatch(s, from, LineCommentAt).Some?
    ensures from <= i < e <= |s|
    ensures Sub(s, from, LineCommentAt, "") == s[from..i] + Sub(s, e, LineCommentAt, "")
    ensures NoDoubleDash(s[from..i]) && (from < i ==> s[i - 1] != '-')
  {
    i, e := SubStepDeleting(s, from, LineCommentAt);
    NoCommentMatchMeansNoDoubleDash(s, from, i);
    NoDashBeforeComment(s, from, i);
  }

  lemma NoDoubleDashConcat(a: string, b: string)
    requires NoDoubleDash(a) && NoDoubleDash(b)
    requires a != [] && b != [] ==> !(a[|a| - 1] == '-' && b[0] == '-')
    ensures NoDoubleDash(a + b)
  {
    var r := a + b;
    forall k | 0 <= k < |r| - 1
      ensures !(r[k] == '-' && r[k + 1] == '-')
    {
      if k + 1 < |a| {
        assert r[k] == a[k] && r[k + 1] == a[k + 1];
      } else if k + 1 == |a| {
        assert r[k] == a[k] && r[k + 1] == b[0];
      } else {
        assert r[k] == b[k - |a|] && r[k + 1] == b[k + 1 - |a|];
      }
    }
  }

  lemma NoCommentMatchMeansNoDoubleDash(s: string, from: nat, to: nat)
    requires from <= to <= |s|
    requires forall k :: from <= k < to ==> LineCommentAt(s, k).None?
    ensures NoDoubleDash(s[from..to])
  {
    var seg := s[from..to];
    forall k | 0 <= k < |seg| - 1
      ensures !(seg[k] == '-' && seg[k + 1] == '-')
    {
      assert seg[k] == s[from + k] && seg[k + 1] == s[from + k + 1];
      if seg[k] == '-' && seg[k + 1] == '-' {
        DashesStartComment(s, from + k);
      }
    }
  }

  lemma DashesStartComment(s: string, j: nat)
    requires j + 1 < |s| && s[j] == '-' && s[j + 1] == '-'
    ensures LineCommentAt(s, j).Some?
  {
    assert s[j..j + 2] == "--";
  }

  /** The leftmost comment is not preceded by a dash that is not itself
      part of a comment. */
  lemma NoDashBeforeComment(s: string, from: nat, i: nat)
    requires from <= i <= |s| && LineCommentAt(s, i).Some?
    requires forall k :: from <= k < i ==> LineCommentAt(s, k).None?
    ensures from < i ==> s[i - 1] != '-'
  {
    if from < i && s[i - 1] == '-' {
      CommentExtendsLeft(s, i);
      assert false;
    }
  }

  lemma CommentExtendsLeft(s: string, i: nat)
    requires 0 < i < |s| && s[i - 1] == '-' && LineCommentAt(s, i).Some?
    ensures LineCommentAt(s, i - 1).Some?
  {
    assert OccursAt(s, "--", i);
    assert s[i] == s[i..i + 2][0] == '-';
    assert s[i - 1..i + 1] == "--";
  }

  // ---------------------------------------------------------------------
  // detect_mysql_syntax

  datatype Indicator = AutoIncrementWord | EngineAssign | CharsetAssign | Backtick | TinyintOneType

  const Indicators: seq<Indicator> := [AutoIncrementWord, EngineAssign, CharsetAssign, Backtick, TinyintOneType]

  /** `\bW\s*=` at `i`. */
  predicate AssignAt(s: string, i: nat, w: string) {
    i <= |s| && BoundaryBefore(s, i) && LiteralAt(s, i, w)
    && var a := Span(s, i + |w|, IsSpace); a < |s| && s[a] == '='
  }

  function IndicatorAt(ind: Indicator, s: string, i: nat): Option<()> {
    var found :=
      match ind
      case AutoIncrementWord => WordAt(s, i, "AUTO_INCREMENT")
      case EngineAssign => AssignAt(s, i, "ENGINE")
      case CharsetAssign => AssignAt(s, i, "CHARSET")
      case Backtick => i < |s| && s[i] == '`'
      case TinyintOneType => TinyintOneAt(s, i).Some?;
    if found then Some(()) else None
  }

  /** The indicators in order, stopping at the first found. */
  function AnyIndicator(s: string, inds: seq<Indicator>): (r: bool)
    ensures r <==> exists k | 0 <= k < |inds| :: Indicated(s, inds[k])
  {
    if inds == [] then false
    else
      var m := (t: string, j: nat) => IndicatorAt(inds[0], t, j);
      assert forall j: nat :: m(s, j) == IndicatorAt(inds[0], s, j);
      var first := FirstMatch(s, 0, m);
      if first.Some? then
        assert IndicatorAt(inds[0], s, first.value.0).Some?;
        assert Indicated(s, inds[0]);
        true
      else
        assert !Indicated(s, inds[0]);
        var r := AnyIndicator(s, inds[1..]);
        assert forall k :: 0 <= k < |inds| - 1 ==> inds[1..][k] == inds[k + 1];
        r
  }

  /** `detect_mysql_syntax`: true exactly when the text has the word
      AUTO_INCREMENT, `ENGINE =`, `CHARSET =`, a backtick or `TINYINT(1)`,
      all compared ignoring case. */
  function DetectMysqlSyntax(ddl: string): (r: bool)
    ensures r <==>
              || ContainsWord(ddl, "AUTO_INCREMENT")
              || (exists i | 0 <= i <= |ddl| :: AssignAt(ddl, i, "ENGINE"))
              || (exists i | 0 <= i <= |ddl| :: AssignAt(ddl, i, "CHARSET"))
              || '`' in ddl
              || (exists i | 0 <= i <= |ddl| :: TinyintOneAt(ddl, i).Some?)
  {
    var r := AnyIndicator(ddl, Indicators);
    IndicatorsMeaning(ddl);
    r
  }

  lemma IndicatorsMeaning(ddl: string)
    ensures (exists k | 0 <= k < |Indicators| :: Indicated(ddl, Indicators[k]))
            <==>
              || ContainsWord(ddl, "AUTO_INCREMENT")
              || (exists i | 0 <= i <= |ddl| :: AssignAt(ddl, i, "ENGINE"))
              || (exists i | 0 <= i <= |ddl| :: AssignAt(ddl, i, "CHARSET"))
              || '`' in ddl
              || (exists i | 0 <= i <= |ddl| :: TinyintOneAt(ddl, i).Some?)
  {
    IndicatedMeaning(ddl, AutoIncrementWord);
    IndicatedMeaning(ddl, EngineAssign);
    IndicatedMeaning(ddl, CharsetAssign);
    IndicatedMeaning(ddl, Backtick);
    IndicatedMeaning(ddl, TinyintOneType);
    assert Indicators[0] == AutoIncrementWord && Indicators[1] == EngineAssign && Indicators[2] == CharsetAssign
           && Indicators[3] == Backtick && Indicators[4] == TinyintOneType;
  }

  /** Some position of the text shows the indicator. */
  predicate Indicated(ddl: string, ind: Indicator) {
    exists i | 0 <= i <= |ddl| :: IndicatorAt(ind, ddl, i).Some?
  }

  /** What each indicator amounts to over the whole text. */
  lemma IndicatedMeaning(ddl: string, ind: Indicator)
    ensures Indicated(ddl, ind) <==>
            match ind
            case AutoIncrementWord => ContainsWord(ddl, "AUTO_INCREMENT")
            case EngineAssign => exists i | 0 <= i <= |ddl| :: AssignAt(ddl, i, "ENGINE")
            case CharsetAssign => exists i | 0 <= i <= |ddl| :: AssignAt(ddl, i, "CHARSET")
            case Backtick => '`' in ddl
            case TinyintOneType => exists i | 0 <= i <= |ddl| :: TinyintOneAt(ddl, i).Some?
  {
    match ind
    case AutoIncrementWord =>
      if ContainsWord(ddl, "AUTO_INCREMENT") {
        var i :| 0 <= i <= |ddl| && WordAt(ddl, i, "AUTO_INCREMENT");
        assert IndicatorAt(ind, ddl, i).Some?;
      }
    case EngineAssign =>
      if exists i | 0 <= i <= |ddl| :: AssignAt(ddl, i, "ENGINE") {
        var i :| 0 <= i <= |ddl| && AssignAt(ddl, i, "ENGINE");
        assert IndicatorAt(ind, ddl, i).Some?;
      }
    case CharsetAssign =>
      if exists i | 0 <= i <= |ddl| :: AssignAt(ddl, i, "CHARSET") {
        var i :| 0 <= i <= |ddl| && AssignAt(ddl, i, "CHARSET");
        assert IndicatorAt(ind, ddl, i).Some?;
      }
    case Backtick =>
      if '`' in ddl {
        var i :| 0 <= i < |ddl| && ddl[i] == '`';
        assert IndicatorAt(ind, ddl, i).Some?;
      }
      if Indicated(ddl, ind) {
        var i :| 0 <= i <= |ddl| && IndicatorAt(ind, ddl, i).Some?;
        assert ddl[i] in ddl;
      }
    case TinyintOneType =>
      if exists i | 0 <= i <= |ddl| :: TinyintOneAt(ddl, i).Some? {
        var i :| 0 <= i <= |ddl| && TinyintOneAt(ddl, i).Some?;
        assert IndicatorAt(ind, ddl, i).Some?;
      }
  }
}

=== FILE: ddl_order.dfy ===
/** `get_generation_order`: the order in which tables are filled so that a
    referenced table is generated before the tables that point at it. The
    dependency graph keeps only foreign keys whose target was parsed; the
    traversal is a depth-first post-order that marks a table visited before
    following its dependencies, so cycles and self-references end. */
module DdlOrder {

  import opened DdlParser

  /** Dependency lists by table name, in foreign-key order. */
  type Graph = map<string, seq<string>>

  /** Every dependency is itself a node of the graph. */
  predicate ClosedGraph(g: Graph) {
    forall t, d :: t in g && d in g[t] ==> d in g
  }

  /** Some foreign key of `fks` names `d` as its referenced table. */
  predicate References(fks: seq<ForeignKey>, d: string) {
    exists k | 0 <= k < |fks| :: fks[k].referencedTable == d
  }

  /** The referenced tables of `fks` that are `known`, in order; unknown
      targets add no edge. */
  function KnownTargets(fks: seq<ForeignKey>, known: set<string>): (r: seq<string>)
    ensures forall d :: d in r <==> d in known && References(fks, d)
  {
    if fks == [] then []
    else
      var rest := KnownTargets(fks[1..], known);
      var here := if fks[0].referencedTable in known then [fks[0].referencedTable] else [];
      assert forall d :: References(fks, d) <==> fks[0].referencedTable == d || References(fks[1..], d) by {
        forall d | References(fks, d)
          ensures fks[0].referencedTable == d || References(fks[1..], d)
        {
          var k :| 0 <= k < |fks| && fks[k].referencedTable == d;
          if k > 0 {
            assert fks[1..][k - 1] == fks[k];
          }
        }
        forall d | References(fks[1..], d)
          ensures References(fks, d)
        {
          var k :| 0 <= k < |fks[1..]| && fks[1..][k].referencedTable == d;
          assert fks[k + 1] == fks[1..][k];
        }
      }
      here + rest
  }

  /** The `dependencies` dictionary built from a parsed schema. */
  function Dependencies(s: Schema): (g: Graph)
    ensures g.Keys == s.tables.Keys
    ensures ClosedGraph(g)
    ensures forall t, d :: t in g ==> (d in g[t] <==> d in s.tables && References(s.tables[t].foreignKeys, d))
  {
    map t | t in s.tables :: KnownTargets(s.tables[t].foreignKeys, s.tables.Keys)
  }

  /** The traversal state: the `visited` set and the `order` built so far. */
  datatype Walk = Walk(visited: set<string>, order: seq<string>)

  lemma RemainingShrinks(keys: set<string>, visited: set<string>, t: string)
    requires t in keys && t !in visited
    ensures |keys - (visited + {t})| < |keys - visited|
  {
    assert keys - visited == (keys - (visited + {t})) + {t};
  }

  lemma RemainingMonotone(keys: set<string>, a: set<string>, b: set<string>)
    requires a <= b
    ensures |keys - b| <= |keys - a|
  {
    SubsetCard(keys - b, keys - a);
  }

  lemma {:induction false} SubsetCard(a: set<string>, b: set<string>)
    requires a <= b
    ensures |a| <= |b|
    decreases |a|
  {
    if a != {} {
      var x :| x in a;
      SubsetCard(a - {x}, b - {x});
    }
  }

  /** `visit(t)`: nothing when `t` was visited already; otherwise `t` is
      marked, its dependencies are visited in order, and `t` is appended.
      The tables appended are exactly the ones newly marked, each once. */
  function Visit(g: Graph, visited: set<string>, t: string): (w: Walk)
    requires ClosedGraph(g) && visited <= g.Keys && t in g
    ensures visited <= w.visited <= g.Keys && t in w.visited
    ensures DistinctNames(w.order)
    ensures forall x :: x in w.order <==> x in w.visited && x !in visited
    decreases |g.Keys - visited|, 0, 0
  {
    if t in visited then Walk(visited, [])
    else
      RemainingShrinks(g.Keys, visited, t);
      var w := VisitAll(g, visited + {t}, g[t]);
      Walk(w.visited, w.order + [t])
  }

  /** The `for dep in ...: visit(dep)` loop, also used for the roots. */
  function VisitAll(g: Graph, visited: set<string>, ds: seq<string>): (w: Walk)
    requires ClosedGraph(g) && visited <= g.Keys
    requires forall d :: d in ds ==> d in g
    ensures visited <= w.visited <= g.Keys
    ensures forall d :: d in ds ==> d in w.visited
    ensures DistinctNames(w.order)
    ensures forall x :: x in w.order <==> x in w.visited && x !in visited
    decreases |g.Keys - visited|, 1, |ds|
  {
    if ds == [] then Walk(visited, [])
    else
      var w1 := Visit(g, visited, ds[0]);
      RemainingMonotone(g.Keys, visited, w1.visited);
      var w2 := VisitAll(g, w1.visited, ds[1..]);
      assert forall d :: d in ds ==> d == ds[0] || d in ds[1..];
      forall i, j | 0 <= i < |w1.order| && 0 <= j < |w2.order|
        ensures w1.order[i] != w2.order[j]
      {
        assert w1.order[i] in w1.visited;
        assert w2.order[j] !in w1.visited;
      }
      Walk(w2.visited, w1.order + w2.order)
  }

  /** `get_generation_order`: every parsed table exactly once, roots tried
      in insertion order. */
  function GenerationOrder(s: Schema): (order: seq<string>)
    requires ValidSchema(s)
    ensures DistinctNames(order)
    ensures forall n :: n in order <==> n in s.tables
    ensures |order| == |s.names|
  {
    var w := VisitAll(Dependencies(s), {}, s.names);
    SameElementsSameLength(w.order, s.names);
    w.order
  }

  /** The set of elements of a sequence without repetitions has as many
      members as the sequence. */
  lemma {:induction false} DistinctCard(xs: seq<string>)
    requires DistinctNames(xs)
    ensures |set x | x in xs| == |xs|
  {
    if xs != [] {
      var rest := xs[1..];
      DistinctCard(rest);
      assert (set x | x in xs) == (set x | x in rest) + {xs[0]};
      assert forall j :: 0 <= j < |rest| ==> rest[j] == xs[j + 1];
    }
  }

  lemma SameElementsSameLength(a: seq<string>, b: seq<string>)
    requires DistinctNames(a) && DistinctNames(b)
    requires forall x :: x in a <==> x in b
    ensures |a| == |b|
  {
    DistinctCard(a);
    DistinctCard(b);
    assert (set x | x in a) == (set x | x in b);
  }

  // ---------------------------------------------------------------------
  // Topological order on acyclic schemas

  /** A rank that decreases along every edge: the graph has no cycle. */
  predicate Ranked(g: Graph, rank: string -> nat) {
    forall t, d :: t in g && d in g[t] ==> rank(d) < rank(t)
  }

  /** Every table of `o` comes after all of its dependencies. */
  predicate DepsFirst(g: Graph, o: seq<string>) {
    forall i, d :: 0 <= i < |o| && o[i] in g && d in g[o[i]] ==> d in o[..i]
  }

  lemma DepsFirstSnoc(g: Graph, o: seq<string>, t: string)
    requires DepsFirst(g, o)
    requires t in g ==> forall d :: d in g[t] ==> d in o
    ensures DepsFirst(g, o + [t])
  {
    var o' := o + [t];
    forall i, d | 0 <= i < |o'| && o'[i] in g && d in g[o'[i]]
      ensures d in o'[..i]
    {
      if i < |o| {
        assert o'[..i] == o[..i];
      } else {
        assert o'[..i] == o;
      }
    }
  }

  /** Every marked table is in the output or on the stack, and conversely. */
  ghost predicate Marked(visited: set<string>, out: seq<string>, stack: set<string>) {
    forall x :: x in visited <==> x in out || x in stack
  }

  /** Every table of `ds` is in the output. */
  predicate Covers(out: seq<string>, ds: seq<string>) {
    forall d :: d in ds ==> d in out
  }

  lemma CoversCons(out: seq<string>, more: seq<string>, ds: seq<string>)
    requires ds != [] && ds[0] in out && Covers(out + more, ds[1..])
    ensures Covers(out + more, ds)
  {
    forall d | d in ds
      ensures d in out + more
    {
      if d != ds[0] {
        assert d in ds[1..];
      }
    }
  }

  lemma ConcatAssoc(a: seq<string>, b: seq<string>, c: seq<string>)
    ensures a + (b + c) == (a + b) + c
  {
  }

  lemma ConcatEmpty(a: seq<string>)
    ensures [] + a == a
  {
  }

  /** The loop over `ds` is a visit of its head followed by the loop over
      its tail. */
  lemma VisitAllStep(g: Graph, visited: set<string>, ds: seq<string>) returns (w1: Walk, w2: Walk)
    requires ClosedGraph(g) && visited <= g.Keys
    requires forall d :: d in ds ==> d in g
    requires ds != []
    ensures w1 == Visit(g, visited, ds[0]) && visited <= w1.visited <= g.Keys
    ensures w2 == VisitAll(g, w1.visited, ds[1..])
    ensures VisitAll(g, visited, ds) == Walk(w2.visited, w1.order + w2.order)
  {
    w1 := Visit(g, visited, ds[0]);
    w2 := VisitAll(g, w1.visited, ds[1..]);
  }

  /** One call of `visit` inside a run whose output so far is `done` and
      whose unfinished calls (the stack) are `stack`: it keeps the output
      dependencies-first, and every marked table is finished or on the
      stack. The ranks of the stack exceed the rank of `t`, which is what
      keeps a dependency from being found on the stack. */
  lemma {:induction false} VisitDepsFirst(g: Graph, rank: string -> nat, visited: set<string>, t: string,
                                          done: seq<string>, stack: set<string>)
    requires ClosedGraph(g) && visited <= g.Keys && t in g && Ranked(g, rank)
    requires Marked(visited, done, stack)
    requires forall x :: x in stack ==> rank(t) < rank(x)
    requires DepsFirst(g, done)
    ensures var w := Visit(g, visited, t);
            DepsFirst(g, done + w.order) && Marked(w.visited, done + w.order, stack) && t in done + w.order
    decreases |g.Keys - visited|, 0, 0
  {
    var w := Visit(g, visited, t);
    if t in visited {
      assert done + w.order == done;
    } else {
      RemainingShrinks(g.Keys, visited, t);
      var inner := VisitAll(g, visited + {t}, g[t]);
      VisitAllDepsFirst(g, rank, visited + {t}, g[t], done, stack + {t});
      var o1 := done + inner.order;
      assert Covers(o1, g[t]);
      DepsFirstSnoc(g, o1, t);
      ConcatAssoc(done, inner.order, [t]);
      assert w.visited == inner.visited;
    }
  }

  lemma {:induction false} VisitAllDepsFirst(g: Graph, rank: string -> nat, visited: set<string>, ds: seq<string>,
                                             done: seq<string>, stack: set<string>)
    requires ClosedGraph(g) && visited <= g.Keys && Ranked(g, rank)
    requires forall d :: d in ds ==> d in g
    requires Marked(visited, done, stack)
    requires forall x, d :: x in stack && d in ds ==> rank(d) < rank(x)
    requires DepsFirst(g, done)
    ensures var w := VisitAll(g, visited, ds);
            DepsFirst(g, done + w.order) && Marked(w.visited, done + w.order, stack) && Covers(done + w.order, ds)
    decreases |g.Keys - visited|, 1, |ds|
  {
    var w := VisitAll(g, visited, ds);
    if ds == [] {
      assert done + w.order == done;
    } else {
      var w1, w2 := VisitAllStep(g, visited, ds);
      VisitDepsFirst(g, rank, visited, ds[0], done, stack);
      RemainingMonotone(g.Keys, visited, w1.visited);
      VisitAllDepsFirst(g, rank, w1.visited, ds[1..], done + w1.order, stack);
      ConcatAssoc(done, w1.order, w2.order);
      CoversCons(done + w1.order, w2.order, ds);
    }
  }

  /** The foreign keys of a schema respect a rank: the schema has no cycle
      through parsed tables. */
  predicate SchemaRanked(s: Schema, rank: string -> nat) {
    forall t, k :: t in s.tables && 0 <= k < |s.tables[t].foreignKeys|
      && s.tables[t].foreignKeys[k].referencedTable in s.tables
      ==> rank(s.tables[t].foreignKeys[k].referencedTable) < rank(t)
  }

  lemma RankedDependencies(s: Schema, rank: string -> nat)
    requires SchemaRanked(s, rank)
    ensures Ranked(Dependencies(s), rank)
  {
    var g := Dependencies(s);
    forall t, d | t in g && d in g[t]
      ensures rank(d) < rank(t)
    {
      assert References(s.tables[t].foreignKeys, d);
      var k :| 0 <= k < |s.tables[t].foreignKeys| && s.tables[t].foreignKeys[k].referencedTable == d;
    }
  }

  lemma GenerationOrderDepsFirst(s: Schema, rank: string -> nat)
    requires ValidSchema(s) && SchemaRanked(s, rank)
    ensures DepsFirst(Dependencies(s), GenerationOrder(s))
  {
    var g := Dependencies(s);
    var order := VisitAll(g, {}, s.names).order;
    assert order == GenerationOrder(s);
    RankedDependencies(s, rank);
    assert Marked({}, [], {});
    VisitAllDepsFirst(g, rank, {}, s.names, [], {});
    ConcatEmpty(order);
  }

  /** In an acyclic schema, every referenced table that was parsed comes
      before each table that references it. */
  lemma GenerationOrderTopological(s: Schema, rank: string -> nat)
    requires ValidSchema(s) && SchemaRanked(s, rank)
    ensures var order := GenerationOrder(s);
            forall i, k :: 0 <= i < |order| && 0 <= k < |s.tables[order[i]].foreignKeys|
              && s.tables[order[i]].foreignKeys[k].referencedTable in s.tables
              ==> s.tables[order[i]].foreignKeys[k].referencedTable in order[..i]
  {
    var g := Dependencies(s);
    var order := GenerationOrder(s);
    GenerationOrderDepsFirst(s, rank);
    forall i, k | 0 <= i < |order| && 0 <= k < |s.tables[order[i]].foreignKeys|
      && s.tables[order[i]].foreignKeys[k].referencedTable in s.tables
      ensures s.tables[order[i]].foreignKeys[k].referencedTable in order[..i]
    {
      var d := s.tables[order[i]].foreignKeys[k].referencedTable;
      assert References(s.tables[order[i]].foreignKeys, d);
      assert d in g[order[i]];
    }
  }
}

=== FILE: ddl_parser.dfy ===
/** Schema extraction from `CREATE TABLE` statements (src/tools/ddl_parser.py).
    The SQL tokenizer front end is not modelled: the parser receives, per
    `CREATE` statement, the raw name token and the text of the first
    parenthesised group, when the tokenizer found them. */
module DdlParser {
  import opened Results
  import opened Text

  datatype Column = Column(
    name: string,
    dataType: string,
    notNull: bool,
    primaryKey: bool,
    defaultValue: Option<string>,
    unique: bool)

  datatype ForeignKey = ForeignKey(column: string, referencedTable: string, referencedColumn: string)

  datatype Table = Table(
    name: string,
    columns: seq<Column>,
    primaryKeys: seq<string>,
    foreignKeys: seq<ForeignKey>)

  /** What the tokenizer hands over for one `CREATE` statement: the first name
      token, if any, and the first parenthesis token (outer parentheses
      included), if any. */
  datatype CreateStatement = CreateStatement(rawName: Option<string>, parenthesis: Option<string>)

  /** A Python dict from table name to table: `names` is its insertion order. */
  datatype Schema = Schema(names: seq<string>, tables: map<string, Table>)

  predicate DistinctNames(names: seq<string>) {
    forall i, j :: 0 <= i < j < |names| ==> names[i] != names[j]
  }

  predicate ValidSchema(s: Schema) {
    && DistinctNames(s.names)
    && (forall n :: n in s.names ==> n in s.tables)
    && (forall n :: n in s.tables ==> n in s.names)
  }

  /** `tables[name] = table`: a new key goes to the end, an existing key
      keeps its position and gets the new value. */
  function Insert(s: Schema, name: string, t: Table): (r: Schema)
    requires ValidSchema(s)
    ensures ValidSchema(r)
    ensures r.tables == s.tables[name := t]
    ensures name in s.tables ==> r.names == s.names
    ensures name !in s.tables ==> r.names == s.names + [name]
  {
    if name in s.tables then Schema(s.names, s.tables[name := t])
    else Schema(s.names + [name], s.tables[name := t])
  }

  // ---------------------------------------------------------------------
  // Identifiers

  /** `_clean_identifier`: strip whitespace, then double quotes, then single
      quotes, then backticks, each from both ends. */
  function CleanIdentifier(raw: string): (r: string)
    ensures |r| <= |raw|
    ensures r == [] || (r[0] != '`' && r[|r| - 1] != '`')
  {
    var a := Strip(raw);
    var b := Trim(a, c => c == '"');
    var d := Trim(b, c => c == '\'');
    Trim(d, c => c == '`')
  }

  predicate IsQuoteOrSpace(c: char) {
    IsSpace(c) || c == '"' || c == '\'' || c == '`'
  }

  /** An identifier that neither starts nor ends with whitespace or a quote
      character comes back unchanged. */
  lemma CleanIdentifierKeepsCleanNames(raw: string)
    requires raw != [] && !IsQuoteOrSpace(raw[0]) && !IsQuoteOrSpace(raw[|raw| - 1])
    ensures CleanIdentifier(raw) == raw
  {
    TrimKeeps(raw, IsSpace);
    TrimKeeps(raw, c => c == '"');
    TrimKeeps(raw, c => c == '\'');
    TrimKeeps(raw, c => c == '`');
  }

  predicate IsIdentifierQuote(c: char) {
    c == '"' || c == '\'' || c == '`'
  }

  /** A clean name wrapped in one kind of quote comes back without its
      quotes: `` `users` ``, `"users"` and `'users'` all give `users`. */
  lemma CleanIdentifierUnquotes(n: string, q: char)
    requires n != [] && !IsQuoteOrSpace(n[0]) && !IsQuoteOrSpace(n[|n| - 1])
    requires IsIdentifierQuote(q)
    ensures CleanIdentifier([q] + n + [q]) == n
  {
    var s := [q] + n + [q];
    assert s[0] == q && s[|s| - 1] == q;
    TrimKeeps(s, IsSpace);
    if q == '"' {
      TrimBoth(n, q, c => c == '"');
      TrimKeeps(n, c => c == '\'');
      TrimKeeps(n, c => c == '`');
    } else if q == '\'' {
      TrimKeeps(s, c => c == '"');
      TrimBoth(n, q, c => c == '\'');
      TrimKeeps(n, c => c == '`');
    } else {
      TrimKeeps(s, c => c == '"');
      TrimKeeps(s, c => c == '\'');
      TrimBoth(n, q, c => c == '`');
    }
  }

  /** Trimming removes one dropped character from each end of a text whose
      inner ends are kept. */
  lemma TrimBoth(n: string, q: char, drop: char -> bool)
    requires n != [] && !drop(n[0]) && !drop(n[|n| - 1]) && drop(q)
    ensures Trim([q] + n + [q], drop) == n
  {
    var s := [q] + n + [q];
    assert s[1] == n[0];
    SpanStops(s, 0, 1, drop);
    var r := Trim(s, drop);
    assert s[|n|] == n[|n| - 1] && s[|n| + 1] == q;
    assert |n| <= |r|;
    assert r[|r| - 1] == s[|r|];
    assert |r| == |n|;
    assert s[1..1 + |n|] == n;
  }

  // ---------------------------------------------------------------------
  // Splitting the column list on top-level commas

  function Delta(c: char): int {
    if c == '(' then 1 else if c == ')' then -1 else 0
  }

  /** Parenthesis depth after reading `s`: opening minus closing parentheses. */
  function Depth(s: string): int {
    if s == [] then 0 else Depth(s[..|s| - 1]) + Delta(s[|s| - 1])
  }

  lemma DepthSnoc(s: string, c: char)
    ensures Depth(s + [c]) == Depth(s) + Delta(c)
  {
    assert (s + [c])[..|s|] == s;
  }

  /** No comma of `p` sits at depth zero, measured from the start of `p`. */
  predicate NoTopLevelComma(p: string) {
    forall i :: 0 <= i < |p| && p[i] == ',' ==> Depth(p[..i]) != 0
  }

  /** The character loop of `_split_by_comma`, without its final `if current`
      test: `depth` is the running parenthesis depth and `current` the piece
      being accumulated. Every comma read at depth zero ends a piece. */
  function SplitPieces(s: string, depth: int, current: string): (r: seq<string>)
    ensures |r| >= 1
    decreases |s|
  {
    if s == [] then [current]
    else if s[0] == ',' && depth == 0 then [current] + SplitPieces(s[1..], depth, [])
    else SplitPieces(s[1..], depth + Delta(s[0]), current + [s[0]])
  }

  /** Joining the pieces with "," gives back exactly the text that was read. */
  lemma {:induction false} SplitPiecesJoin(s: string, depth: int, current: string)
    ensures Join(SplitPieces(s, depth, current), ",") == current + s
    decreases |s|
  {
    if s == [] {
    } else if s[0] == ',' && depth == 0 {
      var rest := SplitPieces(s[1..], depth, []);
      SplitPiecesJoin(s[1..], depth, []);
      assert [current] + rest != [] && |[current] + rest| > 1;
      assert ([current] + rest)[1..] == rest;
      assert s == [','] + s[1..];
    } else {
      SplitPiecesJoin(s[1..], depth + Delta(s[0]), current + [s[0]]);
      assert current + [s[0]] + s[1..] == current + s;
    }
  }

  lemma NoTopLevelCommaSnoc(p: string, c: char)
    requires NoTopLevelComma(p)
    requires c != ',' || Depth(p) != 0
    ensures NoTopLevelComma(p + [c])
  {
    forall i | 0 <= i < |p + [c]| && (p + [c])[i] == ','
      ensures Depth((p + [c])[..i]) != 0
    {
      if i < |p| {
        assert (p + [c])[..i] == p[..i];
      } else {
        assert (p + [c])[..i] == p;
      }
    }
  }

  /** Every piece is free of commas at its own depth zero. */
  predicate AllFreeOfTopLevelCommas(r: seq<string>) {
    forall k :: 0 <= k < |r| ==> NoTopLevelComma(r[k])
  }

  /** Every piece but the last, i.e. every piece ended by a separator, is
      balanced. */
  predicate SeparatorsAtDepthZero(r: seq<string>) {
    forall k :: 0 <= k < |r| - 1 ==> Depth(r[k]) == 0
  }

  /** Pieces never contain a comma at their own depth zero, and every piece
      that was ended by a separator is balanced (depth zero), so every
      separator was a comma outside all parentheses. */
  lemma {:induction false} SplitPiecesShape(s: string, depth: int, current: string)
    requires depth == Depth(current) && NoTopLevelComma(current)
    ensures AllFreeOfTopLevelCommas(SplitPieces(s, depth, current))
    ensures SeparatorsAtDepthZero(SplitPieces(s, depth, current))
    decreases |s|
  {
    if s == [] {
    } else if s[0] == ',' && depth == 0 {
      SplitPiecesShape(s[1..], 0, []);
      ShapeCons(current, SplitPieces(s[1..], 0, []));
    } else {
      DepthSnoc(current, s[0]);
      NoTopLevelCommaSnoc(current, s[0]);
      SplitPiecesShape(s[1..], depth + Delta(s[0]), current + [s[0]]);
    }
  }

  /** A balanced piece in front of well-shaped pieces keeps them well shaped. */
  lemma ShapeCons(current: string, rest: seq<string>)
    requires Depth(current) == 0 && NoTopLevelComma(current)
    requires AllFreeOfTopLevelCommas(rest) && SeparatorsAtDepthZero(rest)
    ensures AllFreeOfTopLevelCommas([current] + rest) && SeparatorsAtDepthZero([current] + rest)
  {
    var r := [current] + rest;
    forall k | 0 <= k < |r|
      ensures NoTopLevelComma(r[k])
      ensures k < |r| - 1 ==> Depth(r[k]) == 0
    {
      if k > 0 {
        assert r[k] == rest[k - 1];
      }
    }
  }

  /** `_split_by_comma` applied to the text between the outer parentheses:
      the top-level pieces, where a final empty piece is not kept. */
  function SplitByComma(content: string): (r: seq<string>)
    ensures var all := SplitPieces(content, 0, []);
            (r == all && all[|all| - 1] != []) || (r + [[]] == all && all[|all| - 1] == [])
    ensures Join(r, ",") == content || Join(r + [[]], ",") == content
    ensures AllFreeOfTopLevelCommas(r)
    ensures SeparatorsAtDepthZero(r)
  {
    var all := SplitPieces(content, 0, []);
    SplitPiecesJoin(content, 0, []);
    SplitPiecesShape(content, 0, []);
    if all[|all| - 1] == [] then
      assert all[..|all| - 1] + [[]] == all;
      all[..|all| - 1]
    else all
  }

  /** `str(parenthesis)[1:-1]`. */
  function Inner(p: string): string {
    if |p| >= 2 then p[1..|p| - 1] else []
  }

  // ---------------------------------------------------------------------
  // Classifying and parsing one definition

  const ConstraintKeywords: seq<string> := ["PRIMARY KEY", "FOREIGN KEY", "UNIQUE", "CHECK", "CONSTRAINT"]

  /** `_is_constraint_definition`: the stripped text begins, ignoring
      case, with one of the constraint keywords. The test looks at
      characters, not words, so a column whose name merely begins with a
      keyword (`unique_code`, `check_in`, `constraint_id`) is taken for a
      constraint. */
  predicate IsConstraintDefinition(definition: string): (b: bool)
    ensures b <==> exists k | 0 <= k < |ConstraintKeywords| :: LiteralAt(Strip(definition), 0, ConstraintKeywords[k])
  {
    StripUpper(definition);
    StartsWithUpper(Strip(definition));
    var u := Strip(Upper(definition));
    exists k | 0 <= k < |ConstraintKeywords| :: StartsWith(u, ConstraintKeywords[k])
  }

  /** A column whose name begins with a constraint keyword, such as
      `unique_code INTEGER` (UNIQUE, `k == 2`), parses as a column, yet the
      definition is classified as a constraint first and adds no column. */
  lemma KeywordNamedColumnDropped(t: Table, name: string, ty: string, k: nat)
    requires name != [] && NoSpace(name) && ty != [] && NoSpace(ty)
    requires k < |ConstraintKeywords| && LiteralAt(name, 0, ConstraintKeywords[k])
    ensures ParseColumn(Strip(name + " " + ty)).Some?
    ensures IsConstraintDefinition(Strip(name + " " + ty))
    ensures ApplyDefinition(t, name + " " + ty).columns == t.columns
  {
    var d := name + " " + ty;
    var tail := StripOfWords(d, name, ty, []);
    var sd := Strip(d);
    AppendAssoc(name, " ", ty + tail);
    AppendAssoc(name + " ", ty, tail);
    ParseColumnOfWords(name, ty, tail);
    TrimKeeps(sd, IsSpace);
    LiteralAtAppend(name, [' '] + (ty + tail), 0, ConstraintKeywords[k]);
    ApplyDefinitionCases(t, d);
  }

  /** `DEFAULT\s+([^\s,]+)`, case-insensitive, tried at position `i`: the
      value token, if the pattern matches there. */
  function DefaultAt(s: string, i: nat): (r: Option<string>)
    ensures r.Some? ==> r.value != [] && NoSpace(r.value) && ',' !in r.value
  {
    if !LiteralAt(s, i, "DEFAULT") || i + 7 >= |s| || !IsSpace(s[i + 7]) then None
    else
      var k := Span(s, i + 7, IsSpace);
      if k == |s| || s[k] == ',' then None
      else
        var e := Span(s, k, c => !IsSpace(c) && c != ',');
        Some(s[k..e])
  }

  predicate IsQuote(c: char) {
    c == '\'' || c == '"'
  }

  /** The `DEFAULT` clause of a column: the first match of the pattern, with
      surrounding quotes stripped. */
  function DefaultValue(definition: string): (r: Option<string>)
    ensures r.Some? <==> exists i | 0 <= i <= |definition| :: DefaultAt(definition, i).Some?
  {
    match FirstMatch(definition, 0, DefaultAt)
    case None => None
    case Some((_, token)) => Some(Trim(token, IsQuote))
  }

  /** `_parse_column` on a stripped definition. */
  function ParseColumn(definition: string): (r: Option<Column>)
    ensures r.None? <==> |SplitWs(Strip(definition))| < 2
    ensures r.Some? ==>
              var parts := SplitWs(Strip(definition));
              && r.value.name == CleanIdentifier(parts[0])
              && r.value.dataType == Upper(parts[1])
              && (r.value.notNull <==> Contains(Upper(definition), "NOT NULL"))
              && (r.value.primaryKey <==> Contains(Upper(definition), "PRIMARY KEY"))
              && (r.value.unique <==> Contains(Upper(definition), " UNIQUE") || EndsWith(Upper(definition), "UNIQUE"))
              && r.value.defaultValue == DefaultValue(definition)
  {
    var parts := SplitWs(Strip(definition));
    if |parts| < 2 then None
    else
      var u := Upper(definition);
      Some(Column(
        name := CleanIdentifier(parts[0]),
        dataType := Upper(parts[1]),
        notNull := Contains(u, "NOT NULL"),
        primaryKey := Contains(u, "PRIMARY KEY"),
        defaultValue := DefaultValue(definition),
        unique := Contains(u, " UNIQUE") || EndsWith(u, "UNIQUE")))
  }

  /** A definition that starts with a name, one space and a type, followed
      by nothing or by whitespace, is a column of that cleaned name and of
      that type in upper case. */
  lemma ParseColumnOfWords(name: string, ty: string, rest: string)
    requires name != [] && NoSpace(name) && ty != [] && NoSpace(ty)
    requires rest == [] || IsSpace(rest[0])
    ensures var c := ParseColumn(name + " " + ty + rest);
            c.Some? && c.value.name == CleanIdentifier(name) && c.value.dataType == Upper(ty)
  {
    var d := name + " " + ty + rest;
    SplitOfWords(d, name, ty, rest);
  }

  /** The first two whitespace tokens of such a definition are its name and
      its type. */
  lemma SplitOfWords(d: string, name: string, ty: string, rest: string)
    requires name != [] && NoSpace(name) && ty != [] && NoSpace(ty)
    requires rest == [] || IsSpace(rest[0])
    requires d == name + " " + ty + rest
    ensures var parts := SplitWs(Strip(d)); |parts| >= 2 && parts[0] == name && parts[1] == ty
  {
    var tail := StripOfWords(d, name, ty, rest);
    var r := Strip(d);
    SplitWords(r, name, ty, tail);
    var parts := SplitWs(r);
    ConsTwo(parts, name, ty, SplitWs(tail));
  }

  lemma ConsTwo(parts: seq<string>, x: string, y: string, more: seq<string>)
    requires parts == [x, y] + more
    ensures |parts| >= 2 && parts[0] == x && parts[1] == y
  {
  }

  lemma SplitWords(r: string, name: string, ty: string, tail: string)
    requires name != [] && NoSpace(name) && ty != [] && NoSpace(ty)
    requires tail == [] || IsSpace(tail[0])
    requires r == name + ([' '] + (ty + tail))
    ensures SplitWs(r) == [name, ty] + SplitWs(tail)
  {
    var u := ty + tail;
    var v := [' '] + u;
    SplitWsHead(name, v);
    var x := SplitWs(v);
    SplitWsSkipsSpace(' ', u);
    SplitWsHead(ty, tail);
    var y := SplitWs(tail);
    assert x == [ty] + y;
    assert SplitWs(r) == [name] + x;
    PairThen(name, ty, y);
  }

  lemma PairThen(a: string, b: string, more: seq<string>)
    ensures [a] + ([b] + more) == [a, b] + more
  {
  }

  /** Stripping such a definition keeps its name, space and type, and what
      follows them is nothing or starts with whitespace. */
  lemma StripOfWords(d: string, name: string, ty: string, rest: string) returns (tail: string)
    requires name != [] && NoSpace(name) && ty != [] && NoSpace(ty)
    requires rest == [] || IsSpace(rest[0])
    requires d == name + " " + ty + rest
    ensures Strip(d) == name + ([' '] + (ty + tail))
    ensures tail == [] || IsSpace(tail[0])
  {
    var m := |name| + 1 + |ty|;
    assert d[0] == name[0];
    SpanStops(d, 0, 0, IsSpace);
    var r := Strip(d);
    assert r == d[0..|r|];
    assert d[m - 1] == ty[|ty| - 1];
    assert !IsSpace(d[m - 1]);
    assert m <= |r|;
    assert d[..m] == name + " " + ty;
    assert r[..m] == d[..m];
    tail := r[m..];
    if m < |r| {
      assert tail[0] == r[m] == d[m] == rest[0];
    }
    PrefixThenRest(r, m, name + " " + ty);
  }

  lemma PrefixThenRest(r: string, m: nat, p: string)
    requires m <= |r| && r[..m] == p
    ensures r == p + r[m..]
  {
  }

  /** `[^)]`. */
  predicate NotClosing(c: char) {
    c != ')'
  }

  /** A run of characters satisfying `p` is a string of such characters. */
  lemma RunChars(s: string, a: nat, b: nat, p: char -> bool)
    requires a <= b <= |s| && forall k :: a <= k < b ==> p(s[k])
    ensures forall c :: c in s[a..b] ==> p(c)
  {
    forall c | c in s[a..b] ensures p(c) {
      var k :| 0 <= k < b - a && s[a..b][k] == c;
      assert s[a + k] == c;
    }
  }

  /** `PRIMARY\s+KEY\s*\(([^)]+)\)`, case-insensitive, tried at `i`: the
      text between the parentheses. */
  function PrimaryKeyAt(s: string, i: nat): (r: Option<string>)
    ensures r.Some? ==> r.value != [] && ')' !in r.value
  {
    if !LiteralAt(s, i, "PRIMARY") || i + 7 >= |s| || !IsSpace(s[i + 7]) then None
    else
      var b := Span(s, i + 7, IsSpace);
      if !LiteralAt(s, b, "KEY") then None
      else
        var c := Span(s, b + 3, IsSpace);
        if c == |s| || s[c] != '(' then None
        else
          var d := Span(s, c + 1, NotClosing);
          if d == |s| || d == c + 1 then None else Some(s[c + 1..d])
  }

  /** The three groups of
      `FOREIGN\s+KEY\s*\(([^)]+)\)\s*REFERENCES\s+(\w+)\s*\(([^)]+)\)`. */
  datatype ForeignKeyGroups = ForeignKeyGroups(column: string, table: string, referenced: string)

  /** The tail `\s*REFERENCES\s+(\w+)\s*\(([^)]+)\)` of that pattern,
      tried at `i`: the table and the text between the parentheses. */
  function ReferencesAt(s: string, i: nat): (r: Option<(string, string)>)
    requires i <= |s|
    ensures r.Some? ==> r.value.0 != [] && forall c :: c in r.value.0 ==> IsWordChar(c)
    ensures r.Some? ==> r.value.1 != [] && ')' !in r.value.1
  {
    var e := Span(s, i, IsSpace);
    if !LiteralAt(s, e, "REFERENCES") || e + 10 >= |s| || !IsSpace(s[e + 10]) then None
    else
      var g := Span(s, e + 10, IsSpace);
      var h := Span(s, g, IsWordChar);
      if h == g then None
      else
        var k := Span(s, h, IsSpace);
        if k == |s| || s[k] != '(' then None
        else
          var l := Span(s, k + 1, NotClosing);
          if l == |s| || l == k + 1 then None
          else
            RunChars(s, g, h, IsWordChar);
            RunChars(s, k + 1, l, NotClosing);
            Some((s[g..h], s[k + 1..l]))
  }

  /** That pattern, case-insensitive, tried at `i`. */
  function ForeignKeyAt(s: string, i: nat): (r: Option<ForeignKeyGroups>)
    ensures r.Some? ==> r.value.column != [] && ')' !in r.value.column
    ensures r.Some? ==> r.value.table != [] && forall c :: c in r.value.table ==> IsWordChar(c)
    ensures r.Some? ==> r.value.referenced != [] && ')' !in r.value.referenced
  {
    if !LiteralAt(s, i, "FOREIGN") || i + 7 >= |s| || !IsSpace(s[i + 7]) then None
    else
      var b := Span(s, i + 7, IsSpace);
      if !LiteralAt(s, b, "KEY") then None
      else
        var c := Span(s, b + 3, IsSpace);
        if c == |s| || s[c] != '(' then None
        else
          var d := Span(s, c + 1, NotClosing);
          if d == |s| || d == c + 1 then None
          else match ReferencesAt(s, d + 1)
            case None => None
            case Some((table, referenced)) =>
              RunChars(s, c + 1, d, NotClosing);
              Some(ForeignKeyGroups(s[c + 1..d], table, referenced))
  }

  /** `_parse_primary_key_constraint`: every comma-separated name inside the
      first `PRIMARY KEY (...)` is cleaned and appended. */
  function ParsePrimaryKeyConstraint(definition: string, t: Table): (r: Table)
    ensures r.name == t.name && r.columns == t.columns && r.foreignKeys == t.foreignKeys
    ensures |t.primaryKeys| <= |r.primaryKeys| && r.primaryKeys[..|t.primaryKeys|] == t.primaryKeys
    ensures match FirstMatch(definition, 0, PrimaryKeyAt)
            case None => r.primaryKeys == t.primaryKeys
            case Some((_, names)) =>
              var parts := SplitOn(names, ',');
              |r.primaryKeys| == |t.primaryKeys| + |parts|
              && r.primaryKeys[..|t.primaryKeys|] == t.primaryKeys
              && forall k :: 0 <= k < |parts| ==>
                   r.primaryKeys[|t.primaryKeys| + k] == CleanIdentifier(Strip(parts[k]))
  {
    match FirstMatch(definition, 0, PrimaryKeyAt)
    case None => t
    case Some((_, names)) =>
      var parts := SplitOn(names, ',');
      var cleaned := seq(|parts|, k requires 0 <= k < |parts| => CleanIdentifier(Strip(parts[k])));
      t.(primaryKeys := t.primaryKeys + cleaned)
  }

  /** `_parse_foreign_key_constraint`: one edge per matching constraint, with
      every field cleaned. */
  function ParseForeignKeyConstraint(definition: string, t: Table): (r: Table)
    ensures r.name == t.name && r.columns == t.columns && r.primaryKeys == t.primaryKeys
    ensures |t.foreignKeys| <= |r.foreignKeys| <= |t.foreignKeys| + 1
    ensures r.foreignKeys[..|t.foreignKeys|] == t.foreignKeys
    ensures match FirstMatch(definition, 0, ForeignKeyAt)
            case None => r.foreignKeys == t.foreignKeys
            case Some((_, g)) =>
              r.foreignKeys == t.foreignKeys + [ForeignKey(
                CleanIdentifier(Strip(g.column)),
                CleanIdentifier(Strip(g.table)),
                CleanIdentifier(Strip(g.referenced)))]
  {
    match FirstMatch(definition, 0, ForeignKeyAt)
    case None => t
    case Some((_, g)) =>
      var fk := ForeignKey(
        CleanIdentifier(Strip(g.column)),
        CleanIdentifier(Strip(g.table)),
        CleanIdentifier(Strip(g.referenced)));
      t.(foreignKeys := t.foreignKeys + [fk])
  }

  /** `_parse_constraint`: a primary-key constraint takes precedence over a
      foreign-key one; anything else (UNIQUE, CHECK, ...) is ignored. */
  function ParseConstraint(definition: string, t: Table): (r: Table)
    ensures r.name == t.name && r.columns == t.columns
    ensures Contains(Strip(Upper(definition)), "PRIMARY KEY") ==> r.foreignKeys == t.foreignKeys
    ensures !Contains(Strip(Upper(definition)), "PRIMARY KEY") ==> r.primaryKeys == t.primaryKeys
    ensures !Contains(Strip(Upper(definition)), "PRIMARY KEY") && !Contains(Strip(Upper(definition)), "FOREIGN KEY")
            ==> r == t
    ensures |t.foreignKeys| <= |r.foreignKeys| <= |t.foreignKeys| + 1
    ensures r.foreignKeys[..|t.foreignKeys|] == t.foreignKeys
    ensures |t.primaryKeys| <= |r.primaryKeys| && r.primaryKeys[..|t.primaryKeys|] == t.primaryKeys
  {
    var u := Strip(Upper(definition));
    if Contains(u, "PRIMARY KEY") then ParsePrimaryKeyConstraint(definition, t)
    else if Contains(u, "FOREIGN KEY") then ParseForeignKeyConstraint(definition, t)
    else t
  }

  /** One iteration of the loop in `_parse_column_definitions`. */
  function ApplyDefinition(t: Table, definition: string): (r: Table)
    ensures r.name == t.name
    ensures |t.columns| <= |r.columns| <= |t.columns| + 1 && r.columns[..|t.columns|] == t.columns
    ensures |t.primaryKeys| <= |r.primaryKeys| && r.primaryKeys[..|t.primaryKeys|] == t.primaryKeys
    ensures |t.foreignKeys| <= |r.foreignKeys| <= |t.foreignKeys| + 1
    ensures r.foreignKeys[..|t.foreignKeys|] == t.foreignKeys
  {
    var d := Strip(definition);
    if d == [] then t
    else if IsConstraintDefinition(d) then ParseConstraint(d, t)
    else match ParseColumn(d)
      case None => t
      case Some(c) => t.(columns := t.columns + [c])
  }

  /** A blank definition changes nothing, a constraint never adds a
      column, and a column definition never touches the keys. */
  lemma ApplyDefinitionCases(t: Table, definition: string)
    ensures var r := ApplyDefinition(t, definition);
            && (Strip(definition) == [] ==> r == t)
            && (IsConstraintDefinition(Strip(definition)) ==> r.columns == t.columns)
            && (Strip(definition) != [] && !IsConstraintDefinition(Strip(definition)) ==>
                  r.primaryKeys == t.primaryKeys && r.foreignKeys == t.foreignKeys
                  && r.columns == t.columns + (match ParseColumn(Strip(definition))
                                               case None => []
                                               case Some(c) => [c]))
  {
  }

  /** `r` keeps the name of `t` and extends each of its three lists. */
  predicate Extends(t: Table, r: Table) {
    && r.name == t.name
    && |t.columns| <= |r.columns| && r.columns[..|t.columns|] == t.columns
    && |t.primaryKeys| <= |r.primaryKeys| && r.primaryKeys[..|t.primaryKeys|] == t.primaryKeys
    && |t.foreignKeys| <= |r.foreignKeys| && r.foreignKeys[..|t.foreignKeys|] == t.foreignKeys
  }

  lemma ExtendsTrans(a: Table, b: Table, c: Table)
    requires Extends(a, b) && Extends(b, c)
    ensures Extends(a, c)
  {
    assert c.columns[..|a.columns|] == c.columns[..|b.columns|][..|a.columns|];
    assert c.primaryKeys[..|a.primaryKeys|] == c.primaryKeys[..|b.primaryKeys|][..|a.primaryKeys|];
    assert c.foreignKeys[..|a.foreignKeys|] == c.foreignKeys[..|b.foreignKeys|][..|a.foreignKeys|];
  }

  /** `_parse_column_definitions`: definitions are applied in order, so
      earlier columns, key names and edges are never lost or reordered;
      every definition adds at most one column and at most one foreign key. */
  function ParseColumnDefinitions(t: Table, definitions: seq<string>): (r: Table)
    ensures Extends(t, r)
    ensures |r.columns| <= |t.columns| + |definitions|
    ensures |r.foreignKeys| <= |t.foreignKeys| + |definitions|
    decreases |definitions|
  {
    if definitions == [] then t
    else
      var t1 := ApplyDefinition(t, definitions[0]);
      var r := ParseColumnDefinitions(t1, definitions[1..]);
      ExtendsTrans(t, t1, r);
      r
  }

  /** The loop applies the definitions one after another: reading one more
      definition applies it to the table read so far. */
  lemma {:induction false} ParseColumnDefinitionsSnoc(t: Table, ds: seq<string>, d: string)
    ensures ParseColumnDefinitions(t, ds + [d]) == ApplyDefinition(ParseColumnDefinitions(t, ds), d)
    decreases |ds|
  {
    if ds == [] {
      assert [] + [d] == [d];
      assert [d][1..] == [];
    } else {
      assert (ds + [d])[0] == ds[0];
      assert (ds + [d])[1..] == ds[1..] + [d];
      ParseColumnDefinitionsSnoc(ApplyDefinition(t, ds[0]), ds[1..], d);
    }
  }

  /** A non-blank definition that is not a constraint and parses as a column. */
  predicate IsColumnDefinition(d: string) {
    Strip(d) != [] && !IsConstraintDefinition(Strip(d)) && ParseColumn(Strip(d)).Some?
  }

  /** Every definition of the list is a column definition. */
  predicate AllColumnDefinitions(ds: seq<string>) {
    ds == [] || (IsColumnDefinition(ds[0]) && AllColumnDefinitions(ds[1..]))
  }

  /** A column definition appends its column and nothing else. */
  lemma ApplyColumnDefinition(t: Table, d: string) returns (c: Column)
    requires IsColumnDefinition(d)
    ensures ParseColumn(Strip(d)) == Some(c)
    ensures var r := ApplyDefinition(t, d);
            r.columns == t.columns + [c] && r.primaryKeys == t.primaryKeys && r.foreignKeys == t.foreignKeys
  {
    c := ParseColumn(Strip(d)).value;
    ApplyDefinitionCases(t, d);
  }

  /** The columns parsed from a list of column definitions, in order. */
  function ParsedColumns(ds: seq<string>): (r: seq<Column>)
    ensures |r| <= |ds|
  {
    if ds == [] then []
    else
      match ParseColumn(Strip(ds[0]))
      case None => ParsedColumns(ds[1..])
      case Some(c) => [c] + ParsedColumns(ds[1..])
  }

  /** Column definitions append exactly their parsed columns, in order, and
      leave the keys alone. */
  lemma {:induction false} ColumnDefinitionsAppendColumns(t: Table, ds: seq<string>)
    requires AllColumnDefinitions(ds)
    ensures var r := ParseColumnDefinitions(t, ds);
            && r.columns == t.columns + ParsedColumns(ds)
            && r.primaryKeys == t.primaryKeys && r.foreignKeys == t.foreignKeys
    decreases |ds|
  {
    if ds != [] {
      var t1, c := ColumnDefinitionStep(t, ds);
      ColumnDefinitionsAppendColumns(t1, ds[1..]);
      AppendAssoc(t.columns, [c], ParsedColumns(ds[1..]));
    }
  }

  /** One turn of the loop over column definitions. */
  lemma ColumnDefinitionStep(t: Table, ds: seq<string>) returns (t1: Table, c: Column)
    requires ds != [] && AllColumnDefinitions(ds)
    ensures AllColumnDefinitions(ds[1..])
    ensures ParseColumnDefinitions(t, ds) == ParseColumnDefinitions(t1, ds[1..])
    ensures t1.columns == t.columns + [c] && t1.primaryKeys == t.primaryKeys && t1.foreignKeys == t.foreignKeys
    ensures ParsedColumns(ds) == [c] + ParsedColumns(ds[1..])
  {
    t1 := ApplyDefinition(t, ds[0]);
    c := ApplyColumnDefinition(t, ds[0]);
  }

  // ---------------------------------------------------------------------
  // Primary-key linking

  predicate SameName(a: string, b: string) {
    Lower(a) == Lower(b)
  }

  /** Index of the first column whose name equals `pk` ignoring case. */
  function FirstColumnNamed(cols: seq<Column>, pk: string): (r: Option<nat>)
    ensures r.Some? ==> r.value < |cols| && SameName(cols[r.value].name, pk)
                        && forall j :: 0 <= j < r.value ==> !SameName(cols[j].name, pk)
    ensures r.None? ==> forall j :: 0 <= j < |cols| ==> !SameName(cols[j].name, pk)
  {
    if cols == [] then None
    else if SameName(cols[0].name, pk) then Some(0)
    else match FirstColumnNamed(cols[1..], pk)
      case None => None
      case Some(i) => Some(i + 1)
  }

  /** The inner loop of the linking step in `parse`: flag the first column
      named `pk`, then stop. */
  function MarkFirst(cols: seq<Column>, pk: string): (r: seq<Column>)
    ensures |r| == |cols|
    ensures forall i :: 0 <= i < |cols| ==>
              r[i] == (if FirstColumnNamed(cols, pk) == Some(i) then cols[i].(primaryKey := true) else cols[i])
  {
    if cols == [] then []
    else if SameName(cols[0].name, pk) then [cols[0].(primaryKey := true)] + cols[1..]
    else [cols[0]] + MarkFirst(cols[1..], pk)
  }

  /** Only the primary-key flag changes, so name lookups are unaffected. */
  lemma FirstColumnNamedAfterMark(cols: seq<Column>, p: string, q: string)
    ensures FirstColumnNamed(MarkFirst(cols, p), q) == FirstColumnNamed(cols, q)
  {
    var m := MarkFirst(cols, p);
    assert forall j :: 0 <= j < |cols| ==> m[j].name == cols[j].name;
    var a := FirstColumnNamed(m, q);
    var b := FirstColumnNamed(cols, q);
    if a.Some? && b.Some? {
      assert !(a.value < b.value) && !(b.value < a.value);
    }
  }

  predicate NamedAsKey(cols: seq<Column>, pks: seq<string>, i: nat) {
    exists k | 0 <= k < |pks| :: FirstColumnNamed(cols, pks[k]) == Some(i)
  }

  /** A column is named by the key list iff the first key names it or the
      rest of the list names it once the first key is marked. */
  lemma NamedAsKeyStep(cols: seq<Column>, pks: seq<string>)
    requires pks != []
    ensures forall i :: 0 <= i < |cols| ==>
              (NamedAsKey(cols, pks, i) <==>
               FirstColumnNamed(cols, pks[0]) == Some(i) || NamedAsKey(MarkFirst(cols, pks[0]), pks[1..], i))
  {
    forall i | 0 <= i < |cols| {
      NamedAsKeyStepAt(cols, pks, i);
    }
  }

  lemma NamedAsKeyStepAt(cols: seq<Column>, pks: seq<string>, i: nat)
    requires pks != []
    ensures NamedAsKey(cols, pks, i) <==>
            FirstColumnNamed(cols, pks[0]) == Some(i) || NamedAsKey(MarkFirst(cols, pks[0]), pks[1..], i)
  {
    var m := MarkFirst(cols, pks[0]);
    if NamedAsKey(m, pks[1..], i) {
      var k :| 0 <= k < |pks[1..]| && FirstColumnNamed(m, pks[1..][k]) == Some(i);
      assert pks[1..][k] == pks[k + 1];
      FirstColumnNamedAfterMark(cols, pks[0], pks[k + 1]);
      assert FirstColumnNamed(cols, pks[k + 1]) == Some(i);
    }
    if NamedAsKey(cols, pks, i) && FirstColumnNamed(cols, pks[0]) != Some(i) {
      var k :| 0 <= k < |pks| && FirstColumnNamed(cols, pks[k]) == Some(i);
      assert k != 0;
      assert pks[1..][k - 1] == pks[k];
      FirstColumnNamedAfterMark(cols, pks[0], pks[k]);
      assert FirstColumnNamed(m, pks[1..][k - 1]) == Some(i);
    }
  }

  /** The linking loop for one table: after it, column `i` is a primary key
      iff it already was or it is the first column matching (ignoring case)
      some listed key name. No column is added, removed or otherwise
      changed; names matching no column are simply skipped. */
  function MarkAll(cols: seq<Column>, pks: seq<string>): (r: seq<Column>)
    ensures |r| == |cols|
    ensures forall i :: 0 <= i < |cols| ==>
              r[i] == cols[i].(primaryKey := cols[i].primaryKey || NamedAsKey(cols, pks, i))
    decreases |pks|
  {
    if pks == [] then cols
    else
      var m := MarkFirst(cols, pks[0]);
      var r := MarkAll(m, pks[1..]);
      NamedAsKeyStep(cols, pks);
      r
  }

  /** The linking step of `parse` for one table. */
  function LinkPrimaryKeys(t: Table): (r: Table)
    ensures r.name == t.name && r.primaryKeys == t.primaryKeys && r.foreignKeys == t.foreignKeys
    ensures |r.columns| == |t.columns|
    ensures forall k :: 0 <= k < |t.primaryKeys| ==>
              match FirstColumnNamed(t.columns, t.primaryKeys[k])
              case None => true
              case Some(i) => r.columns[i].primaryKey
    ensures forall i :: 0 <= i < |t.columns| ==>
              r.columns[i].primaryKey == (t.columns[i].primaryKey || NamedAsKey(t.columns, t.primaryKeys, i))
  {
    var cols := MarkAll(t.columns, t.primaryKeys);
    forall k | 0 <= k < |t.primaryKeys| && FirstColumnNamed(t.columns, t.primaryKeys[k]).Some?
      ensures cols[FirstColumnNamed(t.columns, t.primaryKeys[k]).value].primaryKey
    {
      var i := FirstColumnNamed(t.columns, t.primaryKeys[k]).value;
      assert NamedAsKey(t.columns, t.primaryKeys, i);
    }
    t.(columns := cols)
  }

  // ---------------------------------------------------------------------
  // Whole-document parse

  /** `_parse_create_table`: `None` when the cleaned name is missing or
      empty, otherwise the table built from the parenthesis (zero columns
      when there is none). */
  function TableOf(stmt: CreateStatement): (r: Option<Table>)
    ensures r.Some? <==> stmt.rawName.Some? && CleanIdentifier(stmt.rawName.value) != []
    ensures r.Some? ==> r.value.name == CleanIdentifier(stmt.rawName.value)
    ensures r.Some? <==> DeclaredName(stmt).Some?
    ensures r.Some? ==> DeclaredName(stmt) == Some(r.value.name)
    ensures r.Some? && stmt.parenthesis.None? ==> r.value == Table(r.value.name, [], [], [])
  {
    match stmt.rawName
    case None => None
    case Some(raw) =>
      var name := CleanIdentifier(raw);
      if name == [] then None
      else
        var t := Table(name, [], [], []);
        match stmt.parenthesis
        case None => Some(t)
        case Some(p) => Some(ParseColumnDefinitions(t, SplitByComma(Inner(p))))
  }


  /** The table name a statement declares: its cleaned name, when present
      and non-empty. */
  function DeclaredName(stmt: CreateStatement): Option<string> {
    match stmt.rawName
    case None => None
    case Some(raw) => if CleanIdentifier(raw) == [] then None else Some(CleanIdentifier(raw))
  }

  /** `stmt` yields a table named `n`. */
  predicate Declares(stmt: CreateStatement, n: string) {
    DeclaredName(stmt) == Some(n)
  }

  /** One step of `parse`'s loop: a parsed table is stored under its name,
      replacing an earlier table of that name in place; `None` changes
      nothing. */
  function AddTable(s: Schema, t: Option<Table>): (r: Schema)
    requires ValidSchema(s)
    ensures ValidSchema(r)
    ensures forall n :: n in r.tables <==> n in s.tables || (t.Some? && t.value.name == n)
    ensures forall n :: n in s.tables && !(t.Some? && t.value.name == n) ==> r.tables[n] == s.tables[n]
    ensures t.Some? ==> r.tables[t.value.name] == t.value
  {
    if t.None? then s else Insert(s, t.value.name, t.value)
  }

  /** The statement loop of `parse`, before linking: every table is stored
      under its own name, the keys are exactly the names the statements
      declare, and a later statement with the same name replaces the earlier
      table in place. */
  function Collect(stmts: seq<CreateStatement>): (r: Schema)
    ensures ValidSchema(r)
    ensures forall n :: n in r.tables ==> r.tables[n].name == n
    decreases |stmts|
  {
    if stmts == [] then Schema([], map[])
    else AddTable(Collect(stmts[..|stmts| - 1]), TableOf(stmts[|stmts| - 1]))
  }


  /** `parse`: collect, then link primary-key names onto columns in every
      table. */
  function Parse(stmts: seq<CreateStatement>): (r: Schema)
    ensures ValidSchema(r)
    ensures r.names == Collect(stmts).names
    ensures forall n :: n in r.tables ==> r.tables[n] == LinkPrimaryKeys(Collect(stmts).tables[n])
    ensures forall n :: n in r.tables ==> r.tables[n].name == n
  {
    var s := Collect(stmts);
    Schema(s.names, map n | n in s.tables :: LinkPrimaryKeys(s.tables[n]))
  }

  lemma DeclaresByTable(stmt: CreateStatement, n: string)
    ensures Declares(stmt, n) <==> TableOf(stmt).Some? && TableOf(stmt).value.name == n
  {
  }

  /** Some statement of `stmts` yields a table named `n`. */
  predicate SomeDeclares(stmts: seq<CreateStatement>, n: string) {
    Any(stmts, s => Declares(s, n))
  }

  predicate Any<T>(xs: seq<T>, p: T -> bool) {
    exists k | 0 <= k < |xs| :: p(xs[k])
  }

  lemma AnyLast<T>(xs: seq<T>, p: T -> bool)
    requires xs != []
    ensures Any(xs, p) <==> Any(xs[..|xs| - 1], p) || p(xs[|xs| - 1])
  {
    var prefix := xs[..|xs| - 1];
    if Any(prefix, p) {
      var k :| 0 <= k < |prefix| && p(prefix[k]);
      assert xs[k] == prefix[k];
    }
  }

  /** The tables `parse` returns are exactly those the statements name. */
  lemma {:induction false} CollectKey(stmts: seq<CreateStatement>, n: string)
    ensures n in Collect(stmts).tables <==> SomeDeclares(stmts, n)
    decreases |stmts|
  {
    if stmts != [] {
      var prefix := stmts[..|stmts| - 1];
      var last := stmts[|stmts| - 1];
      CollectKey(prefix, n);
      DeclaresByTable(last, n);
      AnyLast(stmts, s => Declares(s, n));
      assert n in Collect(stmts).tables <==> n in Collect(prefix).tables || Declares(last, n) by {
        assert Collect(stmts) == AddTable(Collect(prefix), TableOf(last));
      }
    }
  }

  /** A later statement for an existing name replaces that table and keeps
      its position; a new name is appended; a nameless statement changes
      nothing. */
  lemma CollectSnoc(stmts: seq<CreateStatement>, stmt: CreateStatement)
    ensures var before := Collect(stmts);
            var after := Collect(stmts + [stmt]);
            match TableOf(stmt)
            case None => after == before
            case Some(t) =>
              && after.tables == before.tables[t.name := t]
              && (t.name in before.tables ==> after.names == before.names)
              && (t.name !in before.tables ==> after.names == before.names + [t.name])
  {
    assert (stmts + [stmt])[..|stmts|] == stmts;
  }
}

=== FILE: results.dfy ===
/** Failure-compatible wrappers used throughout the model: `Option` for
    Python's `Optional[...]` / `None`, and `Result` for a value or a raised
    exception. Both work with Dafny's `:-` operator. */
module Results {

  datatype Option<+T> = None | Some(value: T) {
    predicate IsFailure() {
      None?
    }

    function PropagateFailure<U>(): Option<U>
      requires None?
    {
      None
    }

    function Extract(): T
      requires Some?
    {
      value
    }
  }

  datatype Result<+T, +E> = Success(value: T) | Failure(error: E) {
    predicate IsFailure() {
      Failure?
    }

    function PropagateFailure<U>(): Result<U, E>
      requires Failure?
    {
      Failure(error)
    }

    function Extract(): T
      requires Success?
    {
      value
    }
  }
}

=== FILE: sql_guardrails.dfy ===
/** `SQLGuardrails`: the validator that decides whether a generated query
    may run, and the rewrite that caps its `LIMIT`. The validator applies
    its checks in a fixed order and reports the first one that fails. The
    regular expressions it uses are written out as the matchers below. */
module SqlGuardrails {

  import opened Results
  import opened Text

  /** `not sql_query or not sql_query.strip()`. */
  predicate Blank(q: string) {
    Strip(q) == []
  }

  /** `sql_query.strip().upper()`: empty exactly for a blank query, and as
      long as the stripped query. */
  function Normalize(q: string): (r: string)
    ensures r == [] <==> Blank(q)
    ensures |r| == |Strip(q)|
  {
    Upper(Strip(q))
  }

  /** A normalised query has no whitespace at either end and no lower-case
      ASCII letter left. */
  lemma NormalizeShape(q: string)
    ensures var r := Normalize(q);
            && (r == [] || (!IsSpace(r[0]) && !IsSpace(r[|r| - 1])))
            && forall i :: 0 <= i < |r| ==> !('a' <= r[i] <= 'z')
  {
  }

  /** Normalising a normalised query changes nothing. */
  lemma NormalizeIdempotent(q: string)
    ensures Normalize(Normalize(q)) == Normalize(q)
  {
    var r := Normalize(q);
    NormalizeShape(q);
    if r != [] {
      TrimKeeps(r, IsSpace);
    }
    UpperKeepsUpper(r);
  }

  // ---------------------------------------------------------------------
  // Check 2: dangerous keywords, each as `\bKEYWORD\b`

  const DangerousKeywords: seq<string> :=
    ["DROP", "DELETE", "UPDATE", "ALTER", "TRUNCATE", "INSERT", "REPLACE", "CREATE", "EXEC", "EXECUTE", "GRANT", "REVOKE"]

  /** The position in `kws` of the first keyword found as a whole word. */
  function FirstKeyword(n: string, kws: seq<string>): (r: Option<nat>)
    ensures r.None? <==> forall k :: 0 <= k < |kws| ==> !ContainsWord(n, kws[k])
    ensures r.Some? ==> r.value < |kws| && ContainsWord(n, kws[r.value])
    ensures r.Some? ==> forall k :: 0 <= k < r.value ==> !ContainsWord(n, kws[k])
  {
    if kws == [] then None
    else if ContainsWord(n, kws[0]) then Some(0)
    else
      match FirstKeyword(n, kws[1..])
      case None => None
      case Some(k) => Some(k + 1)
  }

  /** A column such as `created_at` does not count as the keyword CREATE:
      the keyword must end at a word boundary. */
  lemma CreatedAtIsNotCreate(s: string, i: nat)
    requires LiteralAt(s, i, "CREATED_AT")
    ensures !WordAt(s, i, "CREATE")
  {
    assert Upper(s[i..i + 10])[6] == 'D';
    assert UpperChar(s[i + 6]) == 'D';
  }

  // ---------------------------------------------------------------------
  // Check 3: injection patterns, searched in the original query with
  // IGNORECASE and DOTALL

  datatype Injection =
    | LineComment       // --
    | BlockComment      // /\*.*?\*/
    | StackedStatement  // ;\s*\w+
    | OrEquals          // \bOR\b.*?=.*?
    | UnionSelect       // \bUNION\b.*?\bSELECT\b
    | ExtendedProc      // xp_
    | SystemProc        // sp_

  const InjectionPatterns: seq<Injection> :=
    [LineComment, BlockComment, StackedStatement, OrEquals, UnionSelect, ExtendedProc, SystemProc]

  /** The pattern as written in the source, which the reason quotes. */
  function PatternText(p: Injection): string {
    match p
    case LineComment => "--"
    case BlockComment => "/\\*.*?\\*/"
    case StackedStatement => ";\\s*\\w+"
    case OrEquals => "\\bOR\\b.*?=.*?"
    case UnionSelect => "\\bUNION\\b.*?\\bSELECT\\b"
    case ExtendedProc => "xp_"
    case SystemProc => "sp_"
  }

  /** `;` followed, after optional whitespace, by a word character. */
  predicate SemicolonThenWord(q: string, i: nat)
    requires i < |q|
  {
    q[i] == ';' && var j := Span(q, i + 1, IsSpace); j < |q| && IsWordChar(q[j])
  }

  /** `re.search(pattern, q)` finds a match. */
  predicate Found(q: string, p: Injection) {
    match p
    case LineComment => Contains(q, "--")
    case BlockComment =>
      exists i, j | 0 <= i <= |q| && 0 <= j <= |q| :: OccursAt(q, "/*", i) && i + 2 <= j && OccursAt(q, "*/", j)
    case StackedStatement => exists i | 0 <= i < |q| :: SemicolonThenWord(q, i)
    case OrEquals =>
      exists i, j | 0 <= i <= |q| && 0 <= j < |q| :: WordAt(q, i, "OR") && i + 2 <= j && q[j] == '='
    case UnionSelect =>
      exists i, j | 0 <= i <= |q| && 0 <= j <= |q| :: WordAt(q, i, "UNION") && i + 5 <= j && WordAt(q, j, "SELECT")
    case ExtendedProc => exists i | 0 <= i <= |q| :: LiteralAt(q, i, "XP_")
    case SystemProc => exists i | 0 <= i <= |q| :: LiteralAt(q, i, "SP_")
  }

  /** The position in `ps` of the first pattern that is found. */
  function FirstInjection(q: string, ps: seq<Injection>): (r: Option<nat>)
    ensures r.None? <==> forall k :: 0 <= k < |ps| ==> !Found(q, ps[k])
    ensures r.Some? ==> r.value < |ps| && Found(q, ps[r.value])
    ensures r.Some? ==> forall k :: 0 <= k < r.value ==> !Found(q, ps[k])
  {
    if ps == [] then None
    else if Found(q, ps[0]) then Some(0)
    else
      match FirstInjection(q, ps[1..])
      case None => None
      case Some(k) => Some(k + 1)
  }

  // ---------------------------------------------------------------------
  // Check 4: table whitelist, `\bFROM\s+(\w+)|JOIN\s+(\w+)` on the
  // normalised query

  /** The name and end of a match of `KEYWORD\s+(\w+)` at `i`. */
  function NameAfter(s: string, i: nat, keyword: string): (r: Option<(string, nat)>)
    ensures r.Some? ==> LiteralAt(s, i, keyword) && i + |keyword| < r.value.1 <= |s|
    ensures r.Some? ==> r.value.0 != [] && forall k :: 0 <= k < |r.value.0| ==> IsWordChar(r.value.0[k])
  {
    if !LiteralAt(s, i, keyword) then None
    else
      var a := Span(s, i + |keyword|, IsSpace);
      if a == i + |keyword| then None
      else
        var b := Span(s, a, IsWordChar);
        if b == a then None else Some((s[a..b], b))
  }

  /** One alternative of the table pattern tried at `i`: FROM needs a word
      boundary before it, JOIN does not. */
  function TableRefAt(s: string, i: nat): (r: Option<(string, nat)>)
    ensures r.Some? ==> i < r.value.1 <= |s| && r.value.0 != []
  {
    if i <= |s| && BoundaryBefore(s, i) && NameAfter(s, i, "FROM").Some? then NameAfter(s, i, "FROM")
    else NameAfter(s, i, "JOIN")
  }

  /** `re.findall`: the names of all non-overlapping matches, left to right. */
  function FindTables(s: string, from: nat): (r: seq<string>)
    requires from <= |s|
    ensures forall k :: 0 <= k < |r| ==> r[k] != []
    decreases |s| - from
  {
    match FirstMatch(s, from, TableRefAt)
    case None => []
    case Some((i, (name, end))) => [name] + FindTables(s, end)
  }

  /** `KEYWORD\s+(\w+)` matches at `i` with the name at `[a, b)`: the keyword
      (any case), a non-empty run of whitespace up to `a`, and the longest
      non-empty run of word characters from `a`. */
  ghost predicate KeywordName(s: string, i: nat, keyword: string, a: nat, b: nat) {
    && LiteralAt(s, i, keyword) && i + |keyword| < a < b <= |s|
    && (forall m :: i + |keyword| <= m < a ==> IsSpace(s[m]))
    && (forall m :: a <= m < b ==> IsWordChar(s[m]))
    && (b < |s| ==> !IsWordChar(s[b]))
  }

  /** What `NameAfter` finds is such a match, and every such match is what
      it finds. */
  lemma NameAfterIff(s: string, i: nat, keyword: string, a: nat, b: nat)
    requires a <= b <= |s|
    ensures NameAfter(s, i, keyword) == Some((s[a..b], b)) <==> KeywordName(s, i, keyword, a, b)
  {
    if KeywordName(s, i, keyword, a, b) {
      assert !IsSpace(s[a]);
      SpanStops(s, i + |keyword|, a, IsSpace);
      SpanStops(s, a, b, IsWordChar);
    }
    if NameAfter(s, i, keyword) == Some((s[a..b], b)) {
      var a' := Span(s, i + |keyword|, IsSpace);
      var b' := Span(s, a', IsWordChar);
      assert b' == b && s[a'..b] == s[a..b];
      assert a' == a;
    }
  }

  /** The table pattern at `i`: `\bFROM\s+(\w+)` or `JOIN\s+(\w+)`. */
  ghost predicate TableRefMatch(s: string, i: nat, a: nat, b: nat) {
    (i <= |s| && BoundaryBefore(s, i) && KeywordName(s, i, "FROM", a, b)) || KeywordName(s, i, "JOIN", a, b)
  }

  /** A FROM or JOIN match at `i` is what `TableRefAt` returns there. */
  lemma TableRefAtReads(s: string, i: nat, a: nat, b: nat)
    requires TableRefMatch(s, i, a, b)
    ensures TableRefAt(s, i) == Some((s[a..b], b))
  {
    NameAfterIff(s, i, "FROM", a, b);
    NameAfterIff(s, i, "JOIN", a, b);
    if KeywordName(s, i, "JOIN", a, b) {
      assert !LiteralAt(s, i, "FROM");
    }
  }

  /** What `TableRefAt` returns is a FROM or JOIN match. */
  lemma TableRefAtMatches(s: string, i: nat)
    ensures TableRefAt(s, i).Some? ==>
              var (name, b) := TableRefAt(s, i).value;
              b - |name| >= 0 && name == s[b - |name|..b] && TableRefMatch(s, i, b - |name|, b)
  {
    var r := TableRefAt(s, i);
    if r.Some? {
      var (name, b) := r.value;
      var a := b - |name|;
      if i <= |s| && BoundaryBefore(s, i) && NameAfter(s, i, "FROM").Some? {
        var a' := Span(s, i + 4, IsSpace);
        assert name == s[a'..b];
        NameAfterIff(s, i, "FROM", a, b);
      } else {
        var a' := Span(s, i + 4, IsSpace);
        assert name == s[a'..b];
        NameAfterIff(s, i, "JOIN", a, b);
      }
    }
  }

  /** The leftmost match from `from` on is the first name found, and the
      scan resumes after it. */
  lemma FindTablesAt(s: string, from: nat, i: nat, a: nat, b: nat)
    requires from <= i <= |s| && TableRefMatch(s, i, a, b)
    requires forall j :: from <= j < i ==> TableRefAt(s, j).None?
    ensures b <= |s| && FindTables(s, from) == [s[a..b]] + FindTables(s, b)
  {
    TableRefAtReads(s, i, a, b);
    var m := FirstMatch(s, from, TableRefAt);
    assert m.Some?;
    assert m.value.0 == i;
  }

  /** Some match of the table pattern at or after `from` captures `name`. */
  ghost predicate MatchedAfter(s: string, from: nat, name: string) {
    exists i: nat, a: nat, b: nat | from <= i <= |s| && a <= b <= |s| :: TableRefMatch(s, i, a, b) && s[a..b] == name
  }

  lemma MatchedLater(s: string, from: nat, later: nat, name: string)
    requires from <= later && MatchedAfter(s, later, name)
    ensures MatchedAfter(s, from, name)
  {
    var i: nat, a: nat, b: nat :| later <= i <= |s| && a <= b <= |s| && TableRefMatch(s, i, a, b) && s[a..b] == name;
  }

  /** Every name found is the capture of a FROM or JOIN match at or after
      where the scan began. */
  lemma {:induction false} FindTablesMatched(s: string, from: nat)
    requires from <= |s|
    ensures forall k :: 0 <= k < |FindTables(s, from)| ==> MatchedAfter(s, from, FindTables(s, from)[k])
    decreases |s| - from
  {
    var m := FirstMatch(s, from, TableRefAt);
    if m.Some? {
      var i, name, end := m.value.0, m.value.1.0, m.value.1.1;
      var r := FindTables(s, from);
      var rest := FindTables(s, end);
      assert r == [name] + rest;
      TableRefAtMatches(s, i);
      assert MatchedAfter(s, from, name) by {
        assert TableRefMatch(s, i, end - |name|, end) && s[end - |name|..end] == name;
      }
      FindTablesMatched(s, end);
      forall k | 1 <= k < |r|
        ensures MatchedAfter(s, from, r[k])
      {
        assert r[k] == rest[k - 1];
        MatchedLater(s, from, end, rest[k - 1]);
      }
    }
  }

  /** The first found table whose lower-cased name is not among the
      lower-cased allowed names. */
  function FirstDisallowed(found: seq<string>, allowedLower: seq<string>): (r: Option<string>)
    ensures r.None? <==> forall k :: 0 <= k < |found| ==> Lower(found[k]) in allowedLower
    ensures r.Some? ==> r.value !in allowedLower && exists k | 0 <= k < |found| :: Lower(found[k]) == r.value
    ensures r.Some? ==> exists k | 0 <= k < |found| :: DisallowedFirstAt(found, allowedLower, k) && Lower(found[k]) == r.value
  {
    if found == [] then None
    else if Lower(found[0]) !in allowedLower then
      assert DisallowedFirstAt(found, allowedLower, 0);
      Some(Lower(found[0]))
    else
      var r := FirstDisallowed(found[1..], allowedLower);
      assert forall k :: 0 <= k < |found| - 1 ==> found[1..][k] == found[k + 1];
      assert r.Some? ==> exists k | 0 <= k < |found| :: DisallowedFirstAt(found, allowedLower, k) && Lower(found[k]) == r.value by {
        if r.Some? {
          var k :| 0 <= k < |found| - 1 && DisallowedFirstAt(found[1..], allowedLower, k) && Lower(found[1..][k]) == r.value;
          assert DisallowedFirstAt(found, allowedLower, k + 1);
        }
      }
      r
  }

  /** `k` is the position of the first found name that is not allowed. */
  predicate DisallowedFirstAt(found: seq<string>, allowedLower: seq<string>, k: int) {
    0 <= k < |found| && Lower(found[k]) !in allowedLower
    && forall j :: 0 <= j < k ==> Lower(found[j]) in allowedLower
  }

  function LowerAll(names: seq<string>): (r: seq<string>)
    ensures |r| == |names| && forall k :: 0 <= k < |names| ==> r[k] == Lower(names[k])
  {
    seq(|names|, k requires 0 <= k < |names| => Lower(names[k]))
  }

  // ---------------------------------------------------------------------
  // The validator

  /** Why a query was refused. */
  datatype Reason =
    | EmptyQuery
    | NotSelect
    | DangerousKeyword(keyword: string)
    | InjectionPattern(pattern: Injection)
    | TableNotAllowed(table: string, allowed: seq<string>)

  /** Each name in single quotes. */
  function Quoted(xs: seq<string>): (r: seq<string>)
    ensures |r| == |xs|
  {
    if xs == [] then [] else ["'" + xs[0] + "'"] + Quoted(xs[1..])
  }

  /** Python's `repr` of a list of plain strings: bracketed, each name in
      single quotes. */
  function ListRepr(xs: seq<string>): (r: string)
    ensures |r| >= 2 && r[0] == '[' && r[|r| - 1] == ']'
    ensures xs == [] <==> r == "[]"
  {
    "[" + Join(Quoted(xs), ", ") + "]"
  }

  /** One name in quotes, then the rest of the list after a comma and a
      space. */
  lemma ListReprCons(x: string, xs: seq<string>)
    ensures ListRepr([x]) == "['" + x + "']"
    ensures xs != [] ==> ListRepr([x] + xs) == "['" + x + "', " + ListRepr(xs)[1..]
  {
    assert ([x] + xs)[1..] == xs;
    if xs != [] {
      var j := Join(Quoted(xs), ", ");
      assert Join(Quoted([x] + xs), ", ") == "'" + x + "'" + ", " + j;
      assert ListRepr(xs)[1..] == j + "]";
    }
  }

  /** The five messages start with five different letters. */
  lemma MessageStarts(m: string)
    ensures m == "Empty query provided" ==> m[0] == 'E'
    ensures m == "Only SELECT queries are allowed" ==> m[0] == 'O'
    ensures StartsWith(m, "Dangerous SQL keyword detected: ") ==> m[0] == 'D'
    ensures StartsWith(m, "Potential SQL injection pattern detected: ") ==> m[0] == 'P'
    ensures StartsWith(m, "Table '") ==> m[0] == 'T'
  {
    assert StartsWith(m, "Dangerous SQL keyword detected: ") ==> m[0] == m[..32][0];
    assert StartsWith(m, "Potential SQL injection pattern detected: ") ==> m[0] == m[..42][0];
    assert StartsWith(m, "Table '") ==> m[0] == m[..7][0];
  }

  /** The message of each reason. Each message tells which check failed,
      and a keyword follows its prefix unchanged. */
  function ReasonText(r: Reason): (m: string)
    ensures m == "Empty query provided" <==> r.EmptyQuery?
    ensures m == "Only SELECT queries are allowed" <==> r.NotSelect?
    ensures StartsWith(m, "Dangerous SQL keyword detected: ") <==> r.DangerousKeyword?
    ensures StartsWith(m, "Potential SQL injection pattern detected: ") <==> r.InjectionPattern?
    ensures StartsWith(m, "Table '") <==> r.TableNotAllowed?
    ensures r.DangerousKeyword? ==> m[|"Dangerous SQL keyword detected: "|..] == r.keyword
  {
    var m := match r
      case EmptyQuery => "Empty query provided"
      case NotSelect => "Only SELECT queries are allowed"
      case DangerousKeyword(k) => "Dangerous SQL keyword detected: " + k
      case InjectionPattern(p) => "Potential SQL injection pattern detected: " + PatternText(p)
      case TableNotAllowed(t, allowed) => "Table '" + t + "' not in allowed list: " + ListRepr(allowed);
    MessageStarts(m);
    m
  }

  /** `k` is the position of the first dangerous keyword that occurs. */
  predicate KeywordFirstAt(n: string, k: int) {
    0 <= k < |DangerousKeywords| && ContainsWord(n, DangerousKeywords[k])
    && forall j :: 0 <= j < k ==> !ContainsWord(n, DangerousKeywords[j])
  }

  /** `k` is the position of the first injection pattern that is found. */
  predicate InjectionFirstAt(q: string, k: int) {
    0 <= k < |InjectionPatterns| && Found(q, InjectionPatterns[k])
    && forall j :: 0 <= j < k ==> !Found(q, InjectionPatterns[j])
  }

  /** The checks in order; `None` when every check passes. An empty
      whitelist, like a missing one, skips the last check. Each reason is
      given exactly when its check is the first to fail, and names the
      first offending keyword, pattern or table. */
  function Check(q: string, allowed: seq<string>): (r: Option<Reason>)
    ensures r == Some(EmptyQuery) <==> Blank(q)
    ensures r == Some(NotSelect) <==> !Blank(q) && !StartsWith(Normalize(q), "SELECT")
    ensures r.Some? && r.value.DangerousKeyword? <==>
              && !Blank(q) && StartsWith(Normalize(q), "SELECT")
              && exists k | 0 <= k < |DangerousKeywords| :: ContainsWord(Normalize(q), DangerousKeywords[k])
    ensures r.Some? && r.value.DangerousKeyword? ==>
              exists k | 0 <= k < |DangerousKeywords| :: KeywordFirstAt(Normalize(q), k) && r.value.keyword == DangerousKeywords[k]
    ensures r.Some? && r.value.InjectionPattern? <==>
              && !Blank(q) && StartsWith(Normalize(q), "SELECT")
              && (forall k :: 0 <= k < |DangerousKeywords| ==> !ContainsWord(Normalize(q), DangerousKeywords[k]))
              && exists k | 0 <= k < |InjectionPatterns| :: Found(q, InjectionPatterns[k])
    ensures r.Some? && r.value.InjectionPattern? ==>
              exists k | 0 <= k < |InjectionPatterns| :: InjectionFirstAt(q, k) && r.value.pattern == InjectionPatterns[k]
    ensures r.Some? && r.value.TableNotAllowed? <==>
              && !Blank(q) && StartsWith(Normalize(q), "SELECT")
              && (forall k :: 0 <= k < |DangerousKeywords| ==> !ContainsWord(Normalize(q), DangerousKeywords[k]))
              && (forall k :: 0 <= k < |InjectionPatterns| ==> !Found(q, InjectionPatterns[k]))
              && allowed != []
              && exists k | 0 <= k < |FindTables(Normalize(q), 0)| :: Lower(FindTables(Normalize(q), 0)[k]) !in LowerAll(allowed)
    ensures r.Some? && r.value.TableNotAllowed? ==>
              && r.value.allowed == allowed
              && exists k | 0 <= k < |FindTables(Normalize(q), 0)| ::
                   DisallowedFirstAt(FindTables(Normalize(q), 0), LowerAll(allowed), k)
                   && r.value.table == Lower(FindTables(Normalize(q), 0)[k])
  {
    if Blank(q) then Some(EmptyQuery)
    else
      var n := Normalize(q);
      if !StartsWith(n, "SELECT") then Some(NotSelect)
      else match FirstKeyword(n, DangerousKeywords)
        case Some(k) =>
          assert KeywordFirstAt(n, k);
          Some(DangerousKeyword(DangerousKeywords[k]))
        case None =>
          match FirstInjection(q, InjectionPatterns)
          case Some(k) =>
            assert InjectionFirstAt(q, k);
            Some(InjectionPattern(InjectionPatterns[k]))
          case None =>
            if allowed == [] then None
            else
              match FirstDisallowed(FindTables(n, 0), LowerAll(allowed))
              case Some(t) => Some(TableNotAllowed(t, allowed))
              case None => None
  }

  /** `validate_query`: `(True, "")` or `(False, reason)`. */
  function ValidateQuery(q: string, allowed: seq<string>): (r: (bool, string))
    ensures r.0 <==> Check(q, allowed).None?
    ensures r.0 ==> r.1 == ""
    ensures !r.0 ==> r.1 == ReasonText(Check(q, allowed).value)
  {
    match Check(q, allowed)
    case None => (true, "")
    case Some(reason) => (false, ReasonText(reason))
  }

  /** A query is accepted exactly when every check passes: it is not
      blank, starts with SELECT, has no dangerous keyword, no injection
      pattern, and, with a whitelist, names only allowed tables. */
  lemma ValidateSafeIff(q: string, allowed: seq<string>)
    ensures ValidateQuery(q, allowed).0 <==>
              && !Blank(q)
              && StartsWith(Normalize(q), "SELECT")
              && (forall k :: 0 <= k < |DangerousKeywords| ==> !ContainsWord(Normalize(q), DangerousKeywords[k]))
              && (forall k :: 0 <= k < |InjectionPatterns| ==> !Found(q, InjectionPatterns[k]))
              && (allowed != [] ==> forall t :: t in FindTables(Normalize(q), 0) ==> Lower(t) in LowerAll(allowed))
  {
    CheckNoneIff(q, allowed);
    var n := Normalize(q);
    if allowed != [] {
      var found := FindTables(n, 0);
      assert (forall k :: 0 <= k < |found| ==> Lower(found[k]) in LowerAll(allowed))
             <==> (forall t :: t in found ==> Lower(t) in LowerAll(allowed));
    }
  }

  /** The checks in order: every one of them passes. */
  lemma CheckNoneIff(q: string, allowed: seq<string>)
    ensures Check(q, allowed).None? <==>
              && !Blank(q)
              && StartsWith(Normalize(q), "SELECT")
              && FirstKeyword(Normalize(q), DangerousKeywords).None?
              && FirstInjection(q, InjectionPatterns).None?
              && (allowed != [] ==> FirstDisallowed(FindTables(Normalize(q), 0), LowerAll(allowed)).None?)
  {
  }

  /** `UNION SELECT` after the first SELECT is refused as an injection. */
  lemma UnionSelectIsFound()
    ensures Found("SELECT * FROM users WHERE id = 1 UNION SELECT * FROM admin", UnionSelect)
  {
    var a, b, c := "SELECT * FROM users WHERE id = 1 ", " ", " * FROM admin";
    assert a + "UNION" + b + "SELECT" + c == "SELECT * FROM users WHERE id = 1 UNION SELECT * FROM admin";
    UnionThenSelect(a, b, c);
  }

  /** UNION and, later, SELECT, each as a whole word, are what the pattern
      looks for. */
  lemma UnionThenSelect(a: string, b: string, c: string)
    requires a == [] || !IsWordChar(a[|a| - 1])
    requires b != [] && !IsWordChar(b[0]) && !IsWordChar(b[|b| - 1])
    requires c == [] || !IsWordChar(c[0])
    ensures Found(a + "UNION" + b + "SELECT" + c, UnionSelect)
  {
    var x := a + "UNION" + b;
    WordBetween(a, "UNION", b);
    WordExtends(x, "SELECT", |a|, "UNION");
    WordExtends(x + "SELECT", c, |a|, "UNION");
    WordBetween(x, "SELECT", c);
    assert WordAt(x + "SELECT" + c, |a|, "UNION") && WordAt(x + "SELECT" + c, |x|, "SELECT");
  }

  /** A word found before the end of a text is still found once more text
      follows. */
  lemma WordExtends(p: string, t: string, i: nat, w: string)
    requires WordAt(p, i, w) && i + |w| < |p|
    ensures WordAt(p + t, i, w)
  {
    var q := p + t;
    assert q[i..i + |w|] == p[i..i + |w|];
    assert q[i + |w|] == p[i + |w|];
    if i > 0 {
      assert q[i - 1] == p[i - 1];
    }
  }

  /** An upper-case word set off by non-word characters is found at its
      position. */
  lemma WordBetween(head: string, w: string, tail: string)
    requires w != [] && forall k :: 0 <= k < |w| ==> 'A' <= w[k] <= 'Z'
    requires head == [] || !IsWordChar(head[|head| - 1])
    requires tail == [] || !IsWordChar(tail[0])
    ensures WordAt(head + w + tail, |head|, w)
  {
    var q := head + w + tail;
    UpperKeepsUpper(w);
    assert q[|head|..|head| + |w|] == w;
    if head != [] {
      assert q[|head| - 1] == head[|head| - 1];
    }
    if tail != [] {
      assert q[|head| + |w|] == tail[0];
    }
  }

  // ---------------------------------------------------------------------
  // add_limit_clause

  /** A match of `LIMIT\s+(\d+)` at `i`, ignoring case: the number and the
      end of the match. */
  function LimitAt(s: string, i: nat): (r: Option<(nat, nat)>)
    ensures r.Some? ==> LiteralAt(s, i, "LIMIT") && i + 5 < r.value.1 <= |s|
  {
    if !LiteralAt(s, i, "LIMIT") then None
    else
      var a := Span(s, i + 5, IsSpace);
      if a == i + 5 then None
      else
        var b := Span(s, a, IsDigit);
        if b == a then None
        else
          assert AllDigits(s[a..b]);
          Some((DigitsValue(s[a..b]), b))
  }

  /** `re.sub(r'LIMIT\s+\d+', repl, s[from..], flags=re.IGNORECASE)`. */
  function ReplaceLimits(s: string, from: nat, repl: string): (r: string)
    requires from <= |s|
    ensures FirstMatch(s, from, LimitAt).None? ==> r == s[from..]
    decreases |s| - from
  {
    match FirstMatch(s, from, LimitAt)
    case None => s[from..]
    case Some((i, (_, end))) => s[from..i] + repl + ReplaceLimits(s, end, repl)
  }

  /** The number of the first `LIMIT n` in `s`, if any. */
  function FirstLimit(s: string): Option<nat> {
    match FirstMatch(s, 0, LimitAt)
    case None => None
    case Some((_, (k, _))) => Some(k)
  }

  predicate IsSemicolon(c: char) {
    c == ';'
  }

  /** `add_limit_clause`. */
  function AddLimitClause(q: string, maxRows: int): (r: string)
    ensures Blank(q) ==> r == q
    ensures !Blank(q) && FirstLimit(Normalize(q)).None? ==>
              r == TrimRight(q, IsSemicolon) + " LIMIT " + IntToString(maxRows)
    ensures !Blank(q) && FirstLimit(Normalize(q)).Some? && FirstLimit(Normalize(q)).value <= maxRows ==> r == q
    ensures !Blank(q) && FirstLimit(Normalize(q)).Some? && FirstLimit(Normalize(q)).value > maxRows ==>
              r == ReplaceLimits(q, 0, "LIMIT " + IntToString(maxRows))
  {
    if Blank(q) then q
    else
      var n := Normalize(q);
      var appended := TrimRight(q, IsSemicolon) + " LIMIT " + IntToString(maxRows);
      if Contains(n, "LIMIT") then
        match FirstLimit(n)
        case Some(k) =>
          if k > maxRows then ReplaceLimits(q, 0, "LIMIT " + IntToString(maxRows)) else q
        case None => appended
      else
        assert FirstLimit(n).None? by {
          if FirstLimit(n).Some? {
            var i := FirstMatch(n, 0, LimitAt).value.0;
            NormalizedLiteral(q, i);
          }
        }
        appended
  }

  /** In the upper-cased text, a case-insensitive LIMIT is the literal LIMIT. */
  lemma NormalizedLiteral(q: string, i: nat)
    requires LiteralAt(Normalize(q), i, "LIMIT")
    ensures Contains(Normalize(q), "LIMIT")
  {
    var t := Strip(q);
    UpperSlice(t, i, i + 5);
    UpperIdempotent(t[i..i + 5]);
    assert OccursAt(Normalize(q), "LIMIT", i);
  }

  // ---------------------------------------------------------------------
  // Reading the cap back

  /** The clause at `i` reads back as `n`. */
  predicate ReadsBackAt(r: string, i: nat, n: nat) {
    LimitAt(r, i) == Some((n, i + 6 + |NatToString(n)|))
  }

  /** `LIMIT n` written at `i` and not followed by a digit matches there
      and reads back as `n`. */
  lemma {:induction false} LimitAtReadsBack(s: string, i: nat, n: nat, j: nat)
    requires i + 6 <= j <= |s| && s[i..j] == "LIMIT " + NatToString(n)
    requires j < |s| ==> !IsDigit(s[j])
    ensures LimitAt(s, i) == Some((n, j))
  {
    assert s[i..i + 6] == s[i..j][..6];
    assert s[i + 6..j] == s[i..j][6..];
    var w := s[i..i + 6];
    assert s[i..i + 5] == w[..5] == "LIMIT";
    UpperKeepsUpper(s[i..i + 5]);
    assert s[i + 5] == w[5] == ' ';
    var d := s[i + 6..j];
    assert d != [] && s[i + 6] == d[0];
    SpanStops(s, i + 5, i + 6, IsSpace);
    assert forall k :: i + 6 <= k < j ==> IsDigit(s[k]) by {
      forall k | i + 6 <= k < j ensures IsDigit(s[k]) {
        assert s[k] == d[k - i - 6];
      }
    }
    SpanStops(s, i + 6, j, IsDigit);
    DigitsValueOfNatToString(n);
  }

  /** A match ends where the digits end. */
  lemma LimitEndsAtNonDigit(s: string, i: nat)
    requires LimitAt(s, i).Some?
    ensures var e := LimitAt(s, i).value.1; e < |s| ==> !IsDigit(s[e])
  {
  }

  /** The rewritten text does not start with a digit when neither the
      untouched text nor the replacement does. */
  lemma {:induction false} ReplaceLimitsHead(s: string, from: nat, repl: string)
    requires from <= |s| && (from < |s| ==> !IsDigit(s[from]))
    requires repl != [] && !IsDigit(repl[0])
    ensures var r := ReplaceLimits(s, from, repl); r != [] ==> !IsDigit(r[0])
    decreases |s| - from
  {
    match FirstMatch(s, from, LimitAt)
    case None =>
    case Some((i, (_, end))) =>
      var r := ReplaceLimits(s, from, repl);
      assert r == s[from..i] + repl + ReplaceLimits(s, end, repl);
      if from < i {
        assert r[0] == s[from];
      } else {
        assert r[0] == repl[0];
      }
  }

  /** A clause `LIMIT n` between any text and a tail that does not start
      with a digit reads back as `n`. */
  lemma {:induction false} ClauseReadsBack(r: string, i: nat, a: string, n: nat, tail: string)
    requires r == a + ("LIMIT " + NatToString(n)) + tail && i == |a|
    requires tail != [] ==> !IsDigit(tail[0])
    ensures ReadsBackAt(r, i, n)
  {
    var j := |a| + 6 + |NatToString(n)|;
    assert r[|a|..j] == "LIMIT " + NatToString(n);
    if j < |r| {
      assert r[j] == tail[0];
    }
    LimitAtReadsBack(r, |a|, n, j);
  }

  /** The rewritten text is the text before the first clause, the
      replacement, and a rest that does not start with a digit. */
  lemma {:induction false} ReplaceLimitsSplit(s: string, repl: string) returns (a: string, rest: string)
    requires FirstMatch(s, 0, LimitAt).Some?
    requires repl != [] && !IsDigit(repl[0])
    ensures ReplaceLimits(s, 0, repl) == a + repl + rest
    ensures |a| == FirstMatch(s, 0, LimitAt).value.0
    ensures rest != [] ==> !IsDigit(rest[0])
  {
    var m := FirstMatch(s, 0, LimitAt).value;
    a := s[..m.0];
    rest := ReplaceLimits(s, m.1.1, repl);
    LimitEndsAtNonDigit(s, m.0);
    ReplaceLimitsHead(s, m.1.1, repl);
  }

  /** Replacing every clause by `LIMIT n` leaves a clause reading `n` where
      the first one was. */
  lemma {:induction false} ReplacedLimitReadsBack(s: string, n: nat)
    requires FirstMatch(s, 0, LimitAt).Some?
    ensures ReadsBackAt(ReplaceLimits(s, 0, "LIMIT " + NatToString(n)), FirstMatch(s, 0, LimitAt).value.0, n)
  {
    var repl := "LIMIT " + NatToString(n);
    var a, rest := ReplaceLimitsSplit(s, repl);
    ClauseReadsBack(ReplaceLimits(s, 0, "LIMIT " + NatToString(n)), FirstMatch(s, 0, LimitAt).value.0, a, n, rest);
  }

  /** An appended clause reads back as the cap and ends the query. */
  lemma AppendedLimitReadsBack(p: string, n: nat)
    ensures ReadsBackAt(p + " LIMIT " + NatToString(n), |p| + 1, n)
    ensures |p| + 1 + 6 + |NatToString(n)| == |p + " LIMIT " + NatToString(n)|
  {
    var r := p + " LIMIT " + NatToString(n);
    assert r == (p + " ") + ("LIMIT " + NatToString(n)) + [];
    ClauseReadsBack(r, |p| + 1, p + " ", n, []);
  }

  /** What a match of `LIMIT\s+(\d+)` at `i` consists of: the word, a
      run of spaces ending at `sp`, and a run of digits from `sp` to `b`. */
  predicate LimitParts(s: string, i: nat, sp: nat, b: nat) {
    && LiteralAt(s, i, "LIMIT") && i + 5 < sp < b <= |s|
    && (forall k :: i + 5 <= k < sp ==> IsSpace(s[k])) && !IsSpace(s[sp])
    && (forall k :: sp <= k < b ==> IsDigit(s[k])) && (b < |s| ==> !IsDigit(s[b]))
  }

  /** The number of the clause at `i`, if one starts there. */
  function ValueAt(s: string, i: nat): Option<nat> {
    match LimitAt(s, i)
    case None => None
    case Some((v, _)) => Some(v)
  }

  lemma LimitAtFromParts(s: string, i: nat, sp: nat, b: nat, v: nat)
    requires LimitParts(s, i, sp, b)
    requires AllDigits(s[sp..b]) && v == DigitsValue(s[sp..b])
    ensures ValueAt(s, i) == Some(v)
  {
    SpanStops(s, i + 5, sp, IsSpace);
    SpanStops(s, sp, b, IsDigit);
  }

  lemma PartsOfLimitAt(s: string, i: nat) returns (sp: nat, b: nat)
    requires LimitAt(s, i).Some?
    ensures LimitParts(s, i, sp, b) && AllDigits(s[sp..b])
    ensures LimitAt(s, i) == Some((DigitsValue(s[sp..b]), b))
  {
    sp := Span(s, i + 5, IsSpace);
    b := Span(s, sp, IsDigit);
  }

  lemma LiteralShift(t: string, s: string, a: nat, i: nat, w: string)
    requires a + |t| <= |s| && t == s[a..a + |t|]
    requires LiteralAt(t, i, w)
    ensures LiteralAt(s, a + i, w)
  {
    assert forall k :: i <= k < i + |w| ==> t[k] == s[a + k];
    assert s[a + i..a + i + |w|] == t[i..i + |w|];
  }

  /** A match inside the slice `t` of `s` starting at `a` is a match of
      `s` with the same number when the slice ends at the end of `s` or
      at a space. */
  lemma SliceMatch(t: string, s: string, a: nat, i: nat, sp: nat, b: nat, v: nat) returns (j: nat)
    requires a + |t| <= |s| && t == s[a..a + |t|]
    requires a + |t| < |s| ==> IsSpace(s[a + |t|])
    requires LimitParts(t, i, sp, b)
    requires AllDigits(t[sp..b]) && v == DigitsValue(t[sp..b])
    ensures j < |s| && ValueAt(s, j) == Some(v)
  {
    j := a + i;
    ShiftParts(t, s, a, i, sp, b);
    LimitAtFromParts(s, j, a + sp, a + b, v);
  }

  /** The parts of a match inside the slice `t`, moved to `s`. */
  lemma ShiftParts(t: string, s: string, a: nat, i: nat, sp: nat, b: nat)
    requires a + |t| <= |s| && t == s[a..a + |t|]
    requires a + |t| < |s| ==> IsSpace(s[a + |t|])
    requires LimitParts(t, i, sp, b)
    ensures LimitParts(s, a + i, a + sp, a + b)
    ensures t[sp..b] == s[a + sp..a + b]
  {
    LiteralShift(t, s, a, i, "LIMIT");
    assert forall k :: a + i + 5 <= k < a + sp ==> s[k] == t[k - a];
    assert forall k :: a + sp <= k < a + b ==> s[k] == t[k - a];
    assert s[a + sp] == t[sp];
    assert b < |t| ==> s[a + b] == t[b];
    assert t[sp..b] == s[a + sp..a + b];
  }

  /** Upper-casing does not change the parts of a match. */
  lemma PartsUpper(t: string, i: nat, sp: nat, b: nat, v: nat)
    requires LimitParts(Upper(t), i, sp, b)
    requires AllDigits(Upper(t)[sp..b]) && v == DigitsValue(Upper(t)[sp..b])
    ensures LimitParts(t, i, sp, b)
    ensures AllDigits(t[sp..b]) && v == DigitsValue(t[sp..b])
  {
    UpperSlice(t, i, i + 5);
    UpperIdempotent(t[i..i + 5]);
    assert forall k :: sp <= k < b ==> Upper(t)[k] == t[k];
    assert Upper(t)[sp..b] == t[sp..b];
  }

  /** A match, given by its parts, in the upper-cased form of a slice of
      the query that is followed by nothing or a space, is a match of the
      query with the same number: normalizing only strips spaces and
      upper-cases letters. */
  lemma UpperSliceMatch(q: string, t: string, a: nat, i: nat, sp: nat, b: nat, v: nat) returns (j: nat)
    requires a + |t| <= |q| && t == q[a..a + |t|]
    requires a + |t| < |q| ==> IsSpace(q[a + |t|])
    requires LimitParts(Upper(t), i, sp, b)
    requires AllDigits(Upper(t)[sp..b]) && v == DigitsValue(Upper(t)[sp..b])
    ensures j < |q| && ValueAt(q, j) == Some(v)
  {
    PartsUpper(t, i, sp, b, v);
    j := SliceMatch(t, q, a, i, sp, b, v);
  }

  /** The clause `add_limit_clause` finds in the normalized query is a
      clause of the query itself, with the same number. */
  lemma NormalizedLimitInQuery(q: string) returns (j: nat)
    requires FirstLimit(Normalize(q)).Some?
    ensures j <= |q| && ValueAt(q, j) == Some(FirstLimit(Normalize(q)).value)
  {
    var n := Normalize(q);
    var i := FirstMatch(n, 0, LimitAt).value.0;
    var sp, b := PartsOfLimitAt(n, i);
    var t, a := NormalizedSlice(q);
    j := UpperSliceMatch(q, t, a, i, sp, b, FirstLimit(n).value);
  }

  /** The normalized query is the upper case of a slice of the query that
      is followed by nothing or by a space. */
  lemma NormalizedSlice(q: string) returns (t: string, a: nat)
    ensures a + |t| <= |q| && t == q[a..a + |t|]
    ensures a + |t| < |q| ==> IsSpace(q[a + |t|])
    ensures Normalize(q) == Upper(t)
  {
    t := Strip(q);
    a := StripSlice(q);
  }

  /** The query carries a LIMIT clause whose number is at most `cap`. */
  predicate HasCap(r: string, cap: nat) {
    exists i :: 0 <= i <= |r| && ValueAt(r, i).Some? && ValueAt(r, i).value <= cap
  }

  lemma CapWitness(r: string, i: nat, v: nat, cap: nat)
    requires ValueAt(r, i) == Some(v) && v <= cap
    ensures HasCap(r, cap)
  {
    assert i <= |r|;
  }

  /** Without a clause, one is appended: it reads back as `maxRows` and
      ends the query. */
  lemma AddLimitClauseAppends(q: string, maxRows: nat)
    requires !Blank(q) && FirstLimit(Normalize(q)).None?
    ensures var p := TrimRight(q, IsSemicolon);
            ReadsBackAt(AddLimitClause(q, maxRows), |p| + 1, maxRows)
            && |AddLimitClause(q, maxRows)| == |p| + 7 + |NatToString(maxRows)|
  {
    assert IntToString(maxRows) == NatToString(maxRows);
    AppendedLimitReadsBack(TrimRight(q, IsSemicolon), maxRows);
  }

  /** A clause above the cap is rewritten: where the query's first clause
      stood, the result reads exactly `maxRows`. */
  lemma AddLimitClauseReplaces(q: string, maxRows: nat)
    requires !Blank(q) && FirstLimit(Normalize(q)).Some? && FirstLimit(Normalize(q)).value > maxRows
    ensures FirstMatch(q, 0, LimitAt).Some?
    ensures ReadsBackAt(AddLimitClause(q, maxRows), FirstMatch(q, 0, LimitAt).value.0, maxRows)
  {
    assert IntToString(maxRows) == NatToString(maxRows);
    var j := NormalizedLimitInQuery(q);
    assert LimitAt(q, j).Some?;
    ReplacedLimitReadsBack(q, maxRows);
  }

  /** `add_limit_clause` caps the row count: whatever the non-blank query,
      the result carries a LIMIT clause whose number is at most
      `maxRows`. */
  lemma AddLimitClauseCaps(q: string, maxRows: nat)
    requires !Blank(q)
    ensures HasCap(AddLimitClause(q, maxRows), maxRows)
  {
    var r := AddLimitClause(q, maxRows);
    match FirstLimit(Normalize(q))
    case None =>
      AddLimitClauseAppends(q, maxRows);
      CapWitness(r, |TrimRight(q, IsSemicolon)| + 1, maxRows, maxRows);
    case Some(k) =>
      if k > maxRows {
        AddLimitClauseReplaces(q, maxRows);
        CapWitness(r, FirstMatch(q, 0, LimitAt).value.0, maxRows, maxRows);
      } else {
        var j := NormalizedLimitInQuery(q);
        CapWitness(r, j, k, maxRows);
      }
  }
}

=== FILE: text.dfy ===
/** Character classes and string helpers shared by the parser, the SQL
    guardrails and the dialect converter. Python's `str` methods and the few
    regular-expression building blocks the source uses (`\s`, `\w`, `\d`,
    `\b`, `re.IGNORECASE`) are written out here once. */
module Text {

  import opened Results

  /** Python's `str.isspace()`, which is also what `\s`, `str.split()` and
      `str.strip()` use for `str` patterns. */
  predicate IsSpace(c: char) {
    c == ' ' || c == '\t' || c == '\n' || c == '\r' || c == '\U{B}' || c == '\U{C}'
    || ('\U{1C}' <= c <= '\U{1F}') || c == '\U{85}' || c == '\U{A0}' || c == '\U{1680}'
    || ('\U{2000}' <= c <= '\U{200A}') || c == '\U{2028}' || c == '\U{2029}'
    || c == '\U{202F}' || c == '\U{205F}' || c == '\U{3000}'
  }

  predicate IsDigit(c: char) {
    '0' <= c <= '9'
  }

  /** `\w` restricted to ASCII: letters, digits and the underscore. */
  predicate IsWordChar(c: char) {
    ('a' <= c <= 'z') || ('A' <= c <= 'Z') || IsDigit(c) || c == '_'
  }

  function UpperChar(c: char): (u: char)
    ensures !('a' <= u <= 'z')
    ensures IsWordChar(u) <==> IsWordChar(c)
    ensures IsSpace(u) <==> IsSpace(c)
  {
    if 'a' <= c <= 'z' then (c as int - 32) as char else c
  }

  function LowerChar(c: char): (l: char)
    ensures !('A' <= l <= 'Z')
  {
    if 'A' <= c <= 'Z' then (c as int + 32) as char else c
  }

  /** `str.upper()` on ASCII letters. */
  function Upper(s: string): (r: string)
    ensures |r| == |s|
    ensures forall i :: 0 <= i < |s| ==> r[i] == UpperChar(s[i])
  {
    seq(|s|, i requires 0 <= i < |s| => UpperChar(s[i]))
  }

  /** `str.lower()` on ASCII letters. */
  function Lower(s: string): (r: string)
    ensures |r| == |s|
    ensures forall i :: 0 <= i < |s| ==> r[i] == LowerChar(s[i])
  {
    seq(|s|, i requires 0 <= i < |s| => LowerChar(s[i]))
  }

  lemma UpperSlice(s: string, i: nat, j: nat)
    requires i <= j <= |s|
    ensures Upper(s[i..j]) == Upper(s)[i..j]
  {
  }

  /** A string with no lower-case ASCII letter is its own upper case. */
  lemma UpperKeepsUpper(s: string)
    requires forall i :: 0 <= i < |s| ==> !('a' <= s[i] <= 'z')
    ensures Upper(s) == s
  {
  }

  lemma UpperIdempotent(s: string)
    ensures Upper(Upper(s)) == Upper(s)
  {
    UpperKeepsUpper(Upper(s));
  }

  /** First index at or after `i` whose character does not satisfy `p`. */
  function Span(s: string, i: nat, p: char -> bool): (j: nat)
    requires i <= |s|
    ensures i <= j <= |s|
    ensures forall k :: i <= k < j ==> p(s[k])
    ensures j < |s| ==> !p(s[j])
    decreases |s| - i
  {
    if i < |s| && p(s[i]) then Span(s, i + 1, p) else i
  }

  /** `Span` is the end of the run: the first index that breaks it. */
  lemma SpanStops(s: string, i: nat, j: nat, p: char -> bool)
    requires i <= j <= |s|
    requires forall k :: i <= k < j ==> p(s[k])
    requires j < |s| ==> !p(s[j])
    ensures Span(s, i, p) == j
  {
  }

  /** `s.lstrip(chars)` where `drop` says which characters are stripped. */
  function TrimLeft(s: string, drop: char -> bool): (r: string)
    ensures |r| <= |s| && r == s[|s| - |r|..]
    ensures forall i :: 0 <= i < |s| - |r| ==> drop(s[i])
    ensures r == [] || !drop(r[0])
  {
    if s != [] && drop(s[0]) then
      var r := TrimLeft(s[1..], drop);
      assert s[1..][|s| - 1 - |r|..] == s[|s| - |r|..];
      assert forall i :: 1 <= i < |s| - |r| ==> s[i] == s[1..][i - 1];
      r
    else s
  }

  /** `s.rstrip(chars)`. */
  function TrimRight(s: string, drop: char -> bool): (r: string)
    ensures |r| <= |s| && r == s[..|r|]
    ensures forall i :: |r| <= i < |s| ==> drop(s[i])
    ensures r == [] || !drop(r[|r| - 1])
  {
    if s != [] && drop(s[|s| - 1]) then TrimRight(s[..|s| - 1], drop) else s
  }

  /** `s.strip(chars)`: what is left once the leading run and the trailing
      run of dropped characters are removed. */
  function Trim(s: string, drop: char -> bool): (r: string)
    ensures var a := Span(s, 0, drop);
            a + |r| <= |s| && r == s[a..a + |r|]
            && (forall i :: a + |r| <= i < |s| ==> drop(s[i]))
    ensures r == [] || (!drop(r[0]) && !drop(r[|r| - 1]))
  {
    var a := Span(s, 0, drop);
    TrimRight(s[a..], drop)
  }

  /** A string that neither starts nor ends with a stripped character is
      its own `strip`. */
  lemma TrimKeeps(s: string, drop: char -> bool)
    requires s != [] && !drop(s[0]) && !drop(s[|s| - 1])
    ensures Trim(s, drop) == s
  {
    assert Span(s, 0, drop) == 0;
    assert TrimRight(s, drop) == s;
  }

  /** `s.strip()`. */
  function Strip(s: string): string {
    Trim(s, IsSpace)
  }

  /** `s.strip()` is a slice of `s` followed by nothing or a space. */
  lemma StripSlice(s: string) returns (a: nat)
    ensures a + |Strip(s)| <= |s| && Strip(s) == s[a..a + |Strip(s)|]
    ensures a + |Strip(s)| < |s| ==> IsSpace(s[a + |Strip(s)|])
  {
    a := Span(s, 0, IsSpace);
  }

  /** Two strings that drop at the same positions are trimmed at the same
      positions. */
  lemma TrimAgrees(s: string, u: string, drop: char -> bool)
    requires |s| == |u| && forall k :: 0 <= k < |s| ==> (drop(s[k]) <==> drop(u[k]))
    ensures Span(u, 0, drop) == Span(s, 0, drop) && |Trim(u, drop)| == |Trim(s, drop)|
  {
    SpanStops(u, 0, Span(s, 0, drop), drop);
  }

  /** Upper-casing turns no character into or out of whitespace, so it
      commutes with `strip()`. */
  lemma StripUpper(s: string)
    ensures Strip(Upper(s)) == Upper(Strip(s))
  {
    TrimAgrees(s, Upper(s), IsSpace);
    var a := Span(s, 0, IsSpace);
    UpperSlice(s, a, a + |Strip(s)|);
  }

  lemma StripEmptyIffAllSpace(s: string)
    ensures Strip(s) == [] <==> forall i :: 0 <= i < |s| ==> IsSpace(s[i])
  {
  }

  /** `str.split()` with no separator: the maximal runs of non-space
      characters, in order. */
  function SplitWs(s: string): (r: seq<string>)
    ensures forall k :: 0 <= k < |r| ==> r[k] != [] && NoSpace(r[k])
    decreases |s|
  {
    var a := Span(s, 0, IsSpace);
    if a == |s| then []
    else
      var b := Span(s, a, NotSpace);
      [s[a..b]] + SplitWs(s[b..])
  }

  /** Run together, the pieces of a split are the text with its whitespace
      removed. */
  lemma {:induction false} SplitWsConcat(s: string)
    ensures Concat(SplitWs(s)) == DropSpace(s)
    decreases |s|
  {
    var a := Span(s, 0, IsSpace);
    if a == |s| {
      DropSpaceOfSpaces(s);
    } else {
      var b := Span(s, a, NotSpace);
      var rest := SplitWs(s[b..]);
      SplitWsConcat(s[b..]);
      DropSpaceOfRun(s, a, b);
      ConcatCons(s[a..b], rest);
    }
  }

  lemma AppendAssoc<T>(a: seq<T>, b: seq<T>, c: seq<T>)
    ensures (a + b) + c == a + (b + c)
  {
  }

  lemma ConcatCons(w: string, rest: seq<string>)
    ensures Concat([w] + rest) == w + Concat(rest)
  {
    assert ([w] + rest)[1..] == rest;
  }

  lemma ThreeSlices(s: string, a: nat, b: nat)
    requires a <= b <= |s|
    ensures s == s[..a] + s[a..b] + s[b..]
  {
    assert s[..b] == s[..a] + s[a..b];
  }

  /** Whitespace up to `a`, then a word up to `b`: only the word is kept. */
  lemma DropSpaceOfRun(s: string, a: nat, b: nat)
    requires a <= b <= |s|
    requires forall k :: 0 <= k < a ==> IsSpace(s[k])
    requires forall k :: a <= k < b ==> NotSpace(s[k])
    ensures DropSpace(s) == s[a..b] + DropSpace(s[b..])
  {
    var x, w, t := s[..a], s[a..b], s[b..];
    assert forall k :: 0 <= k < |x| ==> IsSpace(x[k]) by {
      forall k | 0 <= k < |x| ensures IsSpace(x[k]) { assert x[k] == s[k]; }
    }
    assert forall k :: 0 <= k < |w| ==> NotSpace(w[k]) by {
      forall k | 0 <= k < |w| ensures NotSpace(w[k]) { assert w[k] == s[a + k]; }
    }
    ThreeSlices(s, a, b);
    DropSpaceOfParts(x, w, t);
  }

  lemma DropSpaceOfParts(x: string, w: string, t: string)
    requires forall k :: 0 <= k < |x| ==> IsSpace(x[k])
    requires forall k :: 0 <= k < |w| ==> NotSpace(w[k])
    ensures DropSpace(x + w + t) == w + DropSpace(t)
  {
    DropSpaceAppend(x + w, t);
    DropSpaceAppend(x, w);
    DropSpaceOfSpaces(x);
    DropSpaceOfWord(w);
    calc {
      DropSpace(x + w + t);
      DropSpace(x + w) + DropSpace(t);
      (DropSpace(x) + DropSpace(w)) + DropSpace(t);
      { assert DropSpace(x) + DropSpace(w) == w; }
      w + DropSpace(t);
    }
  }

  predicate NotSpace(c: char) {
    !IsSpace(c)
  }

  /** The pieces of a split, run together. */
  function Concat(parts: seq<string>): string {
    if parts == [] then [] else parts[0] + Concat(parts[1..])
  }

  /** The text with every whitespace character removed. */
  function DropSpace(s: string): (r: string)
    ensures |r| <= |s| && NoSpace(r)
  {
    if s == [] then []
    else if IsSpace(s[0]) then DropSpace(s[1..])
    else [s[0]] + DropSpace(s[1..])
  }

  lemma {:induction false} DropSpaceAppend(x: string, y: string)
    ensures DropSpace(x + y) == DropSpace(x) + DropSpace(y)
    decreases |x|
  {
    if x != [] {
      assert (x + y)[0] == x[0] && (x + y)[1..] == x[1..] + y;
      DropSpaceAppend(x[1..], y);
    } else {
      assert x + y == y;
    }
  }

  lemma {:induction false} DropSpaceOfSpaces(s: string)
    requires forall k :: 0 <= k < |s| ==> IsSpace(s[k])
    ensures DropSpace(s) == []
    decreases |s|
  {
    if s != [] { DropSpaceOfSpaces(s[1..]); }
  }

  lemma {:induction false} DropSpaceOfWord(s: string)
    requires forall k :: 0 <= k < |s| ==> NotSpace(s[k])
    ensures DropSpace(s) == s
    decreases |s|
  {
    if s != [] {
      DropSpaceOfWord(s[1..]);
      assert s == [s[0]] + s[1..];
    }
  }

  /** A word followed by nothing or whitespace is the first piece. */
  lemma {:induction false} SplitWsHead(w: string, t: string)
    requires w != [] && NoSpace(w)
    requires t == [] || IsSpace(t[0])
    ensures SplitWs(w + t) == [w] + SplitWs(t)
  {
    var s := w + t;
    SpanStops(s, 0, 0, IsSpace);
    assert forall k :: 0 <= k < |w| ==> NotSpace(s[k]) by {
      forall k | 0 <= k < |w| ensures NotSpace(s[k]) { assert s[k] == w[k]; }
    }
    SpanStops(s, 0, |w|, NotSpace);
    assert s[0..|w|] == w && s[|w|..] == t;
  }

  /** Leading whitespace does not change the split. */
  lemma SplitWsSkipsSpace(c: char, t: string)
    requires IsSpace(c)
    ensures SplitWs([c] + t) == SplitWs(t)
  {
    var s := [c] + t;
    var a := Span(t, 0, IsSpace);
    SpanCons(c, t, 0, IsSpace);
    SpanFirst(s, IsSpace);
    if a == |t| {
      SplitWsBlank(s);
      SplitWsBlank(t);
    } else {
      var b := Span(t, a, NotSpace);
      SpanCons(c, t, a, NotSpace);
      SplitWsStep(s, a + 1, b + 1);
      SplitWsStep(t, a, b);
      SliceCons(c, t, a, b);
    }
  }

  lemma SpanFirst(s: string, p: char -> bool)
    requires s != [] && p(s[0])
    ensures Span(s, 0, p) == Span(s, 1, p)
  {
  }

  lemma SliceCons(c: char, t: string, a: nat, b: nat)
    requires a <= b <= |t|
    ensures ([c] + t)[a + 1..b + 1] == t[a..b] && ([c] + t)[b + 1..] == t[b..]
  {
  }

  /** One step of the split: whitespace up to `a`, then a word up to `b`. */
  lemma SplitWsStep(s: string, a: nat, b: nat)
    requires a < |s| && Span(s, 0, IsSpace) == a && Span(s, a, NotSpace) == b
    ensures SplitWs(s) == [s[a..b]] + SplitWs(s[b..])
  {
  }

  lemma SplitWsBlank(s: string)
    requires Span(s, 0, IsSpace) == |s|
    ensures SplitWs(s) == []
  {
  }

  /** A character in front shifts a scan by one. */
  lemma {:induction false} SpanCons(c: char, t: string, i: nat, p: char -> bool)
    requires i <= |t|
    ensures Span([c] + t, i + 1, p) == Span(t, i, p) + 1
    decreases |t| - i
  {
    var s := [c] + t;
    if i < |t| {
      assert s[i + 1] == t[i];
      if p(t[i]) { SpanCons(c, t, i + 1, p); }
    }
  }

  /** Splitting words joined by single spaces gives the words back. */
  lemma {:induction false} SplitWsJoin(ws: seq<string>)
    requires forall k :: 0 <= k < |ws| ==> ws[k] != [] && NoSpace(ws[k])
    ensures SplitWs(Join(ws, " ")) == ws
    decreases |ws|
  {
    if |ws| == 1 {
      SplitWsHead(ws[0], []);
      assert ws[0] + [] == ws[0];
      SpanStops([], 0, 0, IsSpace);
    } else if |ws| > 1 {
      var j := Join(ws[1..], " ");
      SplitWsJoin(ws[1..]);
      assert ws[0] + " " + j == ws[0] + ([' '] + j);
      SplitWsHead(ws[0], [' '] + j);
      SplitWsSkipsSpace(' ', j);
    }
  }

  predicate NoSpace(s: string) {
    forall i :: 0 <= i < |s| ==> !IsSpace(s[i])
  }

  predicate OccursAt(s: string, sub: string, i: int) {
    0 <= i && i + |sub| <= |s| && s[i..i + |sub|] == sub
  }

  /** Python's `sub in s`. */
  predicate Contains(s: string, sub: string) {
    exists i | 0 <= i <= |s| :: OccursAt(s, sub, i)
  }

  predicate StartsWith(s: string, prefix: string) {
    |prefix| <= |s| && s[..|prefix|] == prefix
  }

  predicate EndsWith(s: string, suffix: string) {
    |suffix| <= |s| && s[|s| - |suffix|..] == suffix
  }

  /** `sep.join(parts)`. */
  function Join(parts: seq<string>, sep: string): string {
    if parts == [] then []
    else if |parts| == 1 then parts[0]
    else parts[0] + sep + Join(parts[1..], sep)
  }

  /** The literal `w` (given in upper case) occurs at `i`, compared the way
      `re.IGNORECASE` compares ASCII letters. */
  predicate LiteralAt(s: string, i: int, w: string) {
    0 <= i && i + |w| <= |s| && Upper(s[i..i + |w|]) == w
  }

  /** A prefix of the upper-cased text is a literal at its start compared
      the way `re.IGNORECASE` compares. */
  lemma StartsWithUpper(s: string)
    ensures forall w :: StartsWith(Upper(s), w) <==> LiteralAt(s, 0, w)
  {
    forall w
      ensures StartsWith(Upper(s), w) <==> LiteralAt(s, 0, w)
    {
      if |w| <= |s| {
        UpperSlice(s, 0, |w|);
      }
    }
  }

  /** A literal found in a text is still found once more text follows. */
  lemma LiteralAtAppend(a: string, b: string, i: int, w: string)
    requires LiteralAt(a, i, w)
    ensures LiteralAt(a + b, i, w)
  {
    assert (a + b)[i..i + |w|] == a[i..i + |w|];
  }

  /** `\b` before position `i` of a match whose first character is a word
      character. */
  predicate BoundaryBefore(s: string, i: int)
    requires 0 <= i <= |s|
  {
    i == 0 || !IsWordChar(s[i - 1])
  }

  /** `\b` at position `j` just after a match whose last character is a word
      character. */
  predicate BoundaryAfter(s: string, j: int)
    requires 0 <= j <= |s|
  {
    j == |s| || !IsWordChar(s[j])
  }

  /** `\bW\b` for an upper-case word `w` matching at `i`, case-insensitively. */
  predicate WordAt(s: string, i: int, w: string) {
    LiteralAt(s, i, w) && BoundaryBefore(s, i) && BoundaryAfter(s, i + |w|)
  }

  predicate ContainsWord(s: string, w: string) {
    exists i | 0 <= i <= |s| :: WordAt(s, i, w)
  }

  function DigitChar(d: nat): (c: char)
    requires d < 10
    ensures IsDigit(c)
  {
    ('0' as int + d) as char
  }

  function DigitValue(c: char): (d: nat)
    requires IsDigit(c)
    ensures d < 10
  {
    c as int - '0' as int
  }

  predicate AllDigits(s: string) {
    forall i :: 0 <= i < |s| ==> IsDigit(s[i])
  }

  /** Python's `str(n)` for a natural number. */
  function NatToString(n: nat): (r: string)
    ensures r != [] && AllDigits(r)
  {
    if n < 10 then [DigitChar(n)] else NatToString(n / 10) + [DigitChar(n % 10)]
  }

  /** Python's `str(i)` for any integer. */
  function IntToString(i: int): string {
    if i < 0 then "-" + NatToString(-i) else NatToString(i)
  }

  /** Python's `int(d)` for a string of ASCII digits. */
  function DigitsValue(d: string): nat
    requires AllDigits(d)
  {
    if d == [] then 0 else DigitsValue(d[..|d| - 1]) * 10 + DigitValue(d[|d| - 1])
  }

  /** `int(str(n)) == n`. */
  lemma {:induction false} DigitsValueOfNatToString(n: nat)
    ensures DigitsValue(NatToString(n)) == n
  {
    if n >= 10 {
      var r := NatToString(n);
      assert r[..|r| - 1] == NatToString(n / 10);
      DigitsValueOfNatToString(n / 10);
    }
  }

  /** `s.split(sep)` for a one-character separator: always at least one
      piece, empty pieces kept. */
  function SplitOn(s: string, sep: char): (r: seq<string>)
    ensures |r| >= 1
    ensures forall k :: 0 <= k < |r| ==> sep !in r[k]
    ensures Join(r, [sep]) == s
  {
    var j := Span(s, 0, c => c != sep);
    if j == |s| then [s]
    else
      var rest := SplitOn(s[j + 1..], sep);
      assert s == s[..j] + [sep] + s[j + 1..];
      [s[..j]] + rest
  }

  /** Leftmost-match search, the way `re.search` scans a string: the first
      position at or after `from` where the matcher `m` succeeds. */
  function FirstMatch<T>(s: string, from: nat, m: (string, nat) -> Option<T>): (r: Option<(nat, T)>)
    ensures r.Some? ==> from <= r.value.0 <= |s| && m(s, r.value.0) == Some(r.value.1)
    ensures r.Some? ==> forall j :: from <= j < r.value.0 ==> m(s, j).None?
    ensures r.None? ==> forall j :: from <= j <= |s| ==> m(s, j).None?
    decreases |s| + 1 - from
  {
    if from > |s| then None
    else match m(s, from)
      case Some(v) => Some((from, v))
      case None => FirstMatch(s, from + 1, m)
  }
}

=== FILE: visualizer.dfy ===
/** `ChartVisualizer`: the choice of chart for a query result. The frame is
    abstracted to its row count and its columns, each already classified
    the way `select_dtypes` classifies it; drawing is not modelled. */
module Visualizer {

  import opened Results

  /** A column's dtype as far as the decision sees it: `NumericKind` for
      the integer and float dtypes, `DatetimeKind` for `datetime64`,
      `CategoricalKind` for object, category and bool columns,
      `DecimalKind` for an object column whose first value is a `Decimal`
      (what a PostgreSQL NUMERIC arrives as), `OtherKind` for the rest. */
  datatype ColumnKind = NumericKind | DatetimeKind | CategoricalKind | DecimalKind | OtherKind

  datatype ResultFrame = ResultFrame(rowCount: nat, columns: seq<(string, ColumnKind)>)

  datatype ChartType = Line | Bar | Scatter | Histogram | NoChart

  function ChartTypeName(t: ChartType): string {
    match t
    case Line => "line"
    case Bar => "bar"
    case Scatter => "scatter"
    case Histogram => "histogram"
    case NoChart => "none"
  }

  /** `df.select_dtypes(include=...).columns.tolist()`: the names of the
      columns of one kind, in column order. */
  function ColumnsOfKind(cols: seq<(string, ColumnKind)>, kind: ColumnKind): (r: seq<string>)
    ensures |r| <= |cols|
    ensures forall n :: n in r <==> exists k | 0 <= k < |cols| :: cols[k] == (n, kind)
  {
    if cols == [] then []
    else
      var rest := ColumnsOfKind(cols[1..], kind);
      assert forall k :: 0 <= k < |cols| - 1 ==> cols[1..][k] == cols[k + 1];
      assert forall n :: (exists k | 0 <= k < |cols| :: cols[k] == (n, kind))
                         <==> cols[0] == (n, kind) || exists k | 0 <= k < |cols[1..]| :: cols[1..][k] == (n, kind) by {
        forall n | exists k | 0 <= k < |cols| :: cols[k] == (n, kind)
          ensures cols[0] == (n, kind) || exists k | 0 <= k < |cols[1..]| :: cols[1..][k] == (n, kind)
        {
          var k :| 0 <= k < |cols| && cols[k] == (n, kind);
          if k > 0 { assert cols[1..][k - 1] == (n, kind); }
        }
      }
      if cols[0].1 == kind then [cols[0].0] + rest else rest
  }

  /** The first column of a kind is the first such column of the frame. */
  lemma {:induction false} FirstOfKind(cols: seq<(string, ColumnKind)>, kind: ColumnKind)
    requires ColumnsOfKind(cols, kind) != []
    ensures exists k | 0 <= k < |cols| :: cols[k] == (ColumnsOfKind(cols, kind)[0], kind)
                                         && forall j :: 0 <= j < k ==> cols[j].1 != kind
  {
    if cols[0].1 != kind {
      FirstOfKind(cols[1..], kind);
      var k :| 0 <= k < |cols[1..]| && cols[1..][k] == (ColumnsOfKind(cols[1..], kind)[0], kind)
               && forall j :: 0 <= j < k ==> cols[1..][j].1 != kind;
      assert cols[k + 1] == cols[1..][k];
      assert forall j :: 1 <= j < k + 1 ==> cols[j] == cols[1..][j - 1];
    }
  }

  /** `k` is the position of the first column of `kind`. */
  predicate FirstOfKindAt(cols: seq<(string, ColumnKind)>, kind: ColumnKind, k: int) {
    0 <= k < |cols| && cols[k].1 == kind && forall j :: 0 <= j < k ==> cols[j].1 != kind
  }

  /** `i` and `k` are the positions of the first and second columns of `kind`. */
  predicate SecondOfKindAt(cols: seq<(string, ColumnKind)>, kind: ColumnKind, i: int, k: int) {
    FirstOfKindAt(cols, kind, i) && i < k < |cols| && cols[k].1 == kind
    && forall j :: i < j < k ==> cols[j].1 != kind
  }

  /** The list of a kind starts with the first column of that kind and goes
      on with the columns after it. */
  lemma {:induction false} FirstOfKindSplit(cols: seq<(string, ColumnKind)>, kind: ColumnKind, k: int)
    requires FirstOfKindAt(cols, kind, k)
    ensures ColumnsOfKind(cols, kind) == [cols[k].0] + ColumnsOfKind(cols[k + 1..], kind)
    decreases k
  {
    if k > 0 {
      assert FirstOfKindAt(cols[1..], kind, k - 1) by {
        assert forall j :: 0 <= j < k - 1 ==> cols[1..][j] == cols[j + 1];
      }
      FirstOfKindSplit(cols[1..], kind, k - 1);
      assert cols[1..][k..] == cols[k + 1..];
    }
  }

  /** The second name of a kind's list is that of the second column of that
      kind, at a position after the first. */
  lemma {:induction false} SecondOfKind(cols: seq<(string, ColumnKind)>, kind: ColumnKind)
    requires |ColumnsOfKind(cols, kind)| >= 2
    ensures FirstTwoAxes(cols, kind, Some(ColumnsOfKind(cols, kind)[0]), Some(ColumnsOfKind(cols, kind)[1]))
  {
    var names := ColumnsOfKind(cols, kind);
    var i := FirstIndex(cols, kind);
    FirstOfKindSplit(cols, kind, i);
    var tail := cols[i + 1..];
    assert ColumnsOfKind(tail, kind) == names[1..];
    var m := FirstIndex(tail, kind);
    SecondAfterFirst(cols, kind, i, m);
    assert SecondOfKindAt(cols, kind, i, i + 1 + m) && cols[i].0 == names[0] && cols[i + 1 + m].0 == names[1];
  }

  /** The position of the first column of a kind. */
  lemma FirstIndex(cols: seq<(string, ColumnKind)>, kind: ColumnKind) returns (k: int)
    requires ColumnsOfKind(cols, kind) != []
    ensures FirstOfKindAt(cols, kind, k) && cols[k].0 == ColumnsOfKind(cols, kind)[0]
  {
    FirstOfKind(cols, kind);
    k :| 0 <= k < |cols| && cols[k] == (ColumnsOfKind(cols, kind)[0], kind)
         && forall j :: 0 <= j < k ==> cols[j].1 != kind;
  }

  /** The first column of a kind after the first one is the second. */
  lemma SecondAfterFirst(cols: seq<(string, ColumnKind)>, kind: ColumnKind, i: int, m: int)
    requires FirstOfKindAt(cols, kind, i) && FirstOfKindAt(cols[i + 1..], kind, m)
    ensures SecondOfKindAt(cols, kind, i, i + 1 + m) && cols[i + 1 + m] == cols[i + 1..][m]
  {
    assert forall j :: i < j < i + 1 + m ==> cols[j] == cols[i + 1..][j - i - 1];
  }

  /** Both entry points first cast every `Decimal` column to float. */
  function ConvertDecimals(cols: seq<(string, ColumnKind)>): (r: seq<(string, ColumnKind)>)
    ensures |r| == |cols|
    ensures forall k :: 0 <= k < |cols| ==>
              r[k].0 == cols[k].0 && r[k].1 == (if cols[k].1 == DecimalKind then NumericKind else cols[k].1)
  {
    if cols == [] then []
    else [(cols[0].0, if cols[0].1 == DecimalKind then NumericKind else cols[0].1)] + ConvertDecimals(cols[1..])
  }

  /** The three lists the decision looks at. */
  datatype Kinds = Kinds(numeric: seq<string>, datetime: seq<string>, categorical: seq<string>)

  /** The three `select_dtypes` lists after the `Decimal` cast: a name is
      listed as numeric iff some column of that name is numeric or
      `Decimal`, and as datetime or categorical iff some column of that
      name has that kind. */
  function Classify(f: ResultFrame): (r: Kinds)
    ensures forall n :: n in r.numeric <==>
              exists k | 0 <= k < |f.columns| :: f.columns[k].0 == n && CountsAs(f.columns[k].1, NumericKind)
    ensures forall n :: n in r.datetime <==> (n, DatetimeKind) in f.columns
    ensures forall n :: n in r.categorical <==> (n, CategoricalKind) in f.columns
  {
    var cols := ConvertDecimals(f.columns);
    assert forall k :: 0 <= k < |cols| ==>
             (cols[k].1 == NumericKind <==> CountsAs(f.columns[k].1, NumericKind))
             && (cols[k].1 == DatetimeKind <==> f.columns[k].1 == DatetimeKind)
             && (cols[k].1 == CategoricalKind <==> f.columns[k].1 == CategoricalKind);
    Kinds(ColumnsOfKind(cols, NumericKind), ColumnsOfKind(cols, DatetimeKind),
          ColumnsOfKind(cols, CategoricalKind))
  }

  /** The decision table shared by both entry points; precedence is line,
      bar, scatter, histogram. Every chart needs a numeric column; a
      scatter or histogram only happens with no datetime and no
      categorical column, and then a scatter needs two numeric columns. */
  function Decide(k: Kinds): (t: ChartType)
    ensures t == NoChart <==> k.numeric == []
    ensures t == Line <==> k.datetime != [] && k.numeric != []
    ensures t == Bar <==> k.datetime == [] && k.categorical != [] && k.numeric != []
    ensures t in {Scatter, Histogram} ==> k.datetime == [] && k.categorical == []
    ensures t == Scatter <==> k.datetime == [] && k.categorical == [] && |k.numeric| >= 2
  {
    if |k.datetime| >= 1 && |k.numeric| >= 1 then Line
    else if |k.categorical| >= 1 && |k.numeric| >= 1 then Bar
    else if |k.numeric| >= 2 then Scatter
    else if |k.numeric| == 1 then Histogram
    else NoChart
  }

  datatype Recommendation = Recommendation(recommended: ChartType, reason: string, x: Option<string>, y: Option<string>)

  /** `get_chart_recommendation` without the confidence figure. */
  function GetChartRecommendation(f: ResultFrame): (r: Recommendation)
    ensures f.rowCount == 0 ==> r == Recommendation(NoChart, "DataFrame is empty", None, None)
    ensures f.rowCount > 0 ==> r.recommended == Decide(Classify(f))
    ensures r.recommended == NoChart <==> r.x.None?
    ensures r.y.Some? <==> r.recommended in {Line, Bar, Scatter}
    ensures r.recommended == Line ==> r.x.value in Classify(f).datetime && r.y.value in Classify(f).numeric
    ensures r.recommended == Bar ==> r.x.value in Classify(f).categorical && r.y.value in Classify(f).numeric
    ensures r.recommended in {Scatter, Histogram} ==> r.x.value in Classify(f).numeric
    ensures r.recommended == Scatter ==> r.y.value in Classify(f).numeric
  {
    if f.rowCount == 0 then Recommendation(NoChart, "DataFrame is empty", None, None)
    else
      var k := Classify(f);
      match Decide(k)
      case Line =>
        Recommendation(Line, "Time series data detected (datetime + numeric columns)",
                       Some(k.datetime[0]), Some(k.numeric[0]))
      case Bar =>
        Recommendation(Bar, "Categorical and numeric data detected",
                       Some(k.categorical[0]), Some(k.numeric[0]))
      case Scatter =>
        Recommendation(Scatter, "Two or more numeric columns detected",
                       Some(k.numeric[0]), Some(k.numeric[1]))
      case Histogram =>
        Recommendation(Histogram, "Single numeric column detected", Some(k.numeric[0]), None)
      case NoChart =>
        Recommendation(NoChart, "No numeric columns found - table view only", None, None)
  }

  /** `axis` names the first column of `kind`. */
  predicate FirstAxis(cols: seq<(string, ColumnKind)>, kind: ColumnKind, axis: Option<string>) {
    exists k | 0 <= k < |cols| :: FirstOfKindAt(cols, kind, k) && axis == Some(cols[k].0)
  }

  /** `x` and `y` name the first and second columns of `kind`. */
  predicate FirstTwoAxes(cols: seq<(string, ColumnKind)>, kind: ColumnKind, x: Option<string>, y: Option<string>) {
    exists i, k | 0 <= i < k < |cols| :: SecondOfKindAt(cols, kind, i, k) && x == Some(cols[i].0) && y == Some(cols[k].0)
  }

  /** The axes are picked by position: a line chart plots the first
      datetime column against the first numeric one, a bar chart the first
      categorical column against the first numeric one, a scatter plot the
      first numeric column against the second, and a histogram the first
      numeric column (positions after the `Decimal` cast). */
  lemma RecommendedAxes(f: ResultFrame)
    ensures var r := GetChartRecommendation(f);
            var cols := ConvertDecimals(f.columns);
            && (r.recommended == Line ==>
                  FirstAxis(cols, DatetimeKind, r.x) && FirstAxis(cols, NumericKind, r.y))
            && (r.recommended == Bar ==>
                  FirstAxis(cols, CategoricalKind, r.x) && FirstAxis(cols, NumericKind, r.y))
            && (r.recommended == Scatter ==> FirstTwoAxes(cols, NumericKind, r.x, r.y))
            && (r.recommended == Histogram ==> FirstAxis(cols, NumericKind, r.x))
  {
    var r := GetChartRecommendation(f);
    var cols := ConvertDecimals(f.columns);
    var kinds := Classify(f);
    match r.recommended
    case Line =>
      assert r.x == Some(kinds.datetime[0]) && r.y == Some(kinds.numeric[0]);
      FirstOfKindWitness(cols, DatetimeKind);
      FirstOfKindWitness(cols, NumericKind);
    case Bar =>
      assert r.x == Some(kinds.categorical[0]) && r.y == Some(kinds.numeric[0]);
      FirstOfKindWitness(cols, CategoricalKind);
      FirstOfKindWitness(cols, NumericKind);
    case Scatter =>
      assert r.x == Some(kinds.numeric[0]) && r.y == Some(kinds.numeric[1]);
      SecondOfKind(cols, NumericKind);
    case Histogram =>
      assert r.x == Some(kinds.numeric[0]);
      FirstOfKindWitness(cols, NumericKind);
    case NoChart =>
  }

  /** `FirstOfKind` in terms of `FirstAxis`. */
  lemma FirstOfKindWitness(cols: seq<(string, ColumnKind)>, kind: ColumnKind)
    requires ColumnsOfKind(cols, kind) != []
    ensures FirstAxis(cols, kind, Some(ColumnsOfKind(cols, kind)[0]))
  {
    FirstOfKind(cols, kind);
    var k :| 0 <= k < |cols| && cols[k] == (ColumnsOfKind(cols, kind)[0], kind)
             && forall j :: 0 <= j < k ==> cols[j].1 != kind;
    assert FirstOfKindAt(cols, kind, k);
  }

  /** What `create_chart` would draw: the helper it calls and its axes. */
  datatype Plot =
    | LinePlot(time: string, value: string)
    | BarPlot(category: string, value: string)
    | ScatterPlot(xValue: string, yValue: string)
    | HistogramPlot(value: string)

  /** `create_chart`: the plot and the chart type name. */
  function CreateChart(f: ResultFrame): (r: (Option<Plot>, string))
    ensures f.rowCount == 0 ==> r == (None, "none")
    ensures r.0.None? <==> r.1 == "none"
  {
    if f.rowCount == 0 then (None, "none")
    else
      var k := Classify(f);
      if |k.datetime| >= 1 && |k.numeric| >= 1 then (Some(LinePlot(k.datetime[0], k.numeric[0])), "line")
      else if |k.categorical| >= 1 && |k.numeric| >= 1 then (Some(BarPlot(k.categorical[0], k.numeric[0])), "bar")
      else if |k.numeric| >= 2 then (Some(ScatterPlot(k.numeric[0], k.numeric[1])), "scatter")
      else if |k.numeric| == 1 then (Some(HistogramPlot(k.numeric[0])), "histogram")
      else (None, "none")
  }

  /** The two entry points agree: the chart drawn is the one recommended,
      on the recommended axes. */
  lemma CreateChartFollowsRecommendation(f: ResultFrame)
    ensures CreateChart(f).1 == ChartTypeName(GetChartRecommendation(f).recommended)
    ensures var r := GetChartRecommendation(f);
            match CreateChart(f).0
            case None => r.recommended == NoChart
            case Some(LinePlot(t, v)) => r.recommended == Line && r.x == Some(t) && r.y == Some(v)
            case Some(BarPlot(c, v)) => r.recommended == Bar && r.x == Some(c) && r.y == Some(v)
            case Some(ScatterPlot(a, b)) => r.recommended == Scatter && r.x == Some(a) && r.y == Some(b)
            case Some(HistogramPlot(v)) => r.recommended == Histogram && r.x == Some(v) && r.y.None?
  {
  }

  /** Whether a column of kind `c` lands in `kind`'s list once `Decimal`
      columns are cast to float. */
  predicate CountsAs(c: ColumnKind, kind: ColumnKind) {
    c == kind || (kind == NumericKind && c == DecimalKind)
  }

  /** The frame has a column that counts as `kind`. */
  predicate HasColumn(f: ResultFrame, kind: ColumnKind) {
    exists k | 0 <= k < |f.columns| :: CountsAs(f.columns[k].1, kind)
  }

  /** The decision in terms of the frame's columns (a `Decimal` column
      counting as numeric): a line chart exactly when there is a datetime
      and a numeric column, a bar chart exactly when there is no datetime
      column but a categorical and a numeric one, and no chart exactly when
      there is no numeric column. */
  lemma DecisionByColumns(f: ResultFrame)
    requires f.rowCount > 0
    ensures var t := GetChartRecommendation(f).recommended;
            var hasNum := HasColumn(f, NumericKind);
            var hasTime := HasColumn(f, DatetimeKind);
            var hasCat := HasColumn(f, CategoricalKind);
            && (t == Line <==> hasTime && hasNum)
            && (t == Bar <==> !hasTime && hasCat && hasNum)
            && (t == NoChart <==> !hasNum)
  {
    var k := Classify(f);
    PresenceOfKind(f.columns, NumericKind);
    PresenceOfKind(f.columns, DatetimeKind);
    PresenceOfKind(f.columns, CategoricalKind);
    assert |k.numeric| >= 1 <==> HasColumn(f, NumericKind);
    assert |k.datetime| >= 1 <==> HasColumn(f, DatetimeKind);
    assert |k.categorical| >= 1 <==> HasColumn(f, CategoricalKind);
    assert GetChartRecommendation(f).recommended == Decide(k);
  }

  /** After the cast, a kind's list is non-empty exactly when the frame has
      a column that counts as that kind. */
  lemma PresenceOfKind(columns: seq<(string, ColumnKind)>, kind: ColumnKind)
    requires kind != DecimalKind
    ensures ColumnsOfKind(ConvertDecimals(columns), kind) != []
            <==> exists k | 0 <= k < |columns| :: CountsAs(columns[k].1, kind)
  {
    var cols := ConvertDecimals(columns);
    NonEmptyIffPresent(cols, kind);
    assert forall k :: 0 <= k < |columns| ==> (cols[k].1 == kind <==> CountsAs(columns[k].1, kind));
  }

  lemma NonEmptyIffPresent(cols: seq<(string, ColumnKind)>, kind: ColumnKind)
    ensures ColumnsOfKind(cols, kind) != [] <==> exists k | 0 <= k < |cols| :: cols[k].1 == kind
  {
    var r := ColumnsOfKind(cols, kind);
    if r != [] {
      assert r[0] in r;
    }
    if exists k | 0 <= k < |cols| :: cols[k].1 == kind {
      var k :| 0 <= k < |cols| && cols[k].1 == kind;
      assert cols[k] == (cols[k].0, kind);
      assert cols[k].0 in r;
    }
  }
}
